=== FILE: README.md ===
# Flowpitch backend: a Dafny model of its request handlers

Flowpitch is a product-roadmap service. Users register, or sign in with
Google or GitHub. They create projects, each with a roadmap of stages, and
suggest features on them. Users vote on features and comment on them (with
`@username` mentions), hold discussions with threaded replies, follow
projects and get notifications. Owners invite collaborators with roles.
Every change is logged for the activity feed, and dashboards and searches
summarise it all.

This project models the controllers behind those routes, the request
validators and the OAuth callbacks. It also proves what the handlers
promise: who may see or change what, which rows a handler writes, that
cached counts stay in step with the rows they count, and what each answer
holds.

How the model is built:

- **The database is a class.** `Model.Store` holds one `seq` per table.
  Every handler that writes is a `method` with `modifies` on the tables it
  touches. Its `ensures` states the new contents of those tables and the
  answer. Rows are kept in insertion order, so a `createdAt` order is
  table order.
- **Handlers return a result.** The answer is a `Common.Result`: either a
  payload, or the HTTP status and message the handler passes to the error
  responder. Errors the database would raise are modelled too. A unique
  index violation and an update of a missing row become status 500 with
  the database's message. A negative offset in a query becomes status 500
  with the message "Invalid pagination". A negative page size is not an
  error: the ORM pages backwards from the end (`Common.Window`).
- **Reads are functions.** A handler that only reads is a `function` over
  the tables it queries. A handler that runs a loop (mention notifications,
  follower fan-out, mention parsing) is a `method` with its loop, proved
  against a function.
- **Outside inputs are parameters.** These include bcrypt (`hash`), the
  clock (`now`), random tokens and ids, `encodeURIComponent` (`encoded`),
  and whether an e-mail went out (`emailSent`). The default of the user
  `role` column is a parameter too.
- **The session is the caller's id.** The JWT middleware becomes the
  caller's id. Routes behind it require that the id names a user row
  (`Members.Authenticated`).
- **Handlers are modelled as written, with three exceptions.** The project
  filters of `globalSearch` and `searchProjects` and the conflict query of
  `register` are wrong in the source (see "Findings"). Those three handler
  models use the corrected queries, and the queries as written are modelled
  beside them. Other behaviour looks
  odd but is deliberate in the source, and the model follows it:
  - `resetPassword` ignores the token it checks and rewrites the password
    of `user@example.com`.
  - The Google callback links an existing row by its avatar address.
  - The validator chains are attached to the routes, but no handler reads
    their results. `Validation` describes what each chain reports; the
    handlers do not refuse on it. The `trim` sanitisers rewrite the body
    before the handler runs, whatever the chains report. A handler's string
    parameters stand for the body after that rewriting.

Modules follow the source files:

| module | source |
|---|---|
| `Common`, `Model`, `Access` | shared helpers, the tables, and the permission filters repeated across controllers |
| `Auth` | `authController.js` |
| `Users` | `userController.js` |
| `Passport` | `passportSetup.js` |
| `Validation` | `middleware/validation.js` |
| `Activity` | `activityController.js` |
| `Votes` | `voteController.js` |
| `Members` | `projectMemberController.js` |
| `Notifications` | `notificationController.js` |
| `Features` | `featureController.js` |
| `Comments` | `commentController.js` |
| `Discussions` | `discussionController.js` |
| `Replies` | `discussionRepliesController.js` |
| `Followers` | `followerController.js` |
| `Stages` | `stageController.js` |
| `Projects` | `projectController.js` |
| `Lists` | in-memory sorts and top-N cuts used by the dashboard and search |
| `Dashboard` | `dashboardController.js` |
| `Search` | `searchController.js` |

## Model

| member | source | states |
|---|---|---|
| Common.ToLower | src/controllers/searchController.js:15 | `toLowerCase` on ASCII: same length, each upper-case letter lowered, every other character kept |
| Common.Trim | src/middleware/validation.js:6 | `trim`: the result occurs in the input right after its leading white space, and starts and ends with something other than white space |
| Common.RoundDiv | src/controllers/dashboardController.js:282 | `Math.round(a / b)`: the result is within a half of the exact quotient, a half rounding up |
| Common.RoundDivUnique | src/controllers/dashboardController.js:282 | only one integer lies within a half of the quotient, so `RoundDiv` is that rounding and no other |
| Common.RoundDivBounds | src/controllers/dashboardController.js:170 | a mean of values in `[0, m]` rounds into `[0, m]` |
| Common.Page | src/controllers/activityController.js:25-26 | `skip`/`take`: at most `take` rows, the rows after the first `skip` in order, empty past the end |
| Common.Reverse | src/controllers/activityController.js:24 | newest first: the same rows in the opposite order |
| Common.Window | src/controllers/activityController.js:25-26 | a signed `take`: a non-negative one is `Page`; a negative one gives the `-take` rows that end `skip` rows before the end, in list order; never more rows than the size of `take` |
| Common.BackwardFirstPage | src/controllers/activityController.js:25-26 | a negative page size at offset 0 gives the last rows of the list, in order |
| Common.WindowWithin | src/controllers/activityController.js:25-26 | a window holds only rows of the list it was cut from |
| Model.ParseRole | src/middleware/validation.js:115 | role wire names: a parsed role prints back as the input, and every role's name parses to it |
| Model.ParseStatus | src/middleware/validation.js:92 | status wire names: parsing inverts printing |
| Model.ParsePriority | src/middleware/validation.js:83 | priority wire names: parsing inverts printing |
| Model.ParseVisibility | src/middleware/validation.js:63 | visibility wire names: parsing inverts printing |
| Access.IsMember | src/controllers/activityController.js:51 | the user has a membership row on the project iff some row of the table names both, whatever its role |
| Access.CanView | src/controllers/activityController.js:45-54 | a private project that the user does not own is visible iff the user has a membership row on it, of any role |
| Access.CanInvite | src/controllers/projectMemberController.js:19-27 | for anyone but the owner, inviting needs a membership row of any role but viewer |
| Access.CanFollow | src/controllers/followerController.js:8-20 | on a private project, for anyone but the owner, following needs a membership row of any role but member |
| Access.CanEditStages | src/controllers/stageController.js:11-17 | for anyone but the owner, creating and updating stages needs a membership row of any role but member and viewer |
| Access.CanDeleteStage | src/controllers/stageController.js:90-99 | for anyone but the owner, deleting a stage needs an owner or admin membership row |
| Access.CanManageMembers | src/controllers/projectMemberController.js:224-236 | changing roles and removing members needs an owner or admin membership row, for the project's owner too |
| Access.CanUpdateFeature | src/controllers/featureController.js:68-77 | for anyone but the author and the project's owner, updating a feature needs an owner or admin membership row on the feature's project |
| Access.CanDeleteReply | src/controllers/discussionRepliesController.js:196-212 | without the discussion's project only the author may delete; otherwise, for anyone but the author and the owner, an owner or admin membership row is needed |
| Access.ViewerMayFollowButNotInvite | src/controllers/followerController.js:12-20 | a viewer collaborator who is not the owner may see and follow the project but may not invite (the invite filter has no `viewer`) |
| Access.MemberRoleMayInviteButNotFollowPrivate | src/controllers/projectMemberController.js:19-27 | a `member` collaborator on a private project may see it and invite, yet may not follow it (the follow filter lacks `member`) |
| Access.EditorMayEditButNotDeleteStages | src/controllers/stageController.js:93-97 | an editor passes the stage create/update filter but not the delete filter |
| Access.OwnerWithoutRowCannotManageMembers | src/controllers/projectMemberController.js:224-236 | the owner without a membership row may invite and delete stages but is refused role changes and removals, which test only membership rows |
| Access.AdminMayUpdateButNotDeleteFeature | src/controllers/featureController.js:68-77 | an admin who is neither author nor owner may update a feature but not delete it |
| Access.ThresholdsNested | src/controllers/stageController.js:13-17 | the permission filters are nested: delete-stage ⟹ edit-stage ⟹ invite ⟹ view, follow ⟹ view, manage-members ⟹ delete-stage |
| Access.PrivateVisibleExactlyToOwnerAndMembers | src/controllers/activityController.js:46-54 | a private project is visible exactly to its owner and to users with a membership row |
| Activity.Feed | src/controllers/activityController.js:9-15 | the caller's feed is no longer than the log |
| Activity.FeedExactly | src/controllers/activityController.js:9-15 | a row is in the caller's feed iff the caller wrote it or holds a membership row on its project |
| Activity.ProjectLogs | src/controllers/activityController.js:63-64 | a project's rows are no more than the log |
| Activity.ProjectLogsExactly | src/controllers/activityController.js:63-64 | a row is in a project's log iff it names that project |
| Activity.GetUserActivity | src/controllers/activityController.js:4-37 | fails with 500 iff the offset `(page - 1) * limit` is negative; otherwise exactly the window of the feed newest first that `limit` selects, so no more rows than the size of `limit`, all of them the caller's feed rows |
| Activity.FirstPageStartsWithNewest | src/controllers/activityController.js:22-26 | with the default page 1 and limit 20, the first row returned is the newest feed row |
| Activity.OwnerMissesOthersRows | src/controllers/activityController.js:9-15 | an owner without a membership row does not see others' rows on their own project in the feed, though the project feed shows them |
| Activity.GetProjectActivity | src/controllers/activityController.js:40-83 | 404 for a missing or invisible project; 500 for a negative offset; otherwise exactly the window of that project's rows newest first that `limit` selects |
| Activity.PrivateFeedClosed | src/controllers/activityController.js:46-61 | a private project's feed is refused to a non-owner without a membership row, whatever the paging |
| Auth.Compare | src/controllers/authController.js:72 | bcrypt compare: a missing stored hash throws (500, "Illegal arguments"); otherwise true iff the stored hash is the password's hash |
| Auth.FirstConflict | src/controllers/authController.js:20-22 | the intended conflict query: the first row whose e-mail matches or whose username equals a sent username; none iff no row collides |
| Auth.FirstConflictAsWritten | src/controllers/authController.js:20-22 | the query as written: the first row whose e-mail matches, or whose username equals the sent one, or any row at all when no username is sent; none iff no row matches |
| Auth.UsernamelessRegistrationRefused | src/controllers/authController.js:20-28 | as written, a registration without a username gets the first row of any non-empty table, reported as "Username taken" unless that row holds the e-mail; with a username sent, the query as written and the intended one agree |
| Auth.SecondUsernamelessSignUp | src/controllers/authController.js:20-28 | one account and a username-less sign-up with a new e-mail: as written a 409 "Username taken", as intended no conflict |
| Auth.UsernamelessChecksEmailOnly | src/controllers/authController.js:20-22 | as intended, a registration without a username conflicts exactly with the row holding its e-mail |
| Auth.AppendKeepsKeysUnique | src/controllers/authController.js:35-44 | appending a row that collides with nothing keeps e-mails and usernames unique |
| Auth.ResponsesIgnoreHash | src/controllers/authController.js:82 | the login and register responses do not depend on the password hash |
| Auth.NewUser | src/controllers/authController.js:35-44 | the created row holds the hash it was given and no provider ids |
| Auth.ConflictMessage | src/controllers/authController.js:25 | "Email already registered" iff the clashing row has the request's e-mail, else "Username taken" |
| Auth.Register | src/controllers/authController.js:15-57 | with the intended conflict query: 409 with the conflict message of the first clashing row and nothing written; otherwise the new row is appended and returned without its hash; e-mails and usernames stay unique |
| Auth.ConflictMessages | src/controllers/authController.js:20-28 | with no e-mail match the clash is "Username taken"; an e-mail row reached first is the row reported |
| Auth.Login | src/controllers/authController.js:60-93 | 401 for an unknown e-mail or wrong password, 500 for a row without a hash; success returns that row without its hash |
| Auth.LoginSucceedsIff | src/controllers/authController.js:64-77 | with unique e-mails, login succeeds iff some row has that e-mail and the password's hash |
| Auth.ForgotPassword | src/controllers/authController.js:96-127 | always the same message; a reset token is returned iff the e-mail is registered |
| Auth.ForgotPasswordReveals | src/controllers/authController.js:117-122 | answers for a known and an unknown e-mail share the message but differ, so the answer discloses whether an e-mail is registered |
| Auth.ResetPassword | src/controllers/authController.js:130-170 | 400 without a token or without a `user@example.com` row; otherwise that row alone gets the new hash, whatever the token |
| Auth.ChangePassword | src/controllers/authController.js:173-204 | 500 for a row without a hash, 400 for a wrong current password; otherwise only the caller's hash changes, to the new password's |
| Auth.ChangedPasswordLogsIn | src/controllers/authController.js:191-194 | after a change, login succeeds with the new password and fails with the old one |
| Users.GetProfile | src/controllers/userController.js:4-28 | the profile returned is the caller's own row, as selected |
| Users.ApplyProfileChanges | src/controllers/userController.js:51-58 | only name, username, bio and avatar change; each sent field is written; an empty body changes nothing |
| Users.UsernameHolder | src/controllers/userController.js:38-40 | the first row other than the caller's holding the username; none iff no such row |
| Users.OwnUsernameFree | src/controllers/userController.js:37-49 | with unique usernames, sending one's own username never counts as taken |
| Users.UpdateKeepsUsernamesUnique | src/controllers/userController.js:51-58 | writing a username no other row holds keeps usernames unique |
| Users.UpdateProfile | src/controllers/userController.js:31-81 | 409 for a non-empty username held by another row; an empty one held elsewhere hits the unique index (500); otherwise only the caller's row changes; usernames stay unique |
| Users.DeleteAccount | src/controllers/userController.js:84-115 | 500 for a row without a hash, 401 for a wrong password; otherwise exactly the caller's row is removed |
| Users.DeletedAccountGone | src/controllers/userController.js:104-106 | after deletion the id no longer authenticates and every other row remains |
| Users.GetPublicProfile | src/controllers/userController.js:118-145 | 404 iff the id is unknown; otherwise that row's public columns |
| Users.UserIndexByKeys | src/controllers/userController.js:120-130 | lookup by id depends only on the ids |
| Users.PublicProfileHidesPrivateColumns | src/controllers/userController.js:120-130 | changing a row's e-mail, role, hash or provider ids changes no public profile |
| Passport.Serialize | src/passportSetup.js:11-13 | the session holds the user's id |
| Passport.Deserialize | src/passportSetup.js:15-24 | the row with that id, or nothing iff no row has it |
| Passport.SessionRoundTrip | src/passportSetup.js:11-24 | with unique ids, deserialising a serialised user gives back that row |
| Passport.NewGoogleUser | src/passportSetup.js:50-59 | the created row carries the new id and the Google id, matches the profile on the next sign-in, and has no password and no GitHub id |
| Passport.FirstGoogleMatch | src/passportSetup.js:40-48 | the first row matching on Google id, e-mail or avatar; none iff no row matches |
| Passport.GoogleOutcome | src/passportSetup.js:40-66 | the signed-in user matches the profile and is in the table, which is unchanged in length or grew by that user |
| Passport.GoogleSignIn | src/passportSetup.js:40-66 | no match: a new row is appended; a match without a Google id: that row alone gains it; a match with one: nothing changes |
| Passport.GoogleSignInSettles | src/passportSetup.js:40-66 | signing in again with the same profile finds the same row and writes nothing |
| Passport.GoogleLinksByAvatar | src/passportSetup.js:40-48 | a row with a different e-mail is linked to the Google account on its avatar address alone |
| Passport.GitHubEmail | src/passportSetup.js:91 | the public e-mail, or `<login>@users.noreply.github.com` |
| Passport.NewGitHubUser | src/passportSetup.js:102-112 | the created row carries the new id, the GitHub id and the login as its username, matches the profile on the next sign-in, has no password and no Google id, and has a nonempty name when the login is nonempty |
| Passport.FirstGitHubMatch | src/passportSetup.js:93-100 | the first row matching on GitHub id or e-mail; none iff no row matches |
| Passport.GitHubSignIn | src/passportSetup.js:91-117 | create (500 when the login is taken as a username), link a row without a GitHub id, or return the row; the result matches and is in the table |
| Passport.GitHubNoReplyMatch | src/passportSetup.js:91-100 | a profile without a public e-mail finds the row holding its no-reply address |
| Validation.FirstLine | src/middleware/validation.js:9 | the prefix before the first line terminator, which `.*` cannot cross |
| Validation.PasswordErrors | src/middleware/validation.js:8-9 | no messages iff at least 8 characters and the three classes on the first line; the length message comes first, the class message last |
| Validation.LineBreakHidesDigit | src/middleware/validation.js:9 | a password whose only digit follows a line break is refused although it has all three classes |
| Validation.FirstLineUpTo | src/middleware/validation.js:9 | a text with no terminator in its first `n` characters, then a terminator or the end, has those `n` as its first line |
| Validation.StrongPasswordExample | src/middleware/validation.js:29-30 | "Passw0rd" passes |
| Validation.ValidName | src/middleware/validation.js:6 | a valid name has at least two characters and is not blank |
| Validation.ValidBio | src/middleware/validation.js:45 | any bio of at most 500 characters as sent is valid |
| Validation.ValidProjectTitle | src/middleware/validation.js:59 | a valid project title has at least three characters and is not blank |
| Validation.ValidProjectDescription | src/middleware/validation.js:60 | any project description of at most 1000 characters as sent is valid |
| Validation.ValidCategory | src/middleware/validation.js:61 | any category of at most 100 characters as sent is valid |
| Validation.ValidFeatureTitle | src/middleware/validation.js:80 | a valid feature title has at least five characters and is not blank |
| Validation.ValidFeatureDescription | src/middleware/validation.js:81 | any feature description of at most 2000 characters as sent is valid |
| Validation.ValidContent | src/middleware/validation.js:103 | valid content has at least one character and is not blank |
| Validation.UsernameErrors | src/middleware/validation.js:10 | an absent username passes; a sent one passes iff 3-30 word characters; length failures report "Invalid value", pattern failures the chain's message |
| Validation.EmptyUsernameRefused | src/middleware/validation.js:44 | an empty username gets both messages |
| Validation.ContentNotBlank | src/middleware/validation.js:103 | content of white space alone is refused, and accepted content is trimmed at both ends |
| Validation.TitleThresholds | src/middleware/validation.js:80 | a valid feature title is a valid project title; a four-character title is valid only for projects |
| Validation.ValidAssignableRole | src/middleware/validation.js:115 | the accepted roles are exactly viewer, editor and admin; owner and member never are |
| Validation.ValidStatus | src/middleware/validation.js:92 | the status list is exactly the model's wire names of the five statuses |
| Validation.ValidPriority | src/middleware/validation.js:83 | the priority list is exactly the wire names of the three priorities |
| Validation.ValidVisibility | src/middleware/validation.js:63 | the visibility list is exactly the wire names of public and private |
| Validation.ValidVoteValue | src/middleware/validation.js:98 | the vote check admits exactly -1, 0 and 1 |
| Notifications.FanOut | src/controllers/notificationController.js:146-157 | the fan-out loop appends exactly one unread notification per recipient, numbered on from the counter |
| Notifications.NotifyNewFeature | src/controllers/notificationController.js:134-161 | every follower of the project except the author gets one "suggested a new feature" notification; nothing is written when the feature or author row is missing (the error is swallowed) |
| Notifications.NotifyStatusChange | src/controllers/notificationController.js:164-188 | every follower of the feature's project gets one status notification naming the old and new status; nothing when the feature is missing |
| Notifications.OwnedIndex | src/controllers/notificationController.js:55-57 | the caller's notification with that key; none iff the caller owns no such notification |
| Notifications.MarkAsRead | src/controllers/notificationController.js:50-79 | 404 unless the notification is the caller's; otherwise that row alone becomes read and is returned |
| Notifications.AllRead | src/controllers/notificationController.js:86-89 | the caller's rows become read, every other row is unchanged, and the order is kept |
| Notifications.MarkAllAsRead | src/controllers/notificationController.js:82-99 | the table becomes `AllRead` of the caller |
| Notifications.DeleteNotification | src/controllers/notificationController.js:102-129 | 404 unless the notification is the caller's; otherwise exactly that row is removed |
| Notifications.Selected | src/controllers/notificationController.js:9-12 | a notification is selected iff it is the caller's and, when only unread ones are asked for, unread |
| Notifications.GetUserNotifications | src/controllers/notificationController.js:4-47 | 500 iff the offset is negative; otherwise exactly the window, newest first, of the caller's rows (unread only when `unreadOnly` is "true"), with the unread count and the total |
| Notifications.UnreadFilterOnlyWhenTrue | src/controllers/notificationController.js:7-12 | any `unreadOnly` other than "true" filters nothing: a page large enough holds every row of the caller, read or not |
| Notifications.BatchSnoc | src/controllers/notificationController.js:146-157 | one more recipient adds one notification at the end |
| Notifications.RecipientsAreFollowers | src/controllers/notificationController.js:146-147 | a user is reached iff they follow the project and are not the excluded author |
| Notifications.RecipientsDistinct | src/controllers/notificationController.js:136-139 | with follower rows forming a set, nobody is notified twice |
| Notifications.AuthorToldOfStatusChangeOnly | src/controllers/notificationController.js:175-184 | an author who follows the project is not told of their own feature but is told of its status changes |
| Notifications.BatchAddressedToRecipients | src/controllers/notificationController.js:148-155 | every notification of a batch goes to a recipient, is unread and carries the kind and reference |
| Notifications.AllReadProperties | src/controllers/notificationController.js:86-89 | afterwards the caller has nothing unread, others' rows are kept, and marking again changes nothing |
| Votes.VoteIndex | src/controllers/voteController.js:22-26 | the caller's vote on the feature; none iff there is no such row |
| Votes.SetVoteCount | src/controllers/voteController.js:46-49 | the feature's cached count is replaced and every other feature is unchanged |
| Votes.AddVote | src/controllers/voteController.js:4-60 | 404 for a missing feature; otherwise the vote is upserted and the count rewritten to the vote sum; vote keys stay unique and cached counts stay equal to the sums |
| Votes.RemoveVote | src/controllers/voteController.js:63-111 | 404 without a vote; otherwise the vote is deleted and the count recomputed (500 when the feature row is gone); keys stay unique and counts stay equal to the sums |
| Votes.SumConcat | src/controllers/voteController.js:41-44 | the vote total of two tables is the sum of their totals |
| Votes.SumUpdate | src/controllers/voteController.js:41-44 | replacing one vote changes the total by the difference of the two contributions |
| Votes.DeleteSum | src/controllers/voteController.js:83-90 | deleting a vote removes exactly its contribution |
| Votes.UpsertSum | src/controllers/voteController.js:22-38 | after an upsert the total gains the new value and loses the old vote's |
| Votes.UpsertKeepsKeysUnique | src/controllers/voteController.js:22-38 | an upsert keeps one vote per (user, feature) |
| Votes.DeleteKeepsKeysUnique | src/controllers/voteController.js:83-90 | a delete keeps one vote per (user, feature) |
| Votes.UpsertSize | src/controllers/voteController.js:22-38 | an upsert adds a row iff the key was absent |
| Votes.UpsertResult | src/controllers/voteController.js:22-38 | after an upsert the key finds the new vote, and the other votes are the same |
| Votes.UpsertIdempotent | src/controllers/voteController.js:22-38 | upserting the same vote twice equals upserting it once |
| Votes.RecountRestoresAgreement | src/controllers/voteController.js:41-49 | recounting the one feature whose total changed makes every cached count equal its total again |
| Votes.AddVoteKeepsCountsAgreeing | src/controllers/voteController.js:22-49 | upsert plus recount keeps every cached count equal to its total |
| Votes.RemoveVoteKeepsCountsAgreeing | src/controllers/voteController.js:83-101 | delete plus recount keeps every cached count equal to its total |
| Votes.AddVoteIdempotent | src/controllers/voteController.js:22-49 | voting the same value twice leaves votes and counts as the first vote left them |
| Votes.ExampleTally | src/controllers/voteController.js:41-44 | two up-votes and one down-vote total 1, and withdrawing the down-vote totals 2 |
| Members.OpenInvite | src/controllers/projectMemberController.js:108-113 | the first invite with the token, not accepted and not expired; none iff there is no such invite |
| Members.NewInvite | src/controllers/projectMemberController.js:64-73 | the invite is unaccepted, expires seven days on, and takes the sent role or `member` |
| Members.InviteMember | src/controllers/projectMemberController.js:12-100 | 404 without invite permission; 409 when a member already has the e-mail; otherwise the invite is stored, and the answer is 500 if the e-mail fails |
| Members.AcceptInvite | src/controllers/projectMemberController.js:103-183 | 400 for no open invite or another account's e-mail; otherwise one membership row with the invite's role, the invite marked accepted, and a join entry logged |
| Members.UpdateMemberRole | src/controllers/projectMemberController.js:217-262 | 403 without an owner/admin membership row; 500 for an unknown membership; otherwise only that row's role changes, to the role sent, and the change is logged; a body without `role` leaves the row as it is and still logs |
| Members.RemoveMember | src/controllers/projectMemberController.js:265-321 | 403 without an owner/admin row; 500 for an unknown membership; 400 for removing oneself; otherwise exactly that row goes and the removal is logged |
| Members.AcceptedInviteCannotBeReused | src/controllers/projectMemberController.js:151-155 | with unique tokens, an accepted invite never opens again |
| Members.ClosedStaysClosed | src/controllers/projectMemberController.js:108-113 | an invite not open now is not open later |
| Members.NewInviteOpenForSevenDays | src/controllers/projectMemberController.js:64-73 | a new invite is open exactly until seven days after its creation |
| Members.NewTokenKeepsTokensUnique | src/controllers/projectMemberController.js:7-10 | adding an invite with a fresh token keeps tokens unique |
| Members.OwnerWithoutRowIsRefusedMemberManagement | src/controllers/projectMemberController.js:224-236 | the owner without a membership row may invite but may not change roles or remove members |
| Features.BacklogIndex | src/controllers/featureController.js:12-17 | a stage of the project titled "Backlog"; none iff there is none |
| Features.NewFeatureRow | src/controllers/featureController.js:25-37 | the created feature: no tags unless given, medium priority unless given, progress 0 unless given, status open, no votes |
| Features.ApplyChanges | src/controllers/featureController.js:85-98 | an update keeps the key, project, author and count, and sets both dates from the body (cleared when absent) |
| Features.CreateFeature | src/controllers/featureController.js:5-59 | 404 without a Backlog stage; otherwise the feature is appended in it and the followers except the author are notified; cached counts stay equal to the sums |
| Features.UpdateFeature | src/controllers/featureController.js:62-119 | 404 unless author, owner or owner/admin member; otherwise only that row changes, and followers are told when the status changes |
| Features.DeleteFeature | src/controllers/featureController.js:198-241 | 404 unless author or owner; otherwise the feature and all its votes and comments go; the other features' counts stay equal to their sums |
| Features.VotesOffSum | src/controllers/featureController.js:220-222 | deleting a feature's votes zeroes its total and leaves every other total |
| Features.VotesOffKeepsOthers | src/controllers/featureController.js:220-222 | the remaining votes are exactly those on other features |
| Features.CommentsOffKeepsOthers | src/controllers/featureController.js:224-226 | the remaining comments are exactly those on other features |
| Features.FreshFeatureFound | src/controllers/featureController.js:25-47 | after appending a feature with a fresh key, that key finds it |
| Features.UpdatedFeatureFound | src/controllers/featureController.js:85-86 | rewriting a row without changing its key keeps it the row found |
| Features.DeleteKeepsCountsAgreeing | src/controllers/featureController.js:219-231 | the cascade keeps the cached counts of the remaining features equal to their sums |
| Features.ApplyChangesIdempotent | src/controllers/featureController.js:85-98 | sending the same update twice has the effect of once |
| Features.EmptyUpdateClearsDatesOnly | src/controllers/featureController.js:95-96 | an update naming no field still clears both dates |
| Comments.RunEnd | src/controllers/commentController.js:8 | the end of the run of word characters starting at `j` |
| Comments.Mentions | src/controllers/commentController.js:7-17 | every mention is a nonempty run of letters, digits and underscores |
| Comments.ParseMentions | src/controllers/commentController.js:7-17 | the regex loop returns `Mentions(content)` |
| Comments.SameRunEnd | src/controllers/commentController.js:8 | a run of word characters ends where the first non-word character or the end is |
| Comments.MentionsAreWords | src/controllers/commentController.js:8 | every mention is a non-empty string of word characters |
| Comments.MentionsFollowAt | src/controllers/commentController.js:8-13 | every mention occurs right after an `@` in the content |
| Comments.NoMentionWithoutAt | src/controllers/commentController.js:8-13 | content without an `@` before a word character has no mentions |
| Comments.EmailAddressReadsAsMention | src/controllers/commentController.js:8 | "mail bob@acme" mentions `acme`: an e-mail address reads as a mention |
| Comments.ParentOf | src/controllers/commentController.js:29 | `parent_id \|\| null`: an empty or absent parent is none |
| Comments.MentionLogsSnoc | src/controllers/commentController.js:74-85 | one more mentioned user adds one mention log at the end |
| Comments.AddComment | src/controllers/commentController.js:20-113 | the create fails (500, nothing written) for a missing feature or parent; otherwise the comment is appended, each mentioned user other than the caller gets a notification and a mention log, and a comment-added entry is logged |
| Comments.NotifyMentions | src/controllers/commentController.js:55-88 | the loop writes one notification and one mention log per mentioned user other than the caller, in order |
| Comments.SelfMentionsNotifyNobody | src/controllers/commentController.js:62 | mentions only of oneself or of unknown names notify nobody |
| Comments.CommenterNeverReached | src/controllers/commentController.js:62 | the commenter is never notified, and no more users than mentions are |
| Comments.MentionedUsersAreNamed | src/controllers/commentController.js:57-62 | everyone notified holds a username mentioned in the content |
| Comments.MentionReachesUser | src/controllers/commentController.js:57-71 | every mentioned user other than the commenter is notified |
| Comments.UpdateComment | src/controllers/commentController.js:151-181 | 404 unless the caller wrote the comment; otherwise only its content changes |
| Comments.DeleteComment | src/controllers/commentController.js:184-217 | 404 unless the caller wrote it or owns the project; otherwise exactly that comment goes |
| Comments.TopLevelComments | src/controllers/commentController.js:116-147 | exactly the feature's comments without a parent |
| Comments.TopLevelPositions | src/controllers/commentController.js:137 | the answer is the feature's top-level rows at strictly increasing table positions, which is `createdAt` ascending |
| Comments.TopLevelPositionsCover | src/controllers/commentController.js:120-124 | every top-level row of the feature is among those positions, so each appears exactly once |
| Discussions.CreateDiscussion | src/controllers/discussionController.js:4-80 | 404 unless the project is public or the caller owns it or holds a membership row; otherwise the discussion is appended and logged, and a fresh one is returned unliked with no likes and no replies |
| Discussions.AppendKeepsLikesResolved | src/controllers/discussionController.js:32-37 | adding a discussion keeps every like pointing at an existing discussion |
| Discussions.FreshDiscussionHasNoLikes | src/controllers/discussionController.js:53-57 | when every like points at an existing discussion, a new key has no likes and is not liked |
| Discussions.OfProjectExactly | src/controllers/discussionController.js:111-112 | a discussion is listed iff it belongs to the project |
| Discussions.GetProjectDiscussions | src/controllers/discussionController.js:83-143 | 404 iff the project is not visible to the caller; otherwise exactly the project's discussions, newest first, each with the caller's like flag, its like count and no replies |
| Discussions.UpdateDiscussion | src/controllers/discussionController.js:146-179 | 404 unless the caller wrote it; otherwise only its content changes |
| Discussions.DeleteDiscussion | src/controllers/discussionController.js:182-215 | 404 unless author or project owner; otherwise exactly that discussion goes |
| Discussions.AdminCannotDeleteOthersDiscussion | src/controllers/discussionController.js:187-195 | an admin collaborator who is neither author nor owner is refused |
| Discussions.LikeDiscussion | src/controllers/discussionController.js:218-262 | a repeated like or a missing discussion fails the insert (500, nothing written); otherwise one like is added and the answer shows it liked with one more like; likes stay unique |
| Discussions.AppendLike | src/controllers/discussionController.js:223-228 | a new like raises that discussion's count by one and keeps likes unique |
| Discussions.LikeIndex | src/controllers/discussionController.js:270-277 | the position of the caller's like; none iff the caller has not liked it |
| Discussions.UnlikeDiscussion | src/controllers/discussionController.js:265-311 | without a like the delete fails (500); otherwise exactly that like goes, and with unique likes the answer shows it unliked |
| Discussions.RemoveUniqueLike | src/controllers/discussionController.js:270-277 | with unique likes, removing a like leaves the discussion unliked by that user |
| Discussions.LikeThenUnlikeRestores | src/controllers/discussionController.js:223-277 | like then unlike restores the like table |
| Replies.StoredParent | src/controllers/discussionRepliesController.js:35-45 | the stored parent is the sent one exactly when it is longer than 5 characters and not `temp-`-prefixed, otherwise null |
| Replies.ParentIdTestReduces | src/controllers/discussionRepliesController.js:35-38 | the four-part test reduces to length > 5 and no `temp-` prefix; the `'aaa'` test never decides anything |
| Replies.RepliesOf | src/controllers/discussionRepliesController.js:131-137 | the replies of a list of nodes, one per node in order |
| Replies.Forest | src/controllers/discussionRepliesController.js:99-141 | every node of a level is a reply of the discussion under the given parent, taken from the rows after the parent's row |
| Replies.Node | src/controllers/discussionRepliesController.js:131-136 | a node carries its own reply, and every node under it is a reply of the same discussion whose parent is that reply |
| Replies.GetDiscussionReplies | src/controllers/discussionRepliesController.js:69-152 | 404 iff the discussion is missing or its project invisible to the caller; otherwise the top level is exactly the discussion's replies without a parent, in creation order, and every like flag in the tree is right |
| Replies.ForestRoots | src/controllers/discussionRepliesController.js:99-128 | one level of `getNestedReplies` holds exactly the discussion's replies with that parent, in creation order |
| Replies.NodeChildren | src/controllers/discussionRepliesController.js:135 | with parents stored before children, a node's `replies` are exactly its children |
| Replies.NoChildBefore | src/controllers/discussionRepliesController.js:99-104 | with parents stored before children, no child of a reply precedes it |
| Replies.ForestFlags | src/controllers/discussionRepliesController.js:116-134 | every node at every depth has `userHasLiked` iff the caller liked that reply |
| Replies.NodeFlags | src/controllers/discussionRepliesController.js:134 | a node's flag is the caller's like on its reply, and so are those of its subtree |
| Replies.CreateReply | src/controllers/discussionRepliesController.js:4-66 | 404 when the discussion is not visible; 500 for a kept parent that does not exist; otherwise the reply is appended with its sanitised parent; parents stay before children and resolve |
| Replies.AppendKeepsLinks | src/controllers/discussionRepliesController.js:40-46 | appending a reply whose parent exists keeps parents before children and links resolving |
| Replies.UpdateReply | src/controllers/discussionRepliesController.js:155-188 | 404 unless the caller wrote it; otherwise only its content changes |
| Replies.DeleteReply | src/controllers/discussionRepliesController.js:191-233 | 404 unless author, project owner or owner/admin member; otherwise exactly that reply goes; parents stay before children |
| Replies.DeleteKeepsParentsEarlier | src/controllers/discussionRepliesController.js:221-223 | removing a reply keeps every remaining parent before its children |
| Replies.LikeIndex | src/controllers/discussionRepliesController.js:270-277 | the position of the caller's like; none iff the caller has not liked it |
| Replies.LikeReply | src/controllers/discussionRepliesController.js:238-302 | 404 for an invisible reply; 400 "Reply already liked" when liked; otherwise exactly one like is added |
| Replies.UnlikeReply | src/controllers/discussionRepliesController.js:305-353 | 404 for an invisible reply; 500 when there is no like to delete; otherwise exactly that like goes |
| Replies.LikeThenUnlikeRestores | src/controllers/discussionRepliesController.js:286-344 | like then unlike restores the like table |
| Followers.FollowIndex | src/controllers/followerController.js:32-39 | the position of the (user, project) row; none iff the user does not follow the project |
| Followers.FollowProject | src/controllers/followerController.js:4-87 | 404 unless public, owner, or an owner/admin/editor/viewer membership row; 409 when already following; otherwise one row is added and the follow is logged with the new count; follower rows stay a set |
| Followers.UnfollowProject | src/controllers/followerController.js:90-137 | 404 when not following; otherwise exactly that row goes and the unfollow is logged with the count, one lower; with set semantics the caller no longer follows |
| Followers.RemoveFollowCount | src/controllers/followerController.js:110-125 | removing a row lowers its project's count by one |
| Followers.CountInsert | src/controllers/followerController.js:224-228 | inserting a row raises the count of its own project only |
| Followers.RemoveFollowUnique | src/controllers/followerController.js:110-117 | with set semantics, a removed row is gone and the rest stays a set |
| Followers.CountSplit | src/controllers/followerController.js:224-228 | the count over two tables is the sum of the counts |
| Followers.FollowThenUnfollowRestores | src/controllers/followerController.js:47-117 | follow then unfollow restores the follower table, and the follow raised the count by one |
| Followers.OfProject | src/controllers/followerController.js:197-198 | a project's follower rows are as many as its count |
| Followers.OfProjectExactly | src/controllers/followerController.js:197-198 | a row is listed iff it names the project |
| Followers.GetProjectFollowers | src/controllers/followerController.js:175-221 | 404 iff the project is missing or invisible; otherwise exactly the project's follower rows, as many as its count, newest first |
| Followers.MemberSeesButCannotFollow | src/controllers/followerController.js:10-29 | a `member` collaborator on a private project may list its followers but not follow it |
| Stages.CreateStage | src/controllers/stageController.js:4-44 | 404 unless owner or owner/admin/editor member; otherwise the stage is appended in the project with the given title and position and colour `bg-gray-500` unless given |
| Stages.ApplyStageChanges | src/controllers/stageController.js:70-73 | only title, position and colour change, each only when sent |
| Stages.UpdateStage | src/controllers/stageController.js:46-83 | 404 for a missing stage or without edit rights; otherwise that stage alone changes |
| Stages.StageChangesIdempotent | src/controllers/stageController.js:70-73 | an empty update changes nothing, and repeating an update changes nothing more |
| Stages.DeleteStage | src/controllers/stageController.js:85-119 | 404 for a missing stage or without owner/admin rights; otherwise exactly that stage goes |
| Stages.DeleteRemovesExactlyThatStage | src/controllers/stageController.js:108-110 | with unique keys, the deleted key is gone and every other stage remains |
| Stages.EditorCreatesButCannotDelete | src/controllers/stageController.js:11-17 | an editor may create stages but not delete them |
| Projects.DropRun | src/controllers/projectController.js:9 | the leading run of characters outside `[a-z0-9]` is gone: what is left is empty or starts with one of them |
| Projects.CollapseShape | src/controllers/projectController.js:9 | collapsing gives slug characters and single dashes, empty iff the input is, starting with a dash iff the input starts outside `[a-z0-9]` |
| Projects.PieceShape | src/controllers/projectController.js:9 | any piece of such a string is one too |
| Projects.StripShape | src/controllers/projectController.js:9 | stripping the end dashes of such a string gives a well-formed slug |
| Projects.Slugify | src/controllers/projectController.js:9 | every slug holds only `[a-z0-9-]`, never two dashes in a row and no dash at either end |
| Projects.WellFormedIsFixed | src/controllers/projectController.js:9 | a well-formed slug is its own slug |
| Projects.CollapseFixed | src/controllers/projectController.js:9 | collapsing leaves alone slug characters with single dashes and no trailing dash |
| Projects.SlugIdempotent | src/controllers/projectController.js:9 | slugifying twice is slugifying once |
| Projects.ExampleSlug | src/controllers/projectController.js:9 | the title " Go!" gets the slug "go" |
| Projects.StagesToCreate | src/controllers/projectController.js:20-26 | the supplied stages when there is at least one, otherwise Backlog, In Progress and Completed; never empty |
| Projects.LogoUrl | src/controllers/projectController.js:11-17 | an uploaded file wins, then a non-empty body `logo_url`, then a dicebear initials avatar |
| Projects.StageRows | src/controllers/projectController.js:38-40 | one stage row per requested stage, in order, in the new project, with its title, position and colour |
| Projects.CreateProject | src/controllers/projectController.js:4-55 | always succeeds; the caller owns the new project; slug from the title and well formed; visibility public and progress 0 unless given; the project and its stage rows are appended |
| Projects.DefaultStagesHaveBacklog | src/controllers/projectController.js:20-26 | a project created without stages has its first Backlog stage where the stage rows begin |
| Projects.CustomStagesWithoutBacklog | src/controllers/projectController.js:20-26 | a project created with stages none titled "Backlog" has no Backlog stage, so no feature can be created in it |
| Projects.ApplyProjectChanges | src/controllers/projectController.js:74-85 | key, owner and slug stay; title, visibility and progress change only when sent |
| Projects.RenameKeepsStaleSlug | src/controllers/projectController.js:74-85 | after a rename to a title with another slug, the stored slug no longer matches the title |
| Projects.UpdateProject | src/controllers/projectController.js:58-95 | 404 and nothing written unless the caller owns the project; otherwise that row alone changes, by the sent fields |
| Projects.DeleteProject | src/controllers/projectController.js:255-282 | 404 and nothing removed unless the caller owns the project; otherwise exactly that row goes |
| Projects.GetProject | src/controllers/projectController.js:136-251 | 404 "Project not found" iff no project has the key; otherwise that project |
| Projects.PrivateProjectReadableByAnyone | src/controllers/projectController.js:140-241 | a private project is returned to a caller who may not view it |
| Lists.SortDescending | src/controllers/dashboardController.js:230-232 | afterwards the array is ordered largest key first and holds the same elements |
| Lists.InsertLeft | src/controllers/searchController.js:288-312 | one insertion step: the run before `i` grows by one element, still ordered, and the array keeps its elements |
| Lists.Swap | src/controllers/searchController.js:288-312 | two elements are exchanged and every other stays |
| Lists.Take | src/controllers/dashboardController.js:228-235 | the first `n` rows, or all when there are fewer |
| Lists.SortedDescending | src/controllers/searchController.js:186 | the rows ordered largest key first, the same rows as given |
| Lists.Insert | src/controllers/searchController.js:186 | one more row, placed so that the order holds, the rest unchanged as a multiset |
| Dashboard.EngagementScore | src/controllers/dashboardController.js:264-271 | between 0 and 100; 100 exactly when the weighted total reaches 99.5; below that, the nearest whole number to a tenth of the total |
| Dashboard.EngagementMonotone | src/controllers/dashboardController.js:264-271 | more features, votes or activities never lower the score |
| Dashboard.ProgressColor | src/controllers/dashboardController.js:273-277 | green iff progress is at least 80, amber iff it lies in [50, 80), red iff below 50 |
| Dashboard.RoundedMean | src/controllers/dashboardController.js:169-170 | 0 for no values; otherwise the nearest whole number to the mean |
| Dashboard.FeatureProgress | src/controllers/dashboardController.js:281 | the features' progress values, one per feature, in order |
| Dashboard.ProjectProgress | src/controllers/dashboardController.js:279-283 | 0 for a missing or empty list; otherwise the nearest whole number to the mean progress |
| Dashboard.ProjectProgressInRange | src/controllers/dashboardController.js:279-283 | with every feature's progress a percentage, so is the project's |
| Dashboard.SumBounds | src/controllers/dashboardController.js:169 | a sum of percentages lies between 0 and 100 times their number |
| Dashboard.CardProgress | src/controllers/dashboardController.js:169 | the progress of each project, in order |
| Dashboard.OverallProgress | src/controllers/dashboardController.js:169-170 | 0 without projects; otherwise the mean progress rounded to the nearest integer, a half up; between 0 and 100 when every project's progress is |
| Dashboard.SumBounds2 | src/controllers/dashboardController.js:169-170 | the rounded mean of the projects' progress is a percentage when each one is |
| Dashboard.CountStatus | src/controllers/dashboardController.js:176-182 | a status count never exceeds the number of features |
| Dashboard.StatusCountsSum | src/controllers/dashboardController.js:176-182 | the five status counts add up to the number of features |
| Dashboard.CompletionRate | src/controllers/dashboardController.js:204-205 | 0 without features; otherwise the nearest whole percentage of completed features on the exact ratio, between 0 and 100 (see Floating point) |
| Dashboard.CompletionRateExtremes | src/controllers/dashboardController.js:204-205 | all features completed gives 100, none gives 0 |
| Dashboard.CountPriority | src/controllers/dashboardController.js:386-390 | a priority count never exceeds the number of features |
| Dashboard.PriorityCountsSum | src/controllers/dashboardController.js:386-390 | the three priority counts add up to the number of features |
| Dashboard.ManyIdeas | src/controllers/dashboardController.js:292-294 | the feature-count message differs from the other two messages |
| Dashboard.DigitChar | src/controllers/dashboardController.js:293 | a decimal digit character |
| Dashboard.DecimalString | src/controllers/dashboardController.js:293 | a non-empty string of digits, with a leading zero only for 0 |
| Dashboard.DecimalRoundTrip | src/controllers/dashboardController.js:293 | reading the numeral back gives the number |
| Dashboard.GenerateInsights | src/controllers/dashboardController.js:285-301 | at most three messages; each message is present iff its condition holds (engagement above 80, more than 10 features, no projects); the engagement message comes first |
| Dashboard.ProgressRows | src/controllers/dashboardController.js:185-192 | the first five projects, each with the colour of its progress |
| Dashboard.ByOwner | src/controllers/dashboardController.js:228-229 | a selection never longer than the list |
| Dashboard.ByOwnerExactly | src/controllers/dashboardController.js:228-229 | a project is selected iff it is in the list and its ownership is the one asked for |
| Dashboard.ByOwnerSplits | src/controllers/dashboardController.js:228-229 | owned and collaborated-on projects together are as many as the list |
| Dashboard.LowProgress | src/controllers/dashboardController.js:233-235 | a selection never longer than the list |
| Dashboard.LowProgressExactly | src/controllers/dashboardController.js:233-235 | a project is selected iff it is in the list with progress under 30 |
| Dashboard.ProjectsOverview | src/controllers/dashboardController.js:227-236 | owned and collaborating are cut from the fetched order; the array is then sorted by followers, most first, as a permutation; trending and needingAttention are cut from the sorted order |
| Dashboard.OwnedCollaboratingShape | src/controllers/dashboardController.js:228-229 | at most six projects each, all fetched ones, owned by the caller and not, respectively |
| Dashboard.SameProjects | src/controllers/dashboardController.js:230-232 | sorting keeps exactly the same projects |
| Dashboard.TrendingShape | src/controllers/dashboardController.js:230-232 | trending is ordered by followers, holds fetched projects, and no project left out has more followers than one shown |
| Dashboard.NeedingAttentionShape | src/controllers/dashboardController.js:233-235 | at most three fetched projects, all under 30% progress |
| Dashboard.ProjectFeatures | src/controllers/dashboardController.js:330-339 | a selection never longer than the feature table |
| Dashboard.ProjectFeaturesExactly | src/controllers/dashboardController.js:330-339 | a feature is selected iff it belongs to the project |
| Dashboard.EngagementRate | src/controllers/dashboardController.js:384-385 | 0 without followers; otherwise the nearest whole percentage of features per follower on the exact ratio, never negative (see Floating point) |
| Dashboard.GetProjectDashboard | src/controllers/dashboardController.js:304-398 | 404 iff the project is missing or the caller may not view it; otherwise its feature rows, each as often as in the table, a completion rate between 0 and 100, the engagement rate from its follower count, and the high, medium and low counts each the number of its features of that priority |
| Search.VisibleClausesMeanCanView | src/controllers/searchController.js:25-29 | the visibility `OR` (public, owned, member) admits exactly the projects the caller may view |
| Search.TextClausesMeanTextMatches | src/controllers/searchController.js:20-24 | the text `OR` admits exactly the projects whose title, description or category contains the text, ignoring case |
| Search.MatchingProjects | src/controllers/searchController.js:57-75 | the matching rows are never more than the table |
| Search.MatchingProjectsExactly | src/controllers/searchController.js:57-75 | a project is found iff it is in the table and the filter admits it |
| Search.GlobalProjectWhereAsWritten | src/controllers/searchController.js:19-30 | as written, the filter's single `OR` list is the visibility list; the text list is gone |
| Search.GlobalAsWrittenIgnoresTerm | src/controllers/searchController.js:19-30 | as written, whether a project is found does not depend on the term, and every public project is found |
| Search.GlobalAsWrittenFindsUnrelated | src/controllers/searchController.js:19-30 | as written, the public project titled "ab" is found by the term "zz" |
| Search.GlobalProjectWhere | src/controllers/searchController.js:19-30 | the corrected filter keeps both lists and no visibility field |
| Search.GlobalProjectMatchesIff | src/controllers/searchController.js:19-30 | with the corrected filter a project is found iff it matches the term, the caller may view it, and its category is the one given |
| Search.SearchProjectsWhereAsWritten | src/controllers/searchController.js:135-148 | as written, the text clauses join the visibility `OR` list, with no second list |
| Search.SearchProjectsAsWrittenLeaks | src/controllers/searchController.js:135-148 | as written, any project whose title contains `q` is found, private or not, by anyone |
| Search.SearchProjectsWhere | src/controllers/searchController.js:135-148 | the corrected filter keeps the visibility list as its first list |
| Search.SearchProjectsMatchesIff | src/controllers/searchController.js:135-148 | with the corrected filter a project is found iff the caller may view it, it matches a given `q` in title or description, and it has the given category and visibility |
| Search.GlobalFeatureMatchesIff | src/controllers/searchController.js:32-45 | a feature is found iff the term is in its title or description or is one of its tags, the caller may view its project, and it has the given status and priority |
| Search.MatchingFeatures | src/controllers/searchController.js:78-99 | the matching features are never more than the table |
| Search.MatchingFeaturesExactly | src/controllers/searchController.js:78-99 | a feature is found iff it is in the table and the filter admits it |
| Search.SortedSame | src/controllers/searchController.js:96 | ordering by votes keeps exactly the same features |
| Search.TakeFor | src/controllers/searchController.js:74 | the page size when a type is named, otherwise half of it rounded down |
| Search.GlobalSearch | src/controllers/searchController.js:4-129 | 400 iff `q` is missing or shorter than two characters; 500 for a negative offset; otherwise exactly the window of the matching projects newest first and of the matching features most voted first that `TakeFor` selects, only for the kinds asked for; the total counts all matches and `hasMore` compares it with skip plus limit |
| Search.WindowDescending | src/controllers/searchController.js:96-98 | a window of a sorted list is sorted |
| Search.RunDescending | src/controllers/searchController.js:96-98 | consecutive rows of a sorted list are sorted |
| Search.SearchProjects | src/controllers/searchController.js:130-211 | an error iff the offset is negative; otherwise exactly the window, newest first, of the projects the caller may view that match a given `q` in title or description and the given category and visibility, with the total of all matches and `hasMore` |
| Search.SearchFeatures | src/controllers/searchController.js:333-399 | an error iff the offset is negative; otherwise exactly the window of the matching features of viewable projects sorted most voted first, with the total and `hasMore` |
| Search.PublicWhere | src/controllers/searchController.js:216-230 | the filter always requires public visibility |
| Search.PublicMatchesIff | src/controllers/searchController.js:216-230 | a project is found iff it is public, matches a given `q` in title, description or category, and has the given category unless that is `All` |
| Search.StageFeatureCount | src/controllers/searchController.js:276-277 | the count of features reached through the project's stages is never more than the table |
| Search.CompletedWithinStageFeatures | src/controllers/searchController.js:276-278 | the completed stage features are never more than all stage features |
| Search.StageProgress | src/controllers/searchController.js:276-278 | 0 without stage features; otherwise the nearest whole percentage of completed ones on the exact ratio, between 0 and 100 (see Floating point) |
| Search.FetchedRows | src/controllers/searchController.js:233-285 | no more rows than the size of `limit`; every fetched row is a public project matching the filters, with its own votes, follower count and progress |
| Search.TotalVotes | src/controllers/searchController.js:272-273 | the sum of the project's vote counts: 0 when the project has no features, never negative when none of its counts is |
| Search.SortRows | src/controllers/searchController.js:287-312 | the in-place sort returns a permutation of the fetched rows ordered by the chosen field and direction |
| Search.SortKeyOrders | src/controllers/searchController.js:290-312 | ordering by the comparator key puts large values first for `desc` and small values first otherwise |
| Search.PublicProjectSearch | src/controllers/searchController.js:212-332 | an error iff the offset is negative; otherwise the fetched page re-sorted by the chosen field and direction as a permutation, each row public and matching; total is the page's length and hasMore is false |

## Left out

- E-mail delivery (`lib/emailService.js`) is not part of this model. Whether a send succeeded is the `emailSent` parameter. The HTML templates are not modelled.
- Cryptography: bcrypt is the `hash` parameter, compared by equality. Its 72-byte input limit is not modelled. Random tokens and JWT signing and checking are parameters or left out. `logout` only clears a cookie, so it has no model.
- The clock is the `now` parameter. `getDateRange` and the `period` window of the user dashboard are date arithmetic and are left out.
- Floating point: every rounding is modelled on the exact rational, with halves rounded up. For the `Math.round(a / b)` forms (`Dashboard.RoundedMean`, `Dashboard.ProjectProgress`, `Dashboard.OverallProgress`, `Dashboard.EngagementScore`) that is what the source computes, since a quotient of integers that is a true half is exactly representable. The `Math.round((a / b) * 100)` forms are not: `Dashboard.CompletionRate` (src/controllers/dashboardController.js:205 and 372), `Dashboard.EngagementRate` (385) and `Search.StageProgress` (src/controllers/searchController.js:278) divide first and multiply the rounded float quotient by 100. With 23 of 40 features completed, 0.575 * 100 is 57.49999999999999 in floating point, so the source reports 57 where the model reports 58. The `toFixed(1)` vote average of `getProjectDashboard` is not modelled.
- Ordering: `createdAt` order is table order. A sort is modelled only by its key. The order among rows with equal keys is not fixed, since `Array.prototype.sort` and the database make no promise about it. Ties in vote order follow the model's insertion sort (`Lists.SortedDescending`), one of the orders the database may return. `searchProjects` and `searchFeatures` are modelled in their default order. An `orderBy` on any other column named by `sortBy` is not modelled.
- Paging: in every paged handler, a negative offset `(page - 1) * limit` is the model's error 500 "Invalid pagination"; the ORM's own message for it is not modelled. A negative `take` is modelled as the ORM's backward page (`Common.Window`). A `page` or `limit` that is not a number is not modelled.
- Enumerations: an unknown status, priority, role or visibility string never reaches the tables in the model. The database's own refusal of one is not modelled.
- Strings: `toLowerCase` and `trim` are modelled on ASCII letters and the listed white-space characters. Lengths count Dafny characters, not UTF-16 code units. `encodeURIComponent` is the `encoded` parameter.
- Validation: `isEmail`, `normalizeEmail` and `isURL` come from express-validator and are not modelled. The handlers do not read the chains' results, so the handler models do not refuse invalid bodies. The `trim` sanitisers run whatever the chains report, so a handler's string parameters stand for the trimmed body; the trimming itself is `Common.Trim`.
- `progress || 0` (src/controllers/dashboardController.js:169 and 281): progress columns are integers in the model and never null, so the fallback to 0 never applies.
- Search.GlobalSearch: its project filter is the corrected one from "Findings", not the code as written; `Search.GlobalAsWrittenFindsUnrelated` states what the code as written finds.
- Search.SearchProjects: its filter is the corrected one from "Findings", not the code as written; `Search.SearchProjectsAsWrittenLeaks` states what the code as written finds.
- Request shapes: a field sent as an explicit `null` is not told apart from an absent one. A request without a password or e-mail body is not modelled. `createStage` (src/routes/stageRoutes.js:13) has no validator: the model takes `title` and `position` as given, while an absent one reaches the ORM as `undefined` and would fail the insert with a 500 if the column is required.
- Database constraints and cascades: the cascades of `deleteProject` and `deleteAccount` (stages, features, members, follows, logs) and the unique indexes on `google_id` and `github_id` are not modelled. Writes that rely on the username unique index are modelled as the 500 the index raises.
- Users.UpdateProfile: the `updatedAt` column is not modelled.
- The role column's default is a parameter (`role`), since the schema is not part of this model.
- ORM response shaping: `include` and `select` of related rows (owners, counts, members, stage features) are not modelled, except where a handler computes with them.
- Concurrency: the `Promise.all` fan-outs run in sequence in the model. Races between an upsert and its recount are not modelled.
- Read handlers outside the modelled core: `getMyProjects`, `getProjectFeatures`, `getFeature`, `getFollowedProjects`, `getProjectMembers` and `getUserVotes` only run queries with the visibility and ownership filters modelled elsewhere. They are not modelled.
- `getUserDashboard` is modelled by the computations it performs on the rows it fetches. Which rows its date-window queries fetch is not modelled. `getDashboardStats` answers with empty arrays and is not modelled.
- Replies.GetDiscussionReplies: the tree has exactly the top-level replies as roots and each reply's children under it. The wider claim, that every reply reachable from a root appears exactly once, is not proved.
- Projects.CreateProject: the stages of a request body are taken as given. Their shape is not checked.
- Projects.StagesToCreate: `createProject` creates three default stages (Backlog, In Progress, Completed). The seed script (scripts/seed.js:198-203) creates four, with Planned as well. The model follows `createProject`.
- Auth.Register: uses the intended conflict query `FirstConflict`. As written, the query also returns the first account whenever no username is sent, so a registration without a username is refused with 409 once any account exists (see Findings; `Auth.FirstConflictAsWritten`).
- Comments.DeleteComment: the replies of a deleted comment (rows whose `parent_id` names it) keep their parent id. Whether the database deletes them too or refuses the delete depends on the foreign key in the schema, which is not part of this model.
- Replies.DeleteReply: the children of a deleted reply keep their `parentId`, so `LinksResolve` is not kept across a delete. Whether the database deletes them too or refuses the delete depends on the foreign key in the schema, which is not part of this model.

## Findings

| source | as written | input that shows it | evidently intended | confidence | as-written member | corrected member |
|---|---|---|---|---|---|---|
| src/controllers/searchController.js:19-30 | the project filter of `globalSearch` names `OR` twice, so the visibility list replaces the text list and the term is ignored | term "zz" and a public project titled "ab": the project is found | projects must match the term and be visible to the caller | not executed | Search.GlobalAsWrittenFindsUnrelated | Search.GlobalProjectMatchesIff |
| src/controllers/authController.js:20-22 | `register` looks for a clash with `OR: [{ email }, { username }]`; the username is optional (src/middleware/validation.js:10), and an absent one makes the second clause the empty filter, which matches every row | an existing account and a sign-up with a new e-mail and no username: 409 "Username taken" | a registration without a username conflicts only with the account holding its e-mail | not executed | Auth.SecondUsernamelessSignUp | Auth.UsernamelessChecksEmailOnly |
| src/controllers/searchController.js:135-148 | `searchProjects` appends the title and description clauses to the visibility `OR` list | a private project titled "secret" and a caller who is neither owner nor member, with `q` = "secret": the project is found | projects must be visible to the caller and, when `q` is given, match it | not executed | Search.SearchProjectsAsWrittenLeaks | Search.SearchProjectsMatchesIff |

=== FILE: access.dfy ===
/** The permission model of project collaboration: who may see a project and
    which membership roles each mutating handler admits.

    Every handler writes its own check as a query filter, and the role
    thresholds differ from handler to handler. Each threshold is one
    predicate here, named after the handlers that use it; the lemmas at the
    end compare them, including the places where they are inconsistent. */
module Access {
  import opened Common
  import opened Model

  /** The caller holds a membership row on the project whose role is in `roles`. */
  predicate HasRole(members: seq<Membership>, user: Id, project: Id, roles: set<Role>)
  {
    exists i :: 0 <= i < |members| && MemberRowIn(members[i], user, project, roles)
  }

  predicate MemberRowIn(m: Membership, user: Id, project: Id, roles: set<Role>)
  {
    m.userId == user && m.projectId == project && m.role in roles
  }

  /** A row of `user` on `project` is in the table. */
  predicate RowOf(members: seq<Membership>, m: Membership, user: Id, project: Id)
  {
    m in members && m.userId == user && m.projectId == project
  }

  /** `HasRole` read as a statement about the rows themselves. */
  lemma HasRoleRows(members: seq<Membership>, user: Id, project: Id, roles: set<Role>)
    ensures HasRole(members, user, project, roles) <==> exists m :: RowOf(members, m, user, project) && m.role in roles
  {
    if m :| RowOf(members, m, user, project) && m.role in roles {
      var i :| 0 <= i < |members| && members[i] == m;
      assert MemberRowIn(members[i], user, project, roles);
    }
  }

  const AllRoles: set<Role> := {Owner, Admin, Member, Editor, Viewer}

  lemma RoleListed(r: Role)
    ensures r in AllRoles
  {
    match r
    case Owner =>
    case Admin =>
    case Member =>
    case Editor =>
    case Viewer =>
  }

  /** A role set given as every role but the `missing` ones. */
  lemma HasRoleExcept(members: seq<Membership>, user: Id, project: Id, roles: set<Role>, missing: set<Role>)
    requires roles + missing == AllRoles && roles !! missing
    ensures HasRole(members, user, project, roles) <==>
      exists m :: RowOf(members, m, user, project) && m.role !in missing
  {
    HasRoleRows(members, user, project, roles);
    if m :| RowOf(members, m, user, project) && m.role !in missing {
      RoleListed(m.role);
    }
  }

  /** The caller has a membership row on the project, whatever its role. */
  predicate IsMember(members: seq<Membership>, user: Id, project: Id)
    ensures IsMember(members, user, project) <==> exists m :: RowOf(members, m, user, project)
  {
    HasRoleExcept(members, user, project, AllRoles, {});
    HasRole(members, user, project, AllRoles)
  }

  /** Visibility gate shared by the read handlers, discussions, replies,
      follower lists, activity feeds and the project dashboard: public, or
      owned by the caller, or the caller is a member of any role. */
  predicate CanView(p: Project, members: seq<Membership>, user: Id)
    ensures p.visibility == Private && p.ownerId != user ==>
      (CanView(p, members, user) <==> exists m :: RowOf(members, m, user, p.id))
  {
    p.visibility == Public || p.ownerId == user || IsMember(members, user, p.id)
  }

  /** `inviteMember`: the owner, or a member whose role is owner, admin,
      member or editor; a viewer may not invite. */
  predicate CanInvite(p: Project, members: seq<Membership>, user: Id)
    ensures p.ownerId != user ==>
      (CanInvite(p, members, user) <==> exists m :: RowOf(members, m, user, p.id) && m.role != Viewer)
  {
    HasRoleExcept(members, user, p.id, {Owner, Admin, Member, Editor}, {Viewer});
    p.ownerId == user || HasRole(members, user, p.id, {Owner, Admin, Member, Editor})
  }

  /** `followProject`: public, or the owner, or a member whose role is
      owner, admin, editor or viewer; the role `member` is missing. */
  predicate CanFollow(p: Project, members: seq<Membership>, user: Id)
    ensures p.visibility == Private && p.ownerId != user ==>
      (CanFollow(p, members, user) <==> exists m :: RowOf(members, m, user, p.id) && m.role != Member)
  {
    HasRoleExcept(members, user, p.id, {Owner, Admin, Editor, Viewer}, {Member});
    p.visibility == Public || p.ownerId == user
    || HasRole(members, user, p.id, {Owner, Admin, Editor, Viewer})
  }

  /** `createStage` and `updateStage`: the owner, or an owner, admin or editor member. */
  predicate CanEditStages(p: Project, members: seq<Membership>, user: Id)
    ensures p.ownerId != user ==>
      (CanEditStages(p, members, user) <==>
         exists m :: RowOf(members, m, user, p.id) && m.role != Member && m.role != Viewer)
  {
    HasRoleExcept(members, user, p.id, {Owner, Admin, Editor}, {Member, Viewer});
    p.ownerId == user || HasRole(members, user, p.id, {Owner, Admin, Editor})
  }

  /** `deleteStage`: the owner, or an owner or admin member; editors are dropped. */
  predicate CanDeleteStage(p: Project, members: seq<Membership>, user: Id)
    ensures p.ownerId != user ==>
      (CanDeleteStage(p, members, user) <==>
         exists m :: RowOf(members, m, user, p.id) && (m.role == Owner || m.role == Admin))
  {
    HasRoleRows(members, user, p.id, {Owner, Admin});
    p.ownerId == user || HasRole(members, user, p.id, {Owner, Admin})
  }

  /** `updateMemberRole` and `removeMember`: a membership row with role owner
      or admin. The project's `ownerId` is not consulted. */
  predicate CanManageMembers(members: seq<Membership>, user: Id, project: Id)
    ensures CanManageMembers(members, user, project) <==>
      exists m :: RowOf(members, m, user, project) && (m.role == Owner || m.role == Admin)
  {
    HasRoleRows(members, user, project, {Owner, Admin});
    HasRole(members, user, project, {Owner, Admin})
  }

  /** `updateFeature`: the author, the owner of the feature's project, or an
      owner or admin member of it. */
  predicate CanUpdateFeature(f: Feature, p: Option<Project>, members: seq<Membership>, user: Id)
    ensures f.authorId != user && (p.None? || p.value.ownerId != user) ==>
      (CanUpdateFeature(f, p, members, user) <==>
         exists m :: RowOf(members, m, user, f.projectId) && (m.role == Owner || m.role == Admin))
  {
    HasRoleRows(members, user, f.projectId, {Owner, Admin});
    f.authorId == user
    || (p.Some? && p.value.ownerId == user)
    || HasRole(members, user, f.projectId, {Owner, Admin})
  }

  /** `deleteFeature`, `deleteComment` and `deleteDiscussion`: the author or
      the owner of the project the item belongs to. */
  predicate IsAuthorOrOwner(author: Id, p: Option<Project>, user: Id)
  {
    author == user || (p.Some? && p.value.ownerId == user)
  }

  /** `deleteReply`: the author, the owner of the discussion's project, or an
      owner or admin member of it. */
  predicate CanDeleteReply(author: Id, p: Option<Project>, members: seq<Membership>, user: Id)
    ensures p.None? ==> (CanDeleteReply(author, p, members, user) <==> author == user)
    ensures author != user && p.Some? && p.value.ownerId != user ==>
      (CanDeleteReply(author, p, members, user) <==>
         exists m :: RowOf(members, m, user, p.value.id) && (m.role == Owner || m.role == Admin))
  {
    if p.None? then author == user
    else
      HasRoleRows(members, user, p.value.id, {Owner, Admin});
      author == user || p.value.ownerId == user || HasRole(members, user, p.value.id, {Owner, Admin})
  }

  // ------------------------------------------------------------ discussions

  /** The project a discussion belongs to, when both rows exist. */
  function ProjectOfDiscussion(discussions: seq<Discussion>, projects: seq<Project>, id: Id): Option<Project>
  {
    match DiscussionIndex(discussions, id)
    case None => None
    case Some(k) => FindProject(projects, discussions[k].projectId)
  }

  /** The lookup the discussion and reply handlers filter by: the discussion
      exists and the caller may view its project. */
  predicate CanSeeDiscussion(discussions: seq<Discussion>, projects: seq<Project>, members: seq<Membership>, user: Id, id: Id)
  {
    var p := ProjectOfDiscussion(discussions, projects, id);
    p.Some? && CanView(p.value, members, user)
  }

  // ------------------------------------------------------------ comparisons

  /** Only the rows of `user` on `project`, all with role `r`. */
  predicate OnlyRole(members: seq<Membership>, user: Id, project: Id, r: Role)
  {
    forall i :: 0 <= i < |members| && members[i].userId == user && members[i].projectId == project
      ==> members[i].role == r
  }

  /** A viewer who does not own the project can see it and may follow it,
      but may not invite. */
  lemma ViewerMayFollowButNotInvite(p: Project, members: seq<Membership>, user: Id)
    requires p.ownerId != user
    requires IsMember(members, user, p.id) && OnlyRole(members, user, p.id, Viewer)
    ensures CanView(p, members, user) && CanFollow(p, members, user)
    ensures !CanInvite(p, members, user)
  {
    var i :| 0 <= i < |members| && MemberRowIn(members[i], user, p.id, AllRoles);
    assert MemberRowIn(members[i], user, p.id, {Owner, Admin, Editor, Viewer});
  }

  /** A collaborator with role `member` on a private project can see it and
      may invite, but may not follow it. */
  lemma MemberRoleMayInviteButNotFollowPrivate(p: Project, members: seq<Membership>, user: Id)
    requires p.visibility == Private && p.ownerId != user
    requires IsMember(members, user, p.id) && OnlyRole(members, user, p.id, Member)
    ensures CanView(p, members, user) && CanInvite(p, members, user)
    ensures !CanFollow(p, members, user)
  {
    var i :| 0 <= i < |members| && MemberRowIn(members[i], user, p.id, AllRoles);
    assert MemberRowIn(members[i], user, p.id, {Owner, Admin, Member, Editor});
  }

  /** An editor may create and update stages but may not delete them. */
  lemma EditorMayEditButNotDeleteStages(p: Project, members: seq<Membership>, user: Id)
    requires p.ownerId != user
    requires IsMember(members, user, p.id) && OnlyRole(members, user, p.id, Editor)
    ensures CanEditStages(p, members, user)
    ensures !CanDeleteStage(p, members, user)
  {
    var i :| 0 <= i < |members| && MemberRowIn(members[i], user, p.id, AllRoles);
    assert MemberRowIn(members[i], user, p.id, {Owner, Admin, Editor});
  }

  /** The owner of a project who holds no membership row on it may delete
      its stages but may neither change roles nor remove members. */
  lemma OwnerWithoutRowCannotManageMembers(p: Project, members: seq<Membership>, user: Id)
    requires p.ownerId == user && !IsMember(members, user, p.id)
    ensures CanDeleteStage(p, members, user) && CanInvite(p, members, user)
    ensures !CanManageMembers(members, user, p.id)
  {
    forall i | 0 <= i < |members|
      ensures !MemberRowIn(members[i], user, p.id, {Owner, Admin})
    {
      assert !MemberRowIn(members[i], user, p.id, AllRoles);
    }
  }

  /** An admin who neither wrote a feature nor owns its project may update it
      but may not delete it. */
  lemma AdminMayUpdateButNotDeleteFeature(f: Feature, p: Project, members: seq<Membership>, user: Id)
    requires p.id == f.projectId && f.authorId != user && p.ownerId != user
    requires HasRole(members, user, p.id, {Admin})
    ensures CanUpdateFeature(f, Some(p), members, user)
    ensures !IsAuthorOrOwner(f.authorId, Some(p), user)
  {
    var i :| 0 <= i < |members| && MemberRowIn(members[i], user, p.id, {Admin});
    assert MemberRowIn(members[i], user, p.id, {Owner, Admin});
  }

  /** The thresholds that are ordered: deleting stages implies editing them,
      editing stages implies inviting, and inviting or following implies seeing. */
  lemma ThresholdsNested(p: Project, members: seq<Membership>, user: Id)
    ensures CanDeleteStage(p, members, user) ==> CanEditStages(p, members, user)
    ensures CanEditStages(p, members, user) ==> CanInvite(p, members, user)
    ensures CanInvite(p, members, user) ==> CanView(p, members, user)
    ensures CanFollow(p, members, user) ==> CanView(p, members, user)
    ensures CanManageMembers(members, user, p.id) ==> CanDeleteStage(p, members, user)
  {
    if CanDeleteStage(p, members, user) && p.ownerId != user {
      var i :| 0 <= i < |members| && MemberRowIn(members[i], user, p.id, {Owner, Admin});
      assert MemberRowIn(members[i], user, p.id, {Owner, Admin, Editor});
    }
    if CanEditStages(p, members, user) && p.ownerId != user {
      var i :| 0 <= i < |members| && MemberRowIn(members[i], user, p.id, {Owner, Admin, Editor});
      assert MemberRowIn(members[i], user, p.id, {Owner, Admin, Member, Editor});
    }
    if CanInvite(p, members, user) && p.ownerId != user {
      var i :| 0 <= i < |members| && MemberRowIn(members[i], user, p.id, {Owner, Admin, Member, Editor});
      assert MemberRowIn(members[i], user, p.id, AllRoles);
    }
    if CanFollow(p, members, user) && p.visibility != Public && p.ownerId != user {
      var i :| 0 <= i < |members| && MemberRowIn(members[i], user, p.id, {Owner, Admin, Editor, Viewer});
      assert MemberRowIn(members[i], user, p.id, AllRoles);
    }
  }

  /** A private project is invisible to a user who neither owns it nor holds
      any membership row on it; a membership row of any role makes it visible. */
  lemma PrivateVisibleExactlyToOwnerAndMembers(p: Project, members: seq<Membership>, user: Id)
    requires p.visibility == Private
    ensures CanView(p, members, user) <==> (p.ownerId == user || IsMember(members, user, p.id))
  {
  }
}

=== FILE: activity.dfy ===
/** Activity feeds (activityController.js): the caller's own feed and the
    feed of one project, newest first and paged.

    The caller's feed holds the rows the caller wrote and the rows of the
    projects on which the caller holds a membership row; ownership alone
    does not count there, whereas the project feed admits the owner. */
module Activity {
  import opened Common
  import opened Model
  import opened Access

  /** A log row belongs in `user`'s feed. */
  predicate InFeed(members: seq<Membership>, user: Id, log: ActivityLog)
  {
    log.userId == user || IsMember(members, user, log.projectId)
  }

  /** The rows of `user`'s feed, in insertion order. */
  function Feed(logs: seq<ActivityLog>, members: seq<Membership>, user: Id): (r: seq<ActivityLog>)
    ensures |r| <= |logs|
  {
    if logs == [] then []
    else
      var last := logs[|logs| - 1];
      Feed(logs[..|logs| - 1], members, user) + (if InFeed(members, user, last) then [last] else [])
  }

  lemma {:induction false} FeedExactly(logs: seq<ActivityLog>, members: seq<Membership>, user: Id)
    ensures forall l :: l in Feed(logs, members, user) <==> l in logs && InFeed(members, user, l)
  {
    if logs != [] {
      FeedExactly(logs[..|logs| - 1], members, user);
      assert logs == logs[..|logs| - 1] + [logs[|logs| - 1]];
    }
  }

  /** The rows of one project, in insertion order. */
  function ProjectLogs(logs: seq<ActivityLog>, project: Id): (r: seq<ActivityLog>)
    ensures |r| <= |logs|
  {
    if logs == [] then []
    else
      var last := logs[|logs| - 1];
      ProjectLogs(logs[..|logs| - 1], project) + (if last.projectId == project then [last] else [])
  }

  lemma {:induction false} ProjectLogsExactly(logs: seq<ActivityLog>, project: Id)
    ensures forall l :: l in ProjectLogs(logs, project) <==> l in logs && l.projectId == project
  {
    if logs != [] {
      ProjectLogsExactly(logs[..|logs| - 1], project);
      assert logs == logs[..|logs| - 1] + [logs[|logs| - 1]];
    }
  }

  /** `getUserActivity`: a page of the caller's feed, newest first. A
      negative offset makes the query fail; a negative page size pages
      back from the oldest rows. */
  function GetUserActivity(logs: seq<ActivityLog>, members: seq<Membership>, caller: Id, page: int, limit: int)
    : (r: Result<seq<ActivityLog>>)
    ensures Skip(page, limit) < 0 <==> r.Err?
    ensures r.Err? ==> r.status == 500
    ensures r.Ok? ==> |r.value| <= Magnitude(limit)
    ensures r.Ok? ==> forall l :: l in r.value ==> l in logs && InFeed(members, caller, l)
    ensures r.Ok? ==> r.value == Window(Reverse(Feed(logs, members, caller)), Skip(page, limit), limit)
  {
    if Skip(page, limit) < 0 then Err(500, "Invalid pagination")
    else
      var feed := Feed(logs, members, caller);
      FeedExactly(logs, members, caller);
      ReverseSame(feed);
      WindowWithin(Reverse(feed), Skip(page, limit), limit);
      Ok(Window(Reverse(feed), Skip(page, limit), limit))
  }

  /** With the default paging (page 1, twenty rows) the first row of the
      feed is the newest row the caller may see. */
  lemma {:induction false} FirstPageStartsWithNewest(logs: seq<ActivityLog>, members: seq<Membership>, caller: Id)
    requires Feed(logs, members, caller) != []
    ensures var r := GetUserActivity(logs, members, caller, 1, 20);
      var f := Feed(logs, members, caller);
      r.Ok? && r.value != [] && r.value[0] == f[|f| - 1]
  {
  }

  /** A project's owner without a membership row on it does not see what
      others did there in the caller's feed, though the project feed shows it. */
  lemma OwnerMissesOthersRows(p: Project, members: seq<Membership>, logs: seq<ActivityLog>, log: ActivityLog)
    requires log in logs && log.projectId == p.id && log.userId != p.ownerId
    requires !IsMember(members, p.ownerId, p.id)
    ensures log !in Feed(logs, members, p.ownerId)
    ensures log in ProjectLogs(logs, p.id) && CanView(p, members, p.ownerId)
  {
    FeedExactly(logs, members, p.ownerId);
    ProjectLogsExactly(logs, p.id);
  }

  /** `getProjectActivity`: 404 unless the project exists and the caller may
      see it; then a page of that project's rows, newest first. */
  function GetProjectActivity(projects: seq<Project>, members: seq<Membership>, logs: seq<ActivityLog>,
                              caller: Id, project: Id, page: int, limit: int)
    : (r: Result<seq<ActivityLog>>)
    ensures var p := FindProject(projects, project);
      p.None? || !CanView(p.value, members, caller) ==> r == Err(404, "Project not found or access denied")
    ensures var p := FindProject(projects, project);
      p.Some? && CanView(p.value, members, caller) && Skip(page, limit) < 0 ==> r.Err? && r.status == 500
    ensures var p := FindProject(projects, project);
      p.Some? && CanView(p.value, members, caller) && Skip(page, limit) >= 0 ==>
        && r.Ok? && |r.value| <= Magnitude(limit)
        && (forall l :: l in r.value ==> l in logs && l.projectId == project)
        && r.value == Window(Reverse(ProjectLogs(logs, project)), Skip(page, limit), limit)
  {
    var p := FindProject(projects, project);
    if p.None? || !CanView(p.value, members, caller) then Err(404, "Project not found or access denied")
    else if Skip(page, limit) < 0 then Err(500, "Invalid pagination")
    else
      var rows := ProjectLogs(logs, project);
      ProjectLogsExactly(logs, project);
      ReverseSame(rows);
      WindowWithin(Reverse(rows), Skip(page, limit), limit);
      Ok(Window(Reverse(rows), Skip(page, limit), limit))
  }

  /** A private project's feed is closed to a user who neither owns it nor
      holds a membership row on it, whatever the paging. */
  lemma PrivateFeedClosed(projects: seq<Project>, members: seq<Membership>, logs: seq<ActivityLog>,
                          caller: Id, project: Id, page: int, limit: int)
    requires var p := FindProject(projects, project);
      p.Some? && p.value.visibility == Private && p.value.ownerId != caller && !IsMember(members, caller, project)
    ensures GetProjectActivity(projects, members, logs, caller, project, page, limit).Err?
  {
  }
}

=== FILE: auth.dfy ===
/** Password accounts (authController.js): registration, login, the
    password-reset pair and password change.

    bcrypt is an uninterpreted one-way function `hash`: `compare(p, h)`
    holds exactly when `h == hash(p)`. bcryptjs refuses a stored hash that
    is not a string (an account created through OAuth has none) by
    throwing, which reaches the error responder as a 500. Signed session
    tokens and random reset tokens are not modelled beyond their presence.

    `resetPassword` is modelled as written: it does not look the token up;
    any non-empty token resets the password of the account whose e-mail is
    `user@example.com`, when there is one. */
module Auth {
  import opened Common
  import opened Model
  import Members

  /** What bcryptjs throws when the stored hash is missing. */
  const IllegalArguments: string := "Illegal arguments: string, object"

  const InvalidCredentials: string := "Invalid credentials"
  const ResetSent: string := "If email exists, reset instructions sent"
  const InvalidResetToken: string := "Invalid or expired reset token"

  /** The only account `resetPassword` ever touches. */
  const ResetAccount: string := "user@example.com"

  /** `bcrypt.compare(password, stored)`. */
  function Compare(hash: string -> string, password: string, stored: Option<string>): (r: Result<bool>)
    ensures stored.None? <==> r == Err(500, IllegalArguments)
    ensures r.Ok? ==> (r.value <==> stored.value == hash(password))
  {
    if stored.None? then Err(500, IllegalArguments) else Ok(stored.value == hash(password))
  }

  // ------------------------------------------------------------ table keys

  predicate EmailsUnique(users: seq<User>)
  {
    forall i, j :: 0 <= i < j < |users| ==> users[i].email != users[j].email
  }

  predicate UsernamesUnique(users: seq<User>)
  {
    forall i, j :: 0 <= i < j < |users| && users[i].username.Some? ==> users[i].username != users[j].username
  }

  /** The row registration is meant to collide with: the same e-mail, or
      the same username when one is sent. The query as written differs when
      the username is absent; see `CollidesAsWritten`. */
  predicate Collides(u: User, email: string, username: Option<string>)
  {
    u.email == email || (username.Some? && u.username == username)
  }

  /** The first colliding row in table order. */
  function FirstConflict(users: seq<User>, email: string, username: Option<string>): (r: Option<nat>)
    ensures r.Some? ==> r.value < |users| && Collides(users[r.value], email, username)
    ensures r.Some? ==> forall j :: 0 <= j < r.value ==> !Collides(users[j], email, username)
    ensures r.None? <==> forall j :: 0 <= j < |users| ==> !Collides(users[j], email, username)
  {
    if users == [] then None
    else if Collides(users[0], email, username) then Some(0)
    else match FirstConflict(users[1..], email, username)
         case None => None
         case Some(k) => Some(k + 1)
  }

  /** The row the query `OR: [{ email }, { username }]` matches as written.
      An absent username leaves the clause `{ username: undefined }`, which
      the ORM reads as the empty filter `{}`, and that matches every row. */
  predicate CollidesAsWritten(u: User, email: string, username: Option<string>)
  {
    u.email == email || username.None? || u.username == username
  }

  /** The first row in table order that the query as written returns. */
  function FirstConflictAsWritten(users: seq<User>, email: string, username: Option<string>): (r: Option<nat>)
    ensures r.Some? ==> r.value < |users| && CollidesAsWritten(users[r.value], email, username)
    ensures r.Some? ==> forall j :: 0 <= j < r.value ==> !CollidesAsWritten(users[j], email, username)
    ensures r.None? <==> forall j :: 0 <= j < |users| ==> !CollidesAsWritten(users[j], email, username)
  {
    if users == [] then None
    else if CollidesAsWritten(users[0], email, username) then Some(0)
    else match FirstConflictAsWritten(users[1..], email, username)
         case None => None
         case Some(k) => Some(k + 1)
  }

  /** As written, a registration without a username is refused as soon as
      any account exists: the first row is returned and reported as a taken
      username unless it holds the e-mail. With a username sent, the query
      as written and the intended one agree. */
  lemma UsernamelessRegistrationRefused(users: seq<User>, email: string, username: Option<string>)
    ensures username.None? && users != [] ==>
      FirstConflictAsWritten(users, email, username) == Some(0) &&
      (users[0].email != email ==> ConflictMessage(users[0], email) == "Username taken")
    ensures username.Some? ==> FirstConflictAsWritten(users, email, username) == FirstConflict(users, email, username)
  {
    if username.Some? && users != [] {
      UsernamelessRegistrationRefused(users[1..], email, username);
    }
  }

  /** The input that shows it: one account, a new e-mail, no username. The
      query as written answers 409 "Username taken"; the intended one finds
      no conflict. */
  lemma SecondUsernamelessSignUp(existing: User, email: string)
    requires existing.email != email
    ensures FirstConflictAsWritten([existing], email, None) == Some(0)
    ensures ConflictMessage(existing, email) == "Username taken"
    ensures FirstConflict([existing], email, None).None?
  {
    UsernamelessRegistrationRefused([existing], email, None);
  }

  /** As intended, a registration without a username conflicts exactly
      with the row holding its e-mail. */
  lemma {:induction false} UsernamelessChecksEmailOnly(users: seq<User>, email: string)
    ensures FirstConflict(users, email, None) == UserByEmail(users, email)
  {
    if users != [] {
      UsernamelessChecksEmailOnly(users[1..], email);
    }
  }

  /** A row no other row collides with keeps e-mails and usernames unique. */
  lemma AppendKeepsKeysUnique(users: seq<User>, u: User)
    requires EmailsUnique(users) && UsernamesUnique(users)
    requires FirstConflict(users, u.email, u.username).None?
    ensures EmailsUnique(users + [u]) && UsernamesUnique(users + [u])
  {
    var s := users + [u];
    forall i, j | 0 <= i < j < |s| ensures s[i].email != s[j].email {
      if j == |users| { assert !Collides(users[i], u.email, u.username); }
    }
    forall i, j | 0 <= i < j < |s| && s[i].username.Some? ensures s[i].username != s[j].username {
      if j == |users| { assert !Collides(users[i], u.email, u.username); }
    }
  }

  // ------------------------------------------------------------ responses

  /** A user as the login response shows it: every column but the hash. */
  datatype SafeUser = SafeUser(
    id: Id, name: string, email: string, username: Option<string>,
    googleId: Option<string>, githubId: Option<string>,
    avatarUrl: Option<string>, bio: Option<string>, role: string)

  function WithoutHash(u: User): SafeUser
  {
    SafeUser(u.id, u.name, u.email, u.username, u.googleId, u.githubId, u.avatarUrl, u.bio, u.role)
  }

  /** The columns the registration response selects. */
  datatype Account = Account(id: Id, name: string, email: string, username: Option<string>,
                             avatarUrl: Option<string>, role: string)

  function AccountOf(u: User): Account
  {
    Account(u.id, u.name, u.email, u.username, u.avatarUrl, u.role)
  }

  /** Two rows that differ only in their hash look the same in a response. */
  lemma ResponsesIgnoreHash(u: User, h: Option<string>)
    ensures WithoutHash(u.(passwordHash := h)) == WithoutHash(u)
    ensures AccountOf(u.(passwordHash := h)) == AccountOf(u)
  {
  }

  // ------------------------------------------------------------ register

  /** The avatar a registered user starts with; `encoded` is
      `encodeURIComponent(name)`. */
  function RegisteredAvatar(encoded: string): string
  {
    "https://api.dicebear.com/7.x/avataaars/svg?seed=" + encoded + "&backgroundColor=b6e3f4"
  }

  /** The row `register` creates. `role` is the column's default. */
  function NewUser(id: Id, name: string, email: string, username: Option<string>, passwordHash: string,
                   encoded: string, role: string): (u: User)
    ensures u.passwordHash == Some(passwordHash) && u.googleId.None? && u.githubId.None?
  {
    User(id, name, email, username, Some(passwordHash), None, None, Some(RegisteredAvatar(encoded)), None, role)
  }

  /** The 409 message for the first colliding row. */
  function ConflictMessage(existing: User, email: string): (m: string)
    ensures m == "Email already registered" <==> existing.email == email
  {
    if existing.email == email then "Email already registered" else "Username taken"
  }

  /** `register`: 409 when a row has that e-mail or that username, naming
      the e-mail only when the first such row carries it; otherwise one row
      is appended that stores `hash(password)` and never the password. The
      conflict query is the intended `FirstConflict`; the query as written
      also refuses every username-less registration once an account exists
      (`UsernamelessRegistrationRefused`). */
  method Register(st: Store, id: Id, name: string, email: string, password: string, username: Option<string>,
                  hash: string -> string, encoded: string, defaultRole: string)
    returns (r: Result<Account>)
    modifies st`users
    ensures var k := FirstConflict(old(st.users), email, username);
      k.Some? ==> r == Err(409, ConflictMessage(old(st.users)[k.value], email)) && st.users == old(st.users)
    ensures var k := FirstConflict(old(st.users), email, username);
      k.None? ==>
        var u := NewUser(id, name, email, username, hash(password), encoded, defaultRole);
        st.users == old(st.users) + [u] && r == Ok(AccountOf(u))
    ensures EmailsUnique(old(st.users)) && UsernamesUnique(old(st.users)) ==>
      EmailsUnique(st.users) && UsernamesUnique(st.users)
  {
    var k := FirstConflict(st.users, email, username);
    if k.Some? {
      return Err(409, ConflictMessage(st.users[k.value], email));
    }
    var u := NewUser(id, name, email, username, hash(password), encoded, defaultRole);
    if EmailsUnique(st.users) && UsernamesUnique(st.users) {
      AppendKeepsKeysUnique(st.users, u);
    }
    st.users := st.users + [u];
    r := Ok(AccountOf(u));
  }

  /** With no row holding the e-mail, every conflict is reported as a taken
      username, and a row holding the e-mail ahead of every row holding the
      username is reported as a registered e-mail. */
  lemma ConflictMessages(users: seq<User>, email: string, username: Option<string>)
    ensures UserByEmail(users, email).None? && FirstConflict(users, email, username).Some? ==>
      ConflictMessage(users[FirstConflict(users, email, username).value], email) == "Username taken"
    ensures (UserByEmail(users, email).Some? &&
             forall j :: 0 <= j < UserByEmail(users, email).value ==> !Collides(users[j], email, username)) ==>
      FirstConflict(users, email, username) == UserByEmail(users, email)
  {
    var e := UserByEmail(users, email);
    var c := FirstConflict(users, email, username);
    if e.None? && c.Some? {
      assert users[c.value].email != email;
    }
    if e.Some? && forall j :: 0 <= j < e.value ==> !Collides(users[j], email, username) {
      assert Collides(users[e.value], email, username);
      assert c.Some?;
      assert !Collides(users[c.value], email, username) || c.value >= e.value;
      assert c.value <= e.value;
    }
  }

  // ------------------------------------------------------------ login

  /** `login`: the row with that e-mail must exist and store the hash of the
      password; both failures answer the same 401. */
  function Login(users: seq<User>, email: string, password: string, hash: string -> string): (r: Result<SafeUser>)
    ensures var k := UserByEmail(users, email);
      k.None? ==> r == Err(401, InvalidCredentials)
    ensures var k := UserByEmail(users, email);
      k.Some? && users[k.value].passwordHash.None? ==> r == Err(500, IllegalArguments)
    ensures var k := UserByEmail(users, email);
      k.Some? && users[k.value].passwordHash.Some? && users[k.value].passwordHash.value != hash(password) ==>
        r == Err(401, InvalidCredentials)
    ensures r.Ok? ==>
      var k := UserByEmail(users, email);
      k.Some? && users[k.value].passwordHash == Some(hash(password)) && r.value == WithoutHash(users[k.value])
  {
    var k := UserByEmail(users, email);
    if k.None? then Err(401, InvalidCredentials)
    else match Compare(hash, password, users[k.value].passwordHash)
      case Err(s, m) => Err(s, m)
      case Ok(valid) => if !valid then Err(401, InvalidCredentials) else Ok(WithoutHash(users[k.value]))
  }

  /** With e-mails unique, a login succeeds exactly when some row has that
      e-mail and stores the hash of the password. */
  lemma LoginSucceedsIff(users: seq<User>, email: string, password: string, hash: string -> string)
    requires EmailsUnique(users)
    ensures Login(users, email, password, hash).Ok? <==>
      exists i :: 0 <= i < |users| && users[i].email == email && users[i].passwordHash == Some(hash(password))
  {
    var k := UserByEmail(users, email);
    if i :| 0 <= i < |users| && users[i].email == email && users[i].passwordHash == Some(hash(password)) {
      assert k.Some?;
    }
  }

  // ------------------------------------------------------------ password reset

  /** The reply of `forgotPassword`: the same message always, and the fresh
      reset token whenever the e-mail belongs to a row. */
  datatype ResetReply = ResetReply(message: string, resetToken: Option<string>)

  function ForgotPassword(users: seq<User>, email: string, token: string): (r: ResetReply)
    ensures r.message == ResetSent
    ensures r.resetToken.Some? <==> UserByEmail(users, email).Some?
    ensures r.resetToken.Some? ==> r.resetToken.value == token
  {
    if UserByEmail(users, email).None? then ResetReply(ResetSent, None) else ResetReply(ResetSent, Some(token))
  }

  /** The message alone does not tell whether the e-mail is registered,
      but the token in the reply does. */
  lemma ForgotPasswordReveals(users: seq<User>, known: string, unknown: string, token: string)
    requires UserByEmail(users, known).Some? && UserByEmail(users, unknown).None?
    ensures ForgotPassword(users, known, token).message == ForgotPassword(users, unknown, token).message
    ensures ForgotPassword(users, known, token) != ForgotPassword(users, unknown, token)
  {
  }

  /** `!token`: absent or empty. */
  predicate TokenGiven(token: Option<string>) { token.Some? && token.value != "" }

  /** `resetPassword`: 400 for a missing token, and 400 again when no row
      has the e-mail `user@example.com`; otherwise that row alone gets the
      hash of the new password. */
  method ResetPassword(st: Store, token: Option<string>, password: string, hash: string -> string)
    returns (r: Result<()>)
    modifies st`users
    ensures !TokenGiven(token) ==> r == Err(400, InvalidResetToken) && st.users == old(st.users)
    ensures TokenGiven(token) && UserByEmail(old(st.users), ResetAccount).None? ==>
      r == Err(400, InvalidResetToken) && st.users == old(st.users)
    ensures var k := UserByEmail(old(st.users), ResetAccount);
      TokenGiven(token) && k.Some? ==>
        r == Ok(()) && st.users == old(st.users)[k.value := old(st.users)[k.value].(passwordHash := Some(hash(password)))]
  {
    if !TokenGiven(token) {
      return Err(400, InvalidResetToken);
    }
    var k := UserByEmail(st.users, ResetAccount);
    if k.None? {
      return Err(400, InvalidResetToken);
    }
    st.users := st.users[k.value := st.users[k.value].(passwordHash := Some(hash(password)))];
    r := Ok(());
  }

  // ------------------------------------------------------------ change password

  /** `changePassword`: the caller's stored hash must be the hash of the
      current password (400 otherwise, nothing written); then it becomes the
      hash of the new one and the rest of the row and table stays. */
  method ChangePassword(st: Store, caller: Id, current: string, next: string, hash: string -> string)
    returns (r: Result<()>)
    requires Members.Authenticated(st.users, caller)
    modifies st`users
    ensures var k := UserIndex(old(st.users), caller).value;
      old(st.users)[k].passwordHash.None? ==> r == Err(500, IllegalArguments) && st.users == old(st.users)
    ensures var k := UserIndex(old(st.users), caller).value;
      old(st.users)[k].passwordHash.Some? && old(st.users)[k].passwordHash.value != hash(current) ==>
        r == Err(400, "Current password is incorrect") && st.users == old(st.users)
    ensures var k := UserIndex(old(st.users), caller).value;
      old(st.users)[k].passwordHash == Some(hash(current)) ==>
        r == Ok(()) && st.users == old(st.users)[k := old(st.users)[k].(passwordHash := Some(hash(next)))]
  {
    var k := UserIndex(st.users, caller).value;
    var valid := Compare(hash, current, st.users[k].passwordHash);
    if valid.Err? {
      return Err(valid.status, valid.message);
    }
    if !valid.value {
      return Err(400, "Current password is incorrect");
    }
    st.users := st.users[k := st.users[k].(passwordHash := Some(hash(next)))];
    r := Ok(());
  }

  /** After a password change the new password logs in and, when the hash
      tells the two apart, the old one no longer does. */
  lemma ChangedPasswordLogsIn(users: seq<User>, k: nat, old_: string, next: string, hash: string -> string)
    requires k < |users| && EmailsUnique(users)
    requires users[k].passwordHash == Some(hash(old_)) && hash(old_) != hash(next)
    ensures var after := users[k := users[k].(passwordHash := Some(hash(next)))];
      Login(after, users[k].email, next, hash).Ok? && Login(after, users[k].email, old_, hash).Err?
  {
    var after := users[k := users[k].(passwordHash := Some(hash(next)))];
    assert EmailsUnique(after);
    LoginSucceedsIff(after, users[k].email, next, hash);
    LoginSucceedsIff(after, users[k].email, old_, hash);
    assert after[k].email == users[k].email;
  }
}

=== FILE: comments.dfy ===
/** Comments on features (commentController.js): the `@mention` parser,
    comment creation with its mention notifications and activity logs, and
    the author/owner permissions of edit and delete. */
module Comments {
  import opened Common
  import opened Model
  import opened Access
  import opened Notifications
  import Members

  // ------------------------------------------------------------ mentions

  /** The end of the run of word characters starting at `j`. */
  function RunEnd(s: string, j: nat): (r: nat)
    requires j <= |s|
    ensures j <= r <= |s|
    ensures forall k :: j <= k < r ==> IsWordChar(s[k])
    ensures r == |s| || !IsWordChar(s[r])
    decreases |s| - j
  {
    if j < |s| && IsWordChar(s[j]) then RunEnd(s, j + 1) else j
  }

  /** An `@` at `i` that opens a mention: a word character follows it. */
  predicate OpensMention(s: string, i: int)
  {
    0 <= i && i + 1 < |s| && s[i] == '@' && IsWordChar(s[i + 1])
  }

  /** The matches of the global pattern `@([a-zA-Z0-9_]+)` from position
      `i` on: at the first `@` followed by a word character the greedy run
      after it is captured, and the search resumes where the run ends. */
  function MentionsFrom(s: string, i: nat): seq<string>
    requires i <= |s|
    decreases |s| - i
  {
    if i == |s| then []
    else if OpensMention(s, i) then
      var e := RunEnd(s, i + 1);
      [s[i + 1..e]] + MentionsFrom(s, e)
    else MentionsFrom(s, i + 1)
  }

  /** The user names mentioned in `s`, in order, repeats kept: each one a
      nonempty run of word characters. */
  function Mentions(s: string): (r: seq<string>)
    ensures forall m :: m in r ==> WordOnly(m)
  {
    MentionsAreWords(s, 0);
    MentionsFrom(s, 0)
  }

  /** `parseMentions`: the loop of successive `exec` calls, each capturing the
      run after the next `@`. */
  method ParseMentions(content: string) returns (mentions: seq<string>)
    ensures mentions == Mentions(content)
  {
    mentions := [];
    var i := 0;
    while i < |content|
      invariant 0 <= i <= |content|
      invariant mentions + MentionsFrom(content, i) == Mentions(content)
      decreases |content| - i
    {
      if content[i] == '@' && i + 1 < |content| && IsWordChar(content[i + 1]) {
        var j := i + 1;
        while j < |content| && IsWordChar(content[j])
          invariant i + 1 <= j <= |content|
          invariant forall k :: i + 1 <= k < j ==> IsWordChar(content[k])
          decreases |content| - j
        {
          j := j + 1;
        }
        SameRunEnd(content, i + 1, j);
        assert MentionsFrom(content, i) == [content[i + 1..j]] + MentionsFrom(content, j);
        mentions := mentions + [content[i + 1..j]];
        i := j;
      } else {
        i := i + 1;
      }
    }
  }

  lemma SameRunEnd(s: string, j: nat, e: nat)
    requires j <= e <= |s|
    requires forall k :: j <= k < e ==> IsWordChar(s[k])
    requires e == |s| || !IsWordChar(s[e])
    ensures RunEnd(s, j) == e
  {
  }

  /** Every mention is a nonempty run of letters, digits and underscores. */
  lemma {:induction false} MentionsAreWords(s: string, i: nat)
    requires i <= |s|
    ensures forall m :: m in MentionsFrom(s, i) ==> |m| > 0 && forall k :: 0 <= k < |m| ==> IsWordChar(m[k])
    decreases |s| - i
  {
    if i < |s| {
      if OpensMention(s, i) {
        var e := RunEnd(s, i + 1);
        MentionsAreWords(s, e);
      } else {
        MentionsAreWords(s, i + 1);
      }
    }
  }

  /** Every mention occurs in the text right after an `@`. */
  lemma {:induction false} MentionsFollowAt(s: string, i: nat)
    requires i <= |s|
    ensures forall m :: m in MentionsFrom(s, i) ==> Contains(s, "@" + m)
    decreases |s| - i
  {
    if i < |s| {
      if OpensMention(s, i) {
        var e := RunEnd(s, i + 1);
        MentionsFollowAt(s, e);
        assert s[i..e] == "@" + s[i + 1..e];
        assert OccursAt(s, "@" + s[i + 1..e], i);
      } else {
        MentionsFollowAt(s, i + 1);
      }
    }
  }

  /** Text in which no `@` is followed by a word character mentions nobody. */
  lemma {:induction false} NoMentionWithoutAt(s: string, i: nat)
    requires i <= |s|
    requires forall k :: i <= k < |s| ==> !OpensMention(s, k)
    ensures MentionsFrom(s, i) == []
    decreases |s| - i
  {
    if i < |s| {
      NoMentionWithoutAt(s, i + 1);
    }
  }

  /** An e-mail address in a comment reads as a mention of its domain. */
  lemma EmailAddressReadsAsMention()
    ensures Mentions("mail bob@acme") == ["acme"]
  {
    var s := "mail bob@acme";
    assert !OpensMention(s, 0) && !OpensMention(s, 1) && !OpensMention(s, 2) && !OpensMention(s, 3);
    assert !OpensMention(s, 4) && !OpensMention(s, 5) && !OpensMention(s, 6) && !OpensMention(s, 7);
    assert OpensMention(s, 8);
    SameRunEnd(s, 9, 13);
    assert s[9..13] == "acme";
  }

  // ------------------------------------------------------------ addComment

  /** `parent_id || null`: an empty string counts as no parent. */
  function ParentOf(parentId: Option<string>): (r: Option<Id>)
    ensures r.Some? <==> parentId.Some? && parentId.value != ""
    ensures r.Some? ==> r == parentId
  {
    if parentId.Some? && parentId.value != "" then parentId else None
  }

  /** The users a list of mentioned names reaches: each name held by a user
      other than the commenter, in order, repeats kept. */
  function MentionedUsers(users: seq<User>, names: seq<string>, caller: Id): seq<Id>
  {
    if names == [] then []
    else
      var n := names[|names| - 1];
      var k := UserByUsername(users, n);
      MentionedUsers(users, names[..|names| - 1], caller)
      + (if k.Some? && users[k.value].id != caller then [users[k.value].id] else [])
  }

  /** One USER_MENTIONED log per reached user. */
  function MentionLogs(mentioned: seq<Id>, caller: Id, project: Id, comment: Id, feature: Id): seq<ActivityLog>
  {
    seq(|mentioned|, i requires 0 <= i < |mentioned| => ActivityLog(caller, project, UserMentioned(mentioned[i], comment, feature)))
  }

  /** One more mentioned user adds one mention log after the rows already
      written. */
  lemma MentionLogsSnoc(before: seq<ActivityLog>, to: seq<Id>, u: Id, caller: Id, project: Id, comment: Id, feature: Id)
    ensures before + MentionLogs(to + [u], caller, project, comment, feature)
      == (before + MentionLogs(to, caller, project, comment, feature)) + [ActivityLog(caller, project, UserMentioned(u, comment, feature))]
  {
    var m := MentionLogs(to, caller, project, comment, feature);
    var a := ActivityLog(caller, project, UserMentioned(u, comment, feature));
    assert MentionLogs(to + [u], caller, project, comment, feature) == m + [a];
    assert before + (m + [a]) == (before + m) + [a];
  }

  function MentionMessage(name: string): string
  {
    name + " mentioned you in a comment"
  }

  /** `addComment`: the comment row refers to its feature, and to its parent
      when one is given; a reference to a missing row is refused by the
      store (500). Then one notification and one USER_MENTIONED log per
      mention of another existing user, and one COMMENT_ADDED log. */
  method AddComment(st: Store, caller: Id, featureId: Id, id: Id, content: string, parentId: Option<string>)
    returns (r: Result<Comment>)
    requires Members.Authenticated(st.users, caller)
    modifies st`comments, st`notifications, st`nextNotificationId, st`activity
    ensures var parent := ParentOf(parentId);
      FeatureIndex(st.features, featureId).None? || (parent.Some? && CommentIndex(old(st.comments), parent.value).None?) ==>
        r.Err? && r.status == 500
        && st.comments == old(st.comments) && st.notifications == old(st.notifications)
        && st.nextNotificationId == old(st.nextNotificationId) && st.activity == old(st.activity)
    ensures var parent := ParentOf(parentId);
      FeatureIndex(st.features, featureId).Some? && (parent.None? || CommentIndex(old(st.comments), parent.value).Some?) ==>
        var f := st.features[FeatureIndex(st.features, featureId).value];
        var c := Comment(id, featureId, caller, content, parent);
        var to := MentionedUsers(st.users, Mentions(content), caller);
        var msg := MentionMessage(st.users[UserIndex(st.users, caller).value].name);
        && r == Ok(c)
        && st.comments == old(st.comments) + [c]
        && st.notifications == old(st.notifications) + Batch(old(st.nextNotificationId), to, Mention, id, msg)
        && st.nextNotificationId == old(st.nextNotificationId) + |to|
        && st.activity == old(st.activity) + MentionLogs(to, caller, f.projectId, id, featureId)
                          + [ActivityLog(caller, f.projectId, CommentAdded(id, featureId, f.title))]
  {
    var parent := ParentOf(parentId);
    var fi := FeatureIndex(st.features, featureId);
    if fi.None? {
      return Err(500, "Foreign key constraint violated: feature_id");
    }
    if parent.Some? && CommentIndex(st.comments, parent.value).None? {
      return Err(500, "Foreign key constraint violated: parent_id");
    }
    var f := st.features[fi.value];
    var c := Comment(id, featureId, caller, content, parent);
    st.comments := st.comments + [c];
    var msg := MentionMessage(st.users[UserIndex(st.users, caller).value].name);
    var names := ParseMentions(content);
    NotifyMentions(st, caller, names, id, featureId, f.projectId, msg);
    st.activity := st.activity + [ActivityLog(caller, f.projectId, CommentAdded(id, featureId, f.title))];
    r := Ok(c);
  }

  /** The mention loop of `addComment`: for each name, in order, a
      notification and a USER_MENTIONED log when the name belongs to a user
      other than the commenter. */
  method NotifyMentions(st: Store, caller: Id, names: seq<string>, id: Id, featureId: Id, projectId: Id, msg: string)
    modifies st`notifications, st`nextNotificationId, st`activity
    ensures var to := MentionedUsers(st.users, names, caller);
      && st.notifications == old(st.notifications) + Batch(old(st.nextNotificationId), to, Mention, id, msg)
      && st.nextNotificationId == old(st.nextNotificationId) + |to|
      && st.activity == old(st.activity) + MentionLogs(to, caller, projectId, id, featureId)
  {
    var users := st.users;
    ghost var n0, start, a0 := st.notifications, st.nextNotificationId, st.activity;
    ghost var to: seq<Id> := [];
    var i := 0;
    while i < |names|
      invariant 0 <= i <= |names| && st.users == users
      invariant to == MentionedUsers(users, names[..i], caller)
      invariant st.notifications == n0 + Batch(start, to, Mention, id, msg)
      invariant st.nextNotificationId == start + |to|
      invariant st.activity == a0 + MentionLogs(to, caller, projectId, id, featureId)
    {
      MentionedUsersStep(users, names, i, caller);
      var k := UserByUsername(users, names[i]);
      if k.Some? && users[k.value].id != caller {
        var u := users[k.value].id;
        BatchSnoc(n0, start, to, u, Mention, id, msg);
        MentionLogsSnoc(a0, to, u, caller, projectId, id, featureId);
        st.notifications := st.notifications + [Notification(st.nextNotificationId, u, Mention, id, msg, false)];
        st.nextNotificationId := st.nextNotificationId + 1;
        st.activity := st.activity + [ActivityLog(caller, projectId, UserMentioned(u, id, featureId))];
        to := to + [u];
      }
      i := i + 1;
    }
    assert names[..i] == names;
  }

  /** One more name reaches one more user exactly when it names a user
      other than the commenter. */
  lemma MentionedUsersStep(users: seq<User>, names: seq<string>, i: nat, caller: Id)
    requires i < |names|
    ensures var k := UserByUsername(users, names[i]);
      MentionedUsers(users, names[..i + 1], caller)
        == MentionedUsers(users, names[..i], caller)
           + (if k.Some? && users[k.value].id != caller then [users[k.value].id] else [])
  {
    assert names[..i + 1][..i] == names[..i];
    assert names[..i + 1][i] == names[i];
  }

  /** A comment that mentions only its own author notifies nobody. */
  lemma {:induction false} SelfMentionsNotifyNobody(users: seq<User>, names: seq<string>, caller: Id)
    requires forall n :: n in names ==> UserByUsername(users, n).None? || users[UserByUsername(users, n).value].id == caller
    ensures MentionedUsers(users, names, caller) == []
  {
    if names != [] {
      SelfMentionsNotifyNobody(users, names[..|names| - 1], caller);
    }
  }

  /** The commenter is never notified of a self-mention. */
  lemma {:induction false} CommenterNeverReached(users: seq<User>, names: seq<string>, caller: Id)
    ensures caller !in MentionedUsers(users, names, caller)
    ensures |MentionedUsers(users, names, caller)| <= |names|
  {
    if names != [] {
      CommenterNeverReached(users, names[..|names| - 1], caller);
    }
  }

  /** Everyone reached holds one of the mentioned names. */
  lemma {:induction false} MentionedUsersAreNamed(users: seq<User>, names: seq<string>, caller: Id, u: Id)
    requires u in MentionedUsers(users, names, caller)
    ensures exists n :: n in names && UserByUsername(users, n).Some? && users[UserByUsername(users, n).value].id == u
  {
    var init := names[..|names| - 1];
    var n := names[|names| - 1];
    if u in MentionedUsers(users, init, caller) {
      MentionedUsersAreNamed(users, init, caller, u);
      var m :| m in init && UserByUsername(users, m).Some? && users[UserByUsername(users, m).value].id == u;
      assert m in names;
    } else {
      assert n in names;
    }
  }

  /** Each mention of another existing user reaches that user. */
  lemma {:induction false} MentionReachesUser(users: seq<User>, names: seq<string>, caller: Id, n: string)
    requires n in names
    requires UserByUsername(users, n).Some? && users[UserByUsername(users, n).value].id != caller
    ensures users[UserByUsername(users, n).value].id in MentionedUsers(users, names, caller)
  {
    var init := names[..|names| - 1];
    if names[|names| - 1] != n {
      assert n in init by {
        var k :| 0 <= k < |names| && names[k] == n;
        assert k < |names| - 1;
        assert init[k] == n;
      }
      MentionReachesUser(users, init, caller, n);
    }
  }

  // ------------------------------------------------------------ edit, delete, list

  /** `updateComment`: only the author may edit (404 otherwise). */
  method UpdateComment(st: Store, caller: Id, id: Id, content: string) returns (r: Result<Comment>)
    modifies st`comments
    ensures var k := CommentIndex(old(st.comments), id);
      k.None? || old(st.comments)[k.value].authorId != caller ==>
        r == Err(404, "Comment not found or access denied") && st.comments == old(st.comments)
    ensures var k := CommentIndex(old(st.comments), id);
      k.Some? && old(st.comments)[k.value].authorId == caller ==>
        && st.comments == old(st.comments)[k.value := old(st.comments)[k.value].(content := content)]
        && r == Ok(old(st.comments)[k.value].(content := content))
  {
    var k := CommentIndex(st.comments, id);
    if k.None? || st.comments[k.value].authorId != caller {
      return Err(404, "Comment not found or access denied");
    }
    var updated := st.comments[k.value].(content := content);
    st.comments := st.comments[k.value := updated];
    r := Ok(updated);
  }

  /** The project a feature belongs to, when both rows exist. */
  function ProjectOfFeature(features: seq<Feature>, projects: seq<Project>, featureId: Id): Option<Project>
  {
    match FeatureIndex(features, featureId)
    case None => None
    case Some(k) => FindProject(projects, features[k].projectId)
  }

  /** `deleteComment`: the author or the owner of the feature's project
      (404 otherwise). */
  method DeleteComment(st: Store, caller: Id, id: Id) returns (r: Result<()>)
    modifies st`comments
    ensures var k := CommentIndex(old(st.comments), id);
      k.None? || !IsAuthorOrOwner(old(st.comments)[k.value].authorId,
                                  ProjectOfFeature(st.features, st.projects, old(st.comments)[k.value].featureId), caller) ==>
        r == Err(404, "Comment not found or access denied") && st.comments == old(st.comments)
    ensures var k := CommentIndex(old(st.comments), id);
      k.Some? && IsAuthorOrOwner(old(st.comments)[k.value].authorId,
                                 ProjectOfFeature(st.features, st.projects, old(st.comments)[k.value].featureId), caller) ==>
        r == Ok(()) && st.comments == old(st.comments)[..k.value] + old(st.comments)[k.value + 1..]
  {
    var k := CommentIndex(st.comments, id);
    if k.None? {
      return Err(404, "Comment not found or access denied");
    }
    var c := st.comments[k.value];
    if !IsAuthorOrOwner(c.authorId, ProjectOfFeature(st.features, st.projects, c.featureId), caller) {
      return Err(404, "Comment not found or access denied");
    }
    st.comments := st.comments[..k.value] + st.comments[k.value + 1..];
    r := Ok(());
  }

  predicate TopLevelOf(c: Comment, featureId: Id) { c.featureId == featureId && c.parentId.None? }

  /** `getFeatureComments`: the top-level comments of the feature, oldest
      first. */
  function TopLevelComments(comments: seq<Comment>, featureId: Id): (r: seq<Comment>)
    ensures forall c :: c in r <==> c in comments && TopLevelOf(c, featureId)
    ensures |r| <= |comments|
  {
    if comments == [] then []
    else
      var last := comments[|comments| - 1];
      TopLevelComments(comments[..|comments| - 1], featureId)
      + (if TopLevelOf(last, featureId) then [last] else [])
  }

  /** Where in the table each top-level comment sits: rows are stored in
      creation order, so increasing positions are `createdAt` ascending. */
  function TopLevelPositions(comments: seq<Comment>, featureId: Id): (pos: seq<nat>)
    ensures |pos| == |TopLevelComments(comments, featureId)|
    ensures forall k :: 0 <= k < |pos| ==>
      pos[k] < |comments| && TopLevelComments(comments, featureId)[k] == comments[pos[k]]
    ensures forall k, l :: 0 <= k < l < |pos| ==> pos[k] < pos[l]
  {
    if comments == [] then []
    else
      var n := |comments| - 1;
      var init := comments[..n];
      var before := TopLevelPositions(init, featureId);
      assert forall i :: 0 <= i < n ==> init[i] == comments[i];
      if TopLevelOf(comments[n], featureId) then before + [n] else before
  }

  /** Each top-level row of the feature is listed, so the comments are
      each one of those rows exactly once. */
  lemma {:induction false} TopLevelPositionsCover(comments: seq<Comment>, featureId: Id)
    ensures forall i :: 0 <= i < |comments| && TopLevelOf(comments[i], featureId) ==> i in TopLevelPositions(comments, featureId)
  {
    if comments != [] {
      var n := |comments| - 1;
      var init := comments[..n];
      TopLevelPositionsCover(init, featureId);
      var before := TopLevelPositions(init, featureId);
      forall i | 0 <= i < |comments| && TopLevelOf(comments[i], featureId)
        ensures i in TopLevelPositions(comments, featureId)
      {
        if i < n {
          assert init[i] == comments[i];
          assert i in before;
        }
      }
    }
  }
}

=== FILE: common.dfy ===
/** Shared vocabulary of the roadmap backend model: the error-carrying
    result every handler returns, optional values, ASCII character classes
    and the string and paging helpers several controllers use. */
module Common {

  datatype Option<+T> = None | Some(value: T)

  /** A handler either answers with a payload or fails with the HTTP status
      and message it hands to the central error responder. */
  datatype Result<+T> = Ok(value: T) | Err(status: nat, message: string)

  // ---------------------------------------------------------------- characters

  predicate IsLower(c: char) { 'a' <= c <= 'z' }
  predicate IsUpper(c: char) { 'A' <= c <= 'Z' }
  predicate IsDigit(c: char) { '0' <= c <= '9' }

  /** The class `[a-zA-Z0-9_]` of the source's regular expressions. */
  predicate IsWordChar(c: char) { IsLower(c) || IsUpper(c) || IsDigit(c) || c == '_' }

  /** `/^[a-zA-Z0-9_]+$/`: a nonempty run of word characters. */
  predicate WordOnly(s: string) { |s| > 0 && forall i :: 0 <= i < |s| ==> IsWordChar(s[i]) }

  /** Line terminators: the characters `.` does not match in a regular expression. */
  predicate IsLineTerminator(c: char)
  {
    c == '\n' || c == '\r' || c == '\U{2028}' || c == '\U{2029}'
  }

  /** White space removed by `String.prototype.trim`. */
  predicate IsSpace(c: char)
  {
    c == ' ' || c == '\t' || c == '\U{000B}' || c == '\U{000C}' || c == '\U{00A0}' || c == '\U{FEFF}'
    || IsLineTerminator(c)
  }

  function LowerChar(c: char): (r: char)
    ensures IsUpper(c) ==> IsLower(r)
    ensures !IsUpper(c) ==> r == c
  {
    if IsUpper(c) then (c as int + 32) as char else c
  }

  /** `toLowerCase`, on the ASCII letters. */
  function ToLower(s: string): (r: string)
    ensures |r| == |s|
    ensures forall i :: 0 <= i < |s| ==> r[i] == LowerChar(s[i])
  {
    if s == [] then [] else [LowerChar(s[0])] + ToLower(s[1..])
  }

  // ---------------------------------------------------------------- strings

  predicate IsPrefix(p: string, s: string) { |p| <= |s| && s[..|p|] == p }

  /** `s` contains `t` as a contiguous piece. */
  predicate Contains(s: string, t: string)
  {
    exists i :: 0 <= i <= |s| - |t| && OccursAt(s, t, i)
  }

  predicate OccursAt(s: string, t: string, i: int)
  {
    0 <= i <= |s| - |t| && s[i..i + |t|] == t
  }

  /** The database's case-insensitive `contains` (ASCII case folding). */
  predicate ContainsInsensitive(s: string, t: string)
  {
    Contains(ToLower(s), ToLower(t))
  }

  function TrimStart(s: string): (r: string)
    ensures |r| <= |s| && r == s[|s| - |r|..]
    ensures r == [] || !IsSpace(r[0])
    ensures forall i :: 0 <= i < |s| - |r| ==> IsSpace(s[i])
  {
    if s != [] && IsSpace(s[0]) then TrimStart(s[1..]) else s
  }

  function TrimEnd(s: string): (r: string)
    ensures |r| <= |s| && r == s[..|r|]
    ensures r == [] || !IsSpace(r[|r| - 1])
    ensures forall i :: |r| <= i < |s| ==> IsSpace(s[i])
  {
    if s != [] && IsSpace(s[|s| - 1]) then TrimEnd(s[..|s| - 1]) else s
  }

  /** `String.prototype.trim`: the piece of `s` left after removing white
      space from both ends. */
  function Trim(s: string): (r: string)
    ensures |r| <= |s|
    ensures r == [] || (!IsSpace(r[0]) && !IsSpace(r[|r| - 1]))
    ensures OccursAt(s, r, |s| - |TrimStart(s)|)
  {
    var a := TrimStart(s);
    var r := TrimEnd(a);
    PrefixOfSuffix(s, |s| - |a|, |r|);
    r
  }

  /** The first `n` characters of the suffix from `off` are the piece
      `s[off..off + n]`. */
  lemma PrefixOfSuffix(s: string, off: nat, n: nat)
    requires off + n <= |s|
    ensures s[off..][..n] == s[off..off + n]
  {
  }

  // ---------------------------------------------------------------- rounding

  /** `Math.round(a / b)` for a positive divisor: the nearest integer to the
      exact quotient, a half rounded up. */
  function RoundDiv(a: int, b: int): (r: int)
    requires b > 0
    ensures 2 * b * r - b <= 2 * a < 2 * b * r + b
  {
    var q := (2 * a + b) / (2 * b);
    assert 2 * a + b == 2 * b * q + (2 * a + b) % (2 * b);
    q
  }

  /** Only one integer is within a half of the quotient. */
  lemma RoundDivUnique(a: int, b: int, k: int)
    requires b > 0
    requires 2 * b * k - b <= 2 * a < 2 * b * k + b
    ensures k == RoundDiv(a, b)
  {
    var r := RoundDiv(a, b);
    assert 2 * b * (r + 1) == 2 * b * r + 2 * b && 2 * b * (k + 1) == 2 * b * k + 2 * b;
    MulMonotone(2 * b, r + 1, k);
    MulMonotone(2 * b, k + 1, r);
  }

  /** A quotient of a numerator between 0 and `m` times the divisor rounds
      to a value between 0 and `m`. */
  lemma RoundDivBounds(a: int, b: int, m: nat)
    requires b > 0 && 0 <= a <= m * b
    ensures 0 <= RoundDiv(a, b) <= m
  {
    var r := RoundDiv(a, b);
    RoundDivNonNegative(a, b);
    assert 2 * b * r - b == b * (2 * r - 1);
    assert 2 * (m * b) + b == b * (2 * m + 1);
    MulStrict(b, 2 * r - 1, 2 * m + 1);
  }

  lemma RoundDivNonNegative(a: int, b: int)
    requires b > 0 && 0 <= a
    ensures 0 <= RoundDiv(a, b)
  {
    var r := RoundDiv(a, b);
    assert 2 * b * r + b == b * (2 * r + 1);
    MulStrict(b, -1, 2 * r + 1);
  }

  /** A positive factor preserves strict order, read backwards. */
  lemma MulStrict(b: int, x: int, y: int)
    requires b > 0
    ensures b * x < b * y ==> x < y
  {
    if y <= x {
      MulMonotone(b, y, x);
    }
  }

  lemma MulMonotone(b: int, x: int, y: int)
    requires b > 0
    ensures x <= y ==> b * x <= b * y
  {
    if x <= y {
      assert b * y - b * x == b * (y - x);
    }
  }

  // ---------------------------------------------------------------- paging

  /** The rows a query returns after `skip` rows with `take` rows at most. */
  function Page<T>(rows: seq<T>, skip: nat, take: nat): (r: seq<T>)
    ensures |r| <= take
    ensures skip >= |rows| ==> r == []
    ensures |r| == if skip >= |rows| then 0 else if |rows| - skip < take then |rows| - skip else take
    ensures forall i :: 0 <= i < |r| ==> r[i] == rows[skip + i]
  {
    if skip >= |rows| then []
    else if |rows| - skip < take then rows[skip..]
    else rows[skip..skip + take]
  }

  /** The offset a page number and a page size stand for: `(page - 1) * limit`. */
  function Skip(page: int, limit: int): int { (page - 1) * limit }

  /** Newest first: rows are stored in insertion order, which is the order of
      their creation time. */
  function Reverse<T>(s: seq<T>): (r: seq<T>)
    ensures |r| == |s|
    ensures forall i :: 0 <= i < |s| ==> r[i] == s[|s| - 1 - i]
  {
    if s == [] then [] else Reverse(s[1..]) + [s[0]]
  }

  /** A page holds only rows of the list it was cut from. */
  lemma PageWithin<T>(rows: seq<T>, skip: nat, take: nat)
    ensures forall x :: x in Page(rows, skip, take) ==> x in rows
  {
    var r := Page(rows, skip, take);
    forall x | x in r ensures x in rows {
      var i :| 0 <= i < |r| && r[i] == x;
      assert rows[skip + i] == x;
    }
  }

  function Magnitude(n: int): nat { if n < 0 then -n else n }

  /** Where the rows a signed page size selects begin in the list. */
  function WindowStart(n: nat, skip: nat, take: int): nat
  {
    if take >= 0 || skip >= n then skip
    else if n - skip < -take then 0
    else n - skip + take
  }

  /** The rows a query returns for a signed page size. A non-negative `take`
      keeps up to `take` rows after the first `skip`. A negative one pages
      backwards: the ORM reverses the order, pages `skip` and `-take` rows,
      and reverses the rows it got back, so the result keeps the list's
      order and ends `skip` rows before the end. */
  function Window<T>(rows: seq<T>, skip: nat, take: int): (r: seq<T>)
    ensures take >= 0 ==> r == Page(rows, skip, take)
    ensures |r| <= Magnitude(take)
    ensures take < 0 ==> |r| == if skip >= |rows| then 0 else Min(-take, |rows| - skip)
    ensures forall i :: 0 <= i < |r| ==>
      WindowStart(|rows|, skip, take) + i < |rows| && r[i] == rows[WindowStart(|rows|, skip, take) + i]
  {
    if take >= 0 then
      var page := Page(rows, skip, take);
      assert WindowStart(|rows|, skip, take) == skip;
      assert forall i :: 0 <= i < |page| ==> skip + i < |rows| && page[i] == rows[skip + i];
      page
    else
      var back := Page(Reverse(rows), skip, -take);
      assert forall j :: 0 <= j < |back| ==> back[j] == rows[|rows| - 1 - skip - j];
      var r := Reverse(back);
      assert back != [] ==> WindowStart(|rows|, skip, take) == |rows| - skip - |back|;
      assert forall i :: 0 <= i < |r| ==> r[i] == back[|back| - 1 - i];
      r
  }

  /** A negative page size at offset 0 gives the last rows, in order. */
  lemma BackwardFirstPage<T>(rows: seq<T>, take: int)
    requires take < 0
    ensures Window(rows, 0, take) == rows[|rows| - Min(-take, |rows|)..]
  {
    var r := Window(rows, 0, take);
    var tail := rows[|rows| - Min(-take, |rows|)..];
    assert |r| == |tail|;
    forall i | 0 <= i < |r| ensures r[i] == tail[i] {
      assert WindowStart(|rows|, 0, take) == |rows| - Min(-take, |rows|);
    }
  }

  /** A window holds only rows of the list it was cut from. */
  lemma WindowWithin<T>(rows: seq<T>, skip: nat, take: int)
    ensures forall x :: x in Window(rows, skip, take) ==> x in rows
  {
    var r := Window(rows, skip, take);
    forall x | x in r ensures x in rows {
      var i :| 0 <= i < |r| && r[i] == x;
      assert rows[WindowStart(|rows|, skip, take) + i] == x;
    }
  }

  /** Reversing keeps the same rows. */
  lemma ReverseSame<T>(s: seq<T>)
    ensures forall x :: x in Reverse(s) <==> x in s
  {
    var r := Reverse(s);
    forall x | x in s ensures x in r {
      var i :| 0 <= i < |s| && s[i] == x;
      assert r[|s| - 1 - i] == x;
    }
    forall x | x in r ensures x in s {
      var i :| 0 <= i < |r| && r[i] == x;
      assert s[|s| - 1 - i] == x;
    }
  }

  function Min(a: int, b: int): int { if a <= b then a else b }
}

=== FILE: dashboard.dfy ===
/** The dashboards (dashboardController.js): the arithmetic behind the
    user dashboard's summary, progress and insight panels, the project
    partitions it shows, and the project dashboard's access gate and
    analytics. Rounding is `Math.round` on the exact quotient, worked out in
    integers. */
module Dashboard {
  import opened Common
  import opened Model
  import opened Access
  import opened Lists
  import Followers

  // ---------------------------------------------------------------- engagement

  /** Twice the engagement total: two points per feature, one per vote and
      a half per activity, doubled so that the half is whole. */
  function DoubledScore(features: nat, votes: nat, activities: nat): nat
  {
    4 * features + 2 * votes + activities
  }

  /** `calculateEngagementScore`: a tenth of the total, rounded, capped at 100. */
  function EngagementScore(features: nat, votes: nat, activities: nat): (r: int)
    ensures 0 <= r <= 100
    ensures r == 100 <==> DoubledScore(features, votes, activities) >= 1990
    ensures r < 100 ==> 40 * r - 20 <= 2 * DoubledScore(features, votes, activities) < 40 * r + 20
  {
    var d := DoubledScore(features, votes, activities);
    var rounded := RoundDiv(d, 20);
    MulMonotone(40, rounded, 99);
    MulMonotone(40, 100, rounded);
    Min(100, rounded)
  }

  /** More activity never lowers the score. */
  lemma EngagementMonotone(f: nat, v: nat, a: nat, f': nat, v': nat, a': nat)
    requires f <= f' && v <= v' && a <= a'
    ensures EngagementScore(f, v, a) <= EngagementScore(f', v', a')
  {
    var d, d' := DoubledScore(f, v, a), DoubledScore(f', v', a');
    var r, r' := RoundDiv(d, 20), RoundDiv(d', 20);
    MulMonotone(40, r' + 1, r);
  }

  // ---------------------------------------------------------------- progress

  /** `getProgressColor`: green from 80, amber from 50, red below. */
  function ProgressColor(progress: int): (r: string)
    ensures r == "#10B981" <==> progress >= 80
    ensures r == "#F59E0B" <==> 50 <= progress < 80
    ensures r == "#EF4444" <==> progress < 50
  {
    if progress >= 80 then "#10B981"
    else if progress >= 50 then "#F59E0B"
    else "#EF4444"
  }

  function Sum(values: seq<int>): int
  {
    if values == [] then 0 else Sum(values[..|values| - 1]) + values[|values| - 1]
  }

  /** The rounded mean of a list, 0 for an empty list. */
  function RoundedMean(values: seq<int>): (r: int)
    ensures values == [] ==> r == 0
    ensures values != [] ==> 2 * |values| * r - |values| <= 2 * Sum(values) < 2 * |values| * r + |values|
  {
    if values == [] then 0 else RoundDiv(Sum(values), |values|)
  }

  function FeatureProgress(features: seq<Feature>): (r: seq<int>)
    ensures |r| == |features| && forall i :: 0 <= i < |r| ==> r[i] == features[i].progress
  {
    seq(|features|, i requires 0 <= i < |features| => features[i].progress)
  }

  /** `calculateProjectProgress`: 0 for a missing or empty feature list,
      otherwise the rounded mean of the features' progress. */
  function ProjectProgress(features: Option<seq<Feature>>): (r: int)
    ensures features.None? || features.value == [] ==> r == 0
    ensures features.Some? && features.value != [] ==>
      var n := |features.value|;
      2 * n * r - n <= 2 * Sum(FeatureProgress(features.value)) < 2 * n * r + n
  {
    if features.None? then 0 else RoundedMean(FeatureProgress(features.value))
  }

  /** Percentages average to a percentage. */
  lemma ProjectProgressInRange(features: Option<seq<Feature>>)
    requires features.Some? ==> forall f :: f in features.value ==> 0 <= f.progress <= 100
    ensures 0 <= ProjectProgress(features) <= 100
  {
    if features.Some? && features.value != [] {
      var values := FeatureProgress(features.value);
      SumBounds(values);
      RoundDivBounds(Sum(values), |values|, 100);
    }
  }

  lemma {:induction false} SumBounds(values: seq<int>)
    requires forall i :: 0 <= i < |values| ==> 0 <= values[i] <= 100
    ensures 0 <= Sum(values) <= 100 * |values|
  {
    if values != [] {
      SumBounds(values[..|values| - 1]);
    }
  }

  /** The progress of each card, in order. */
  function CardProgress(cards: seq<ProjectCard>): (r: seq<int>)
    ensures |r| == |cards| && forall i :: 0 <= i < |r| ==> r[i] == cards[i].project.progress
  {
    seq(|cards|, i requires 0 <= i < |cards| => cards[i].project.progress)
  }

  /** `avgProgress`: the rounded mean of the caller's projects' progress, 0
      without projects. */
  function OverallProgress(cards: seq<ProjectCard>): (r: int)
    ensures cards == [] ==> r == 0
    ensures cards != [] ==>
      var n := |cards|;
      2 * n * r - n <= 2 * Sum(CardProgress(cards)) < 2 * n * r + n
    ensures (forall c :: c in cards ==> 0 <= c.project.progress <= 100) ==> 0 <= r <= 100
  {
    var values := CardProgress(cards);
    if values == [] then 0
    else
      SumBounds2(cards, values);
      RoundedMean(values)
  }

  lemma SumBounds2(cards: seq<ProjectCard>, values: seq<int>)
    requires cards != [] && |values| == |cards|
    requires forall i :: 0 <= i < |cards| ==> values[i] == cards[i].project.progress
    ensures (forall c :: c in cards ==> 0 <= c.project.progress <= 100) ==> 0 <= RoundedMean(values) <= 100
  {
    if forall c :: c in cards ==> 0 <= c.project.progress <= 100 {
      forall i | 0 <= i < |values| ensures 0 <= values[i] <= 100 {
        assert cards[i] in cards;
      }
      SumBounds(values);
      RoundDivBounds(Sum(values), |values|, 100);
    }
  }

  // ---------------------------------------------------------------- status counts

  function CountStatus(features: seq<Feature>, s: Status): (r: nat)
    ensures r <= |features|
  {
    if features == [] then 0
    else CountStatus(features[..|features| - 1], s) + (if features[|features| - 1].status == s then 1 else 0)
  }

  /** The five `featureStatus` counts add up to the number of features. */
  lemma {:induction false} StatusCountsSum(features: seq<Feature>)
    ensures CountStatus(features, Completed) + CountStatus(features, InProgress)
            + CountStatus(features, UnderReview) + CountStatus(features, Open)
            + CountStatus(features, Rejected) == |features|
  {
    if features != [] {
      StatusCountsSum(features[..|features| - 1]);
    }
  }

  /** `completionRate`: 0 without features, otherwise the rounded percentage
      of completed ones. */
  function CompletionRate(features: seq<Feature>): (r: int)
    ensures 0 <= r <= 100
    ensures features == [] ==> r == 0
    ensures features != [] ==>
      var n := |features|;
      2 * n * r - n <= 2 * (100 * CountStatus(features, Completed)) < 2 * n * r + n
  {
    if features == [] then 0
    else
      RoundDivBounds(100 * CountStatus(features, Completed), |features|, 100);
      RoundDiv(100 * CountStatus(features, Completed), |features|)
  }

  /** All features completed is exactly a rate of 100 (for a non-empty list),
      none completed exactly a rate of 0. */
  lemma CompletionRateExtremes(features: seq<Feature>)
    requires features != []
    ensures CountStatus(features, Completed) == |features| ==> CompletionRate(features) == 100
    ensures CountStatus(features, Completed) == 0 ==> CompletionRate(features) == 0
  {
    var n, c := |features|, CountStatus(features, Completed);
    if c == n {
      RoundDivUnique(100 * c, n, 100);
    }
    if c == 0 {
      RoundDivUnique(0, n, 0);
    }
  }

  function CountPriority(features: seq<Feature>, p: Priority): (r: nat)
    ensures r <= |features|
  {
    if features == [] then 0
    else CountPriority(features[..|features| - 1], p) + (if features[|features| - 1].priority == p then 1 else 0)
  }

  /** The three `priorityBreakdown` counts add up to the number of features. */
  lemma {:induction false} PriorityCountsSum(features: seq<Feature>)
    ensures CountPriority(features, High) + CountPriority(features, Medium) + CountPriority(features, Low) == |features|
  {
    if features != [] {
      PriorityCountsSum(features[..|features| - 1]);
    }
  }

  // ---------------------------------------------------------------- insights

  // Each message is written as a short head and its tail, so that the
  // verifier can read the characters that tell the messages apart.
  const HighlyEngaged: string := "You're" + " highly engaged! Keep up the great work contributing to the community."
  const FirstProject: string := "Ready" + " to start your first project? Create one to begin your roadmap journey!"

  /** The insight for a prolific author, with the feature count written in decimal. */
  function ManyIdeas(n: nat): (r: string)
    ensures r != HighlyEngaged && r != FirstProject
  {
    var r := "You've" + " suggested " + DecimalString(n) + " features - you're full of ideas!";
    assert r[4] == 'v' && r[0] == 'Y' && HighlyEngaged[4] == 'r' && FirstProject[0] == 'R';
    r
  }

  function DigitChar(d: nat): (c: char)
    requires d < 10
    ensures IsDigit(c)
  {
    ('0' as int + d) as char
  }

  /** The decimal numeral of `n`, as a template literal writes it. */
  function DecimalString(n: nat): (r: string)
    ensures |r| >= 1 && forall i :: 0 <= i < |r| ==> IsDigit(r[i])
    ensures r[0] == '0' ==> n == 0
  {
    if n < 10 then [DigitChar(n)] else DecimalString(n / 10) + [DigitChar(n % 10)]
  }

  function DecimalValue(s: string): nat
    requires forall i :: 0 <= i < |s| ==> IsDigit(s[i])
  {
    if s == [] then 0 else 10 * DecimalValue(s[..|s| - 1]) + DigitValue(s[|s| - 1])
  }

  function DigitValue(c: char): nat
    requires IsDigit(c)
  {
    c as int - '0' as int
  }

  /** Reading the numeral back gives the count. */
  lemma {:induction false} DecimalRoundTrip(n: nat)
    ensures DecimalValue(DecimalString(n)) == n
  {
    if n >= 10 {
      DecimalRoundTrip(n / 10);
      var s := DecimalString(n);
      assert s[..|s| - 1] == DecimalString(n / 10);
    }
  }

  /** `generateInsights`: one message per condition that holds, pushed in
      order, then cut to three. */
  method GenerateInsights(featureCount: nat, projectCount: nat, engagement: int) returns (insights: seq<string>)
    ensures |insights| <= 3
    ensures HighlyEngaged in insights <==> engagement > 80
    ensures ManyIdeas(featureCount) in insights <==> featureCount > 10
    ensures FirstProject in insights <==> projectCount == 0
    ensures forall m :: m in insights ==> m == HighlyEngaged || m == ManyIdeas(featureCount) || m == FirstProject
    ensures engagement > 80 ==> insights[0] == HighlyEngaged
  {
    var many := ManyIdeas(featureCount);
    assert HighlyEngaged != FirstProject by {
      assert HighlyEngaged[0] == 'Y' && FirstProject[0] == 'R';
    }
    insights := [];
    if engagement > 80 {
      insights := insights + [HighlyEngaged];
    }
    if featureCount > 10 {
      insights := insights + [many];
    }
    if projectCount == 0 {
      insights := insights + [FirstProject];
    }
    assert |insights| <= 3 && Take(insights, 3) == insights;
    insights := Take(insights, 3);
  }

  // ---------------------------------------------------------------- project lists

  /** One of the caller's projects (owned or collaborated on) with its follower count. */
  datatype ProjectCard = ProjectCard(project: Project, followerCount: nat)

  function FollowersKey(c: ProjectCard): int { c.followerCount }

  /** `projectsProgress`: the first five projects with their colour. */
  function ProgressRows(cards: seq<ProjectCard>): (r: seq<(ProjectCard, string)>)
    ensures |r| == if |cards| <= 5 then |cards| else 5
    ensures forall i :: 0 <= i < |r| ==> r[i].0 == cards[i] && r[i].1 == ProgressColor(cards[i].project.progress)
  {
    var first := Take(cards, 5);
    seq(|first|, i requires 0 <= i < |first| => (first[i], ProgressColor(first[i].project.progress)))
  }

  /** The projects the caller owns (`owned == true`) or does not own. */
  function ByOwner(cards: seq<ProjectCard>, user: Id, owned: bool): (r: seq<ProjectCard>)
    ensures |r| <= |cards|
  {
    if cards == [] then []
    else
      var last := cards[|cards| - 1];
      ByOwner(cards[..|cards| - 1], user, owned) + (if (last.project.ownerId == user) == owned then [last] else [])
  }

  lemma {:induction false} ByOwnerExactly(cards: seq<ProjectCard>, user: Id, owned: bool)
    ensures forall c :: c in ByOwner(cards, user, owned) <==> c in cards && (c.project.ownerId == user) == owned
  {
    if cards != [] {
      ByOwnerExactly(cards[..|cards| - 1], user, owned);
      assert cards == cards[..|cards| - 1] + [cards[|cards| - 1]];
    }
  }

  /** Owned and collaborated-on projects split the list between them. */
  lemma {:induction false} ByOwnerSplits(cards: seq<ProjectCard>, user: Id)
    ensures |ByOwner(cards, user, true)| + |ByOwner(cards, user, false)| == |cards|
  {
    if cards != [] {
      ByOwnerSplits(cards[..|cards| - 1], user);
    }
  }

  /** The projects under 30% progress. */
  function LowProgress(cards: seq<ProjectCard>): (r: seq<ProjectCard>)
    ensures |r| <= |cards|
  {
    if cards == [] then []
    else
      var last := cards[|cards| - 1];
      LowProgress(cards[..|cards| - 1]) + (if last.project.progress < 30 then [last] else [])
  }

  lemma {:induction false} LowProgressExactly(cards: seq<ProjectCard>)
    ensures forall c :: c in LowProgress(cards) <==> c in cards && c.project.progress < 30
  {
    if cards != [] {
      LowProgressExactly(cards[..|cards| - 1]);
      assert cards == cards[..|cards| - 1] + [cards[|cards| - 1]];
    }
  }

  /** The `projects` panel. `owned` and `collaborating` are cut from the
      list as fetched; `trending` sorts the list in place by follower count,
      so `needingAttention`, taken afterwards, sees the sorted order. */
  method ProjectsOverview(cards: array<ProjectCard>, user: Id)
    returns (owned: seq<ProjectCard>, collaborating: seq<ProjectCard>,
             trending: seq<ProjectCard>, needingAttention: seq<ProjectCard>)
    modifies cards
    ensures owned == Take(ByOwner(old(cards[..]), user, true), 6)
    ensures collaborating == Take(ByOwner(old(cards[..]), user, false), 6)
    ensures Descending(cards[..], FollowersKey) && multiset(cards[..]) == multiset(old(cards[..]))
    ensures trending == Take(cards[..], 3)
    ensures needingAttention == Take(LowProgress(cards[..]), 3)
  {
    owned := Take(ByOwner(cards[..], user, true), 6);
    collaborating := Take(ByOwner(cards[..], user, false), 6);
    SortDescending(cards, FollowersKey);
    trending := Take(cards[..], 3);
    needingAttention := Take(LowProgress(cards[..]), 3);
  }

  /** `owned` and `collaborating` hold at most six fetched projects each
      and are told apart by owner. */
  lemma OwnedCollaboratingShape(cards: seq<ProjectCard>, user: Id)
    ensures var owned, collaborating := Take(ByOwner(cards, user, true), 6), Take(ByOwner(cards, user, false), 6);
      && |owned| <= 6 && |collaborating| <= 6
      && (forall c :: c in owned ==> c.project.ownerId == user && c in cards)
      && (forall c :: c in collaborating ==> c.project.ownerId != user && c in cards)
  {
    ByOwnerExactly(cards, user, true);
    ByOwnerExactly(cards, user, false);
  }

  /** A sorted copy holds the same projects. */
  lemma SameProjects(before: seq<ProjectCard>, after: seq<ProjectCard>)
    requires multiset(after) == multiset(before)
    ensures forall c :: c in after <==> c in before
  {
    forall c ensures c in after <==> c in before {
      assert c in after <==> multiset(after)[c] > 0;
    }
  }

  /** `trending` holds fetched projects, most followed first, and no project
      left out has more followers than one shown. */
  lemma TrendingShape(before: seq<ProjectCard>, after: seq<ProjectCard>)
    requires Descending(after, FollowersKey) && multiset(after) == multiset(before)
    ensures var trending := Take(after, 3);
      && Descending(trending, FollowersKey)
      && (forall c :: c in trending ==> c in before)
      && (forall c, d :: c in trending && d in before && d !in trending ==> c.followerCount >= d.followerCount)
  {
    SameProjects(before, after);
    var trending := Take(after, 3);
    forall c, d | c in trending && d in before && d !in trending
      ensures c.followerCount >= d.followerCount
    {
      var i :| 0 <= i < |trending| && trending[i] == c;
      var j :| 0 <= j < |after| && after[j] == d;
      assert forall k :: 0 <= k < |trending| ==> trending[k] == after[k];
      assert FollowersKey(after[i]) >= FollowersKey(after[j]);
    }
  }

  /** `needingAttention` holds at most three fetched projects, all under 30%. */
  lemma NeedingAttentionShape(before: seq<ProjectCard>, after: seq<ProjectCard>)
    requires multiset(after) == multiset(before)
    ensures var needing := Take(LowProgress(after), 3);
      |needing| <= 3 && forall c :: c in needing ==> c.project.progress < 30 && c in before
  {
    SameProjects(before, after);
    LowProgressExactly(after);
  }

  // ---------------------------------------------------------------- project dashboard

  /** The features of one project, oldest first. */
  function ProjectFeatures(features: seq<Feature>, project: Id): (r: seq<Feature>)
    ensures |r| <= |features|
  {
    if features == [] then []
    else
      var last := features[|features| - 1];
      ProjectFeatures(features[..|features| - 1], project) + (if last.projectId == project then [last] else [])
  }

  lemma {:induction false} ProjectFeaturesExactly(features: seq<Feature>, project: Id)
    ensures forall f :: f in ProjectFeatures(features, project) <==> f in features && f.projectId == project
  {
    if features != [] {
      ProjectFeaturesExactly(features[..|features| - 1], project);
      assert features == features[..|features| - 1] + [features[|features| - 1]];
    }
  }

  /** `engagementRate`: features per follower as a rounded percentage, 0
      without followers. */
  function EngagementRate(featureCount: nat, followerCount: nat): (r: int)
    ensures followerCount == 0 ==> r == 0
    ensures followerCount > 0 ==>
      2 * followerCount * r - followerCount <= 2 * (100 * featureCount) < 2 * followerCount * r + followerCount
    ensures r >= 0
  {
    if followerCount > 0 then
      RoundDivNonNegative(100 * featureCount, followerCount);
      RoundDiv(100 * featureCount, followerCount)
    else 0
  }

  datatype Analytics = Analytics(
    project: Project, features: seq<Feature>, completionRate: int, engagementRate: int,
    high: nat, medium: nat, low: nat)

  /** `getProjectDashboard`: 404 unless the caller may view the project;
      otherwise its features and the analytics computed from them. */
  function GetProjectDashboard(projects: seq<Project>, members: seq<Membership>, features: seq<Feature>,
                               followers: seq<Follower>, caller: Id, project: Id): (r: Result<Analytics>)
    ensures var p := FindProject(projects, project);
      (p.None? || !CanView(p.value, members, caller)) <==> r == Err(404, "Project not found or access denied")
    ensures r.Ok? ==>
      && r.value.project == FindProject(projects, project).value
      && (forall f :: f in r.value.features <==> f in features && f.projectId == project)
      && multiset(r.value.features) == multiset(ProjectFeatures(features, project))
      && 0 <= r.value.completionRate <= 100
      && r.value.completionRate == CompletionRate(r.value.features)
      && r.value.engagementRate == EngagementRate(|r.value.features|, Followers.FollowerCount(followers, project))
      && r.value.high == CountPriority(r.value.features, High)
      && r.value.medium == CountPriority(r.value.features, Medium)
      && r.value.low == CountPriority(r.value.features, Low)
      && r.value.high + r.value.medium + r.value.low == |r.value.features|
  {
    var p := FindProject(projects, project);
    if p.None? || !CanView(p.value, members, caller) then Err(404, "Project not found or access denied")
    else
      var own := ProjectFeatures(features, project);
      ProjectFeaturesExactly(features, project);
      PriorityCountsSum(own);
      Ok(Analytics(p.value, own, CompletionRate(own),
                   EngagementRate(|own|, Followers.FollowerCount(followers, project)),
                   CountPriority(own, High), CountPriority(own, Medium), CountPriority(own, Low)))
  }
}

=== FILE: discussions.dfy ===
/** Project discussions (discussionController.js): creation and listing
    behind the visibility gate, author-only edits, author-or-owner deletes,
    and likes whose uniqueness rests on the store's compound key. */
module Discussions {
  import opened Common
  import opened Model
  import opened Access
  import Replies

  /** A discussion as the handlers return it: the row, whether the caller
      likes it, its like count, and `replies`, which is always empty here
      (replies are fetched separately). */
  datatype DiscussionView = DiscussionView(
    discussion: Discussion, userHasLiked: bool, likeCount: nat, replies: seq<Replies.ReplyNode>)

  predicate Liked(likes: seq<DiscussionLike>, user: Id, discussion: Id)
  {
    DiscussionLike(user, discussion) in likes
  }

  /** The number of likes on a discussion. */
  function LikeCount(likes: seq<DiscussionLike>, discussion: Id): nat
  {
    if likes == [] then 0
    else LikeCount(likes[..|likes| - 1], discussion) + (if likes[|likes| - 1].discussionId == discussion then 1 else 0)
  }

  function View(d: Discussion, likes: seq<DiscussionLike>, user: Id): DiscussionView
  {
    DiscussionView(d, Liked(likes, user, d.id), LikeCount(likes, d.id), [])
  }

  /** The (user, discussion) key is unique among likes. */
  predicate LikesUnique(likes: seq<DiscussionLike>)
  {
    forall i, j :: 0 <= i < j < |likes| ==> likes[i] != likes[j]
  }

  /** Every like names an existing discussion (the foreign key). */
  predicate LikesResolve(likes: seq<DiscussionLike>, discussions: seq<Discussion>)
  {
    forall i :: 0 <= i < |likes| ==> DiscussionIndex(discussions, likes[i].discussionId).Some?
  }

  /** The project row the visibility gate finds, when the caller may see it. */
  predicate ProjectVisible(projects: seq<Project>, members: seq<Membership>, user: Id, project: Id)
  {
    var p := FindProject(projects, project);
    p.Some? && CanView(p.value, members, user)
  }

  /** `createDiscussion`: 404 unless the caller may view the project;
      otherwise the discussion is stored, returned with `replies == []`, and
      one `DISCUSSION_CREATED` log is appended. */
  method CreateDiscussion(st: Store, caller: Id, project: Id, id: Id, content: string) returns (r: Result<DiscussionView>)
    modifies st`discussions, st`activity
    ensures !ProjectVisible(st.projects, st.members, caller, project) ==>
      r == Err(404, "Project not found or access denied")
      && st.discussions == old(st.discussions) && st.activity == old(st.activity)
    ensures ProjectVisible(st.projects, st.members, caller, project) ==>
      var d := Discussion(id, project, caller, content);
      && st.discussions == old(st.discussions) + [d]
      && st.activity == old(st.activity) + [ActivityLog(caller, project, DiscussionCreated(id))]
      && r == Ok(View(d, st.discussionLikes, caller))
    ensures r.Ok? && LikesResolve(st.discussionLikes, old(st.discussions)) && DiscussionIndex(old(st.discussions), id).None? ==>
      !r.value.userHasLiked && r.value.likeCount == 0 && r.value.replies == []
    ensures LikesResolve(st.discussionLikes, old(st.discussions)) ==> LikesResolve(st.discussionLikes, st.discussions)
  {
    if !ProjectVisible(st.projects, st.members, caller, project) {
      return Err(404, "Project not found or access denied");
    }
    var d := Discussion(id, project, caller, content);
    if LikesResolve(st.discussionLikes, st.discussions) {
      AppendKeepsLikesResolved(st.discussionLikes, st.discussions, d);
      if DiscussionIndex(st.discussions, id).None? {
        FreshDiscussionHasNoLikes(st.discussionLikes, st.discussions, caller, id);
      }
    }
    st.discussions := st.discussions + [d];
    st.activity := st.activity + [ActivityLog(caller, project, DiscussionCreated(id))];
    r := Ok(View(d, st.discussionLikes, caller));
  }

  lemma AppendKeepsLikesResolved(likes: seq<DiscussionLike>, ds: seq<Discussion>, d: Discussion)
    requires LikesResolve(likes, ds)
    ensures LikesResolve(likes, ds + [d])
  {
    forall i | 0 <= i < |likes| ensures DiscussionIndex(ds + [d], likes[i].discussionId).Some? {
      var k := DiscussionIndex(ds, likes[i].discussionId).value;
      assert (ds + [d])[k] == ds[k];
    }
  }

  /** A discussion with a fresh key has no likes yet when every like
      resolves. */
  lemma {:induction false} FreshDiscussionHasNoLikes(likes: seq<DiscussionLike>, ds: seq<Discussion>, user: Id, id: Id)
    requires LikesResolve(likes, ds) && DiscussionIndex(ds, id).None?
    ensures !Liked(likes, user, id) && LikeCount(likes, id) == 0
  {
    if likes != [] {
      var init := likes[..|likes| - 1];
      FreshDiscussionHasNoLikes(init, ds, user, id);
      assert likes == init + [likes[|likes| - 1]];
      assert likes[|likes| - 1].discussionId != id;
    }
  }

  /** The discussions of one project, oldest first. */
  function OfProject(ds: seq<Discussion>, project: Id): seq<Discussion>
  {
    if ds == [] then []
    else OfProject(ds[..|ds| - 1], project) + (if ds[|ds| - 1].projectId == project then [ds[|ds| - 1]] else [])
  }

  /** Exactly the discussions of the project are listed. */
  lemma {:induction false} OfProjectExactly(ds: seq<Discussion>, project: Id)
    ensures forall d :: d in OfProject(ds, project) <==> d in ds && d.projectId == project
  {
    if ds != [] {
      var init := ds[..|ds| - 1];
      OfProjectExactly(init, project);
      assert ds == init + [ds[|ds| - 1]];
    }
  }

  /** `getProjectDiscussions`: 404 unless the caller may view the project;
      otherwise that project's discussions, newest first, each with the
      caller's like flag and no replies. */
  function GetProjectDiscussions(projects: seq<Project>, members: seq<Membership>, ds: seq<Discussion>,
                                 likes: seq<DiscussionLike>, caller: Id, project: Id): (r: Result<seq<DiscussionView>>)
    ensures !ProjectVisible(projects, members, caller, project) <==> r == Err(404, "Project not found or access denied")
    ensures r.Ok? ==> |r.value| == |OfProject(ds, project)|
    ensures r.Ok? ==> forall i :: 0 <= i < |r.value| ==>
      var own := OfProject(ds, project);
      && r.value[i].discussion == own[|own| - 1 - i]
      && r.value[i].discussion.projectId == project
      && r.value[i].userHasLiked == Liked(likes, caller, r.value[i].discussion.id)
      && r.value[i].likeCount == LikeCount(likes, r.value[i].discussion.id)
      && r.value[i].replies == []
  {
    if !ProjectVisible(projects, members, caller, project) then Err(404, "Project not found or access denied")
    else
      var own := OfProject(ds, project);
      OfProjectExactly(ds, project);
      var newest := Reverse(own);
      Ok(seq(|newest|, i requires 0 <= i < |newest| => View(newest[i], likes, caller)))
  }

  /** `updateDiscussion`: only the author may change the content; anyone
      else, like a missing id, gets 404. */
  method UpdateDiscussion(st: Store, caller: Id, id: Id, content: string) returns (r: Result<Discussion>)
    modifies st`discussions
    ensures var k := DiscussionIndex(old(st.discussions), id);
      k.None? || old(st.discussions)[k.value].authorId != caller ==>
        r == Err(404, "Discussion not found or access denied") && st.discussions == old(st.discussions)
    ensures var k := DiscussionIndex(old(st.discussions), id);
      k.Some? && old(st.discussions)[k.value].authorId == caller ==>
        && st.discussions == old(st.discussions)[k.value := old(st.discussions)[k.value].(content := content)]
        && r == Ok(old(st.discussions)[k.value].(content := content))
  {
    var k := DiscussionIndex(st.discussions, id);
    if k.None? || st.discussions[k.value].authorId != caller {
      return Err(404, "Discussion not found or access denied");
    }
    var updated := st.discussions[k.value].(content := content);
    st.discussions := st.discussions[k.value := updated];
    r := Ok(updated);
  }

  /** `deleteDiscussion`: the author or the owner of the project; an admin
      member is refused with 404. */
  method DeleteDiscussion(st: Store, caller: Id, id: Id) returns (r: Result<()>)
    modifies st`discussions
    ensures var k := DiscussionIndex(old(st.discussions), id);
      k.None? || !IsAuthorOrOwner(old(st.discussions)[k.value].authorId,
                                  FindProject(st.projects, old(st.discussions)[k.value].projectId), caller) ==>
        r == Err(404, "Discussion not found or access denied") && st.discussions == old(st.discussions)
    ensures var k := DiscussionIndex(old(st.discussions), id);
      k.Some? && IsAuthorOrOwner(old(st.discussions)[k.value].authorId,
                                 FindProject(st.projects, old(st.discussions)[k.value].projectId), caller) ==>
        r == Ok(()) && st.discussions == old(st.discussions)[..k.value] + old(st.discussions)[k.value + 1..]
  {
    var k := DiscussionIndex(st.discussions, id);
    if k.None? {
      return Err(404, "Discussion not found or access denied");
    }
    var d := st.discussions[k.value];
    if !IsAuthorOrOwner(d.authorId, FindProject(st.projects, d.projectId), caller) {
      return Err(404, "Discussion not found or access denied");
    }
    st.discussions := st.discussions[..k.value] + st.discussions[k.value + 1..];
    r := Ok(());
  }

  /** Neither the project's admins nor its owner-role members may delete a
      discussion they did not write, unless they own the project. */
  lemma AdminCannotDeleteOthersDiscussion(d: Discussion, p: Project, members: seq<Membership>, admin: Id)
    requires p.id == d.projectId && d.authorId != admin && p.ownerId != admin
    ensures HasRole(members + [Membership("m", admin, p.id, Admin)], admin, p.id, {Owner, Admin})
    ensures !IsAuthorOrOwner(d.authorId, Some(p), admin)
  {
    var ms := members + [Membership("m", admin, p.id, Admin)];
    assert MemberRowIn(ms[|members|], admin, p.id, {Owner, Admin});
  }

  /** `likeDiscussion`: no visibility check. The like row's foreign key
      fails on a missing discussion and its compound key on a repeated like
      (both 500); otherwise the like is stored and the discussion returned
      with `userHasLiked` true. */
  method LikeDiscussion(st: Store, caller: Id, id: Id) returns (r: Result<DiscussionView>)
    modifies st`discussionLikes
    ensures DiscussionIndex(st.discussions, id).None? || Liked(old(st.discussionLikes), caller, id) ==>
      r.Err? && r.status == 500 && st.discussionLikes == old(st.discussionLikes)
    ensures DiscussionIndex(st.discussions, id).Some? && !Liked(old(st.discussionLikes), caller, id) ==>
      && st.discussionLikes == old(st.discussionLikes) + [DiscussionLike(caller, id)]
      && r == Ok(View(st.discussions[DiscussionIndex(st.discussions, id).value], st.discussionLikes, caller))
      && r.value.userHasLiked
      && r.value.likeCount == LikeCount(old(st.discussionLikes), id) + 1
    ensures LikesUnique(old(st.discussionLikes)) ==> LikesUnique(st.discussionLikes)
    ensures LikesResolve(old(st.discussionLikes), st.discussions) ==> LikesResolve(st.discussionLikes, st.discussions)
  {
    var k := DiscussionIndex(st.discussions, id);
    if k.None? {
      return Err(500, "Foreign key constraint violated: discussion_id");
    }
    if Liked(st.discussionLikes, caller, id) {
      return Err(500, "Unique constraint failed on the fields: (user_id,discussion_id)");
    }
    AppendLike(st.discussionLikes, DiscussionLike(caller, id));
    st.discussionLikes := st.discussionLikes + [DiscussionLike(caller, id)];
    r := Ok(View(st.discussions[k.value], st.discussionLikes, caller));
  }

  lemma AppendLike(likes: seq<DiscussionLike>, l: DiscussionLike)
    requires !Liked(likes, l.userId, l.discussionId)
    ensures LikeCount(likes + [l], l.discussionId) == LikeCount(likes, l.discussionId) + 1
    ensures LikesUnique(likes) ==> LikesUnique(likes + [l])
  {
    assert (likes + [l])[..|likes|] == likes;
  }

  /** The position of the (user, discussion) like. */
  function LikeIndex(likes: seq<DiscussionLike>, user: Id, discussion: Id): (r: Option<nat>)
    ensures r.Some? ==> r.value < |likes| && likes[r.value] == DiscussionLike(user, discussion)
    ensures r.None? <==> !Liked(likes, user, discussion)
  {
    if likes == [] then None
    else if likes[0] == DiscussionLike(user, discussion) then Some(0)
    else match LikeIndex(likes[1..], user, discussion)
         case None => None
         case Some(k) => Some(k + 1)
  }

  /** `unlikeDiscussion`: deleting a like that does not exist fails (500);
      otherwise that like goes and the discussion is returned, now with
      `userHasLiked` false. A discussion that no longer exists makes the
      response shaping fail (500) after the like is gone. */
  method UnlikeDiscussion(st: Store, caller: Id, id: Id) returns (r: Result<DiscussionView>)
    modifies st`discussionLikes
    ensures !Liked(old(st.discussionLikes), caller, id) ==>
      r.Err? && r.status == 500 && st.discussionLikes == old(st.discussionLikes)
    ensures Liked(old(st.discussionLikes), caller, id) ==>
      var k := LikeIndex(old(st.discussionLikes), caller, id).value;
      && st.discussionLikes == old(st.discussionLikes)[..k] + old(st.discussionLikes)[k + 1..]
      && (DiscussionIndex(st.discussions, id).None? ==> r.Err? && r.status == 500)
      && (DiscussionIndex(st.discussions, id).Some? ==>
            r == Ok(View(st.discussions[DiscussionIndex(st.discussions, id).value], st.discussionLikes, caller)))
    ensures r.Ok? && LikesUnique(old(st.discussionLikes)) ==> !r.value.userHasLiked
    ensures LikesUnique(old(st.discussionLikes)) ==> LikesUnique(st.discussionLikes)
  {
    var i := LikeIndex(st.discussionLikes, caller, id);
    if i.None? {
      return Err(500, "Record to delete does not exist.");
    }
    if LikesUnique(st.discussionLikes) {
      RemoveUniqueLike(st.discussionLikes, i.value);
    }
    st.discussionLikes := st.discussionLikes[..i.value] + st.discussionLikes[i.value + 1..];
    var k := DiscussionIndex(st.discussions, id);
    if k.None? {
      return Err(500, "Cannot read properties of null (reading 'likes')");
    }
    r := Ok(View(st.discussions[k.value], st.discussionLikes, caller));
  }

  /** Removing one of unique likes leaves no copy of it and keeps the rest
      unique. */
  lemma RemoveUniqueLike(likes: seq<DiscussionLike>, k: nat)
    requires k < |likes| && LikesUnique(likes)
    ensures var rest := likes[..k] + likes[k + 1..];
      !Liked(rest, likes[k].userId, likes[k].discussionId) && LikesUnique(rest)
  {
    var rest := likes[..k] + likes[k + 1..];
    forall j | 0 <= j < |rest| ensures rest[j] != likes[k] {
      if j < k { assert rest[j] == likes[j]; } else { assert rest[j] == likes[j + 1]; }
    }
    forall i, j | 0 <= i < j < |rest| ensures rest[i] != rest[j] {
      var i' := if i < k then i else i + 1;
      var j' := if j < k then j else j + 1;
      assert rest[i] == likes[i'] && rest[j] == likes[j'];
    }
  }

  /** A like followed by an unlike restores the like table. */
  lemma LikeThenUnlikeRestores(likes: seq<DiscussionLike>, user: Id, discussion: Id)
    requires !Liked(likes, user, discussion)
    ensures var after := likes + [DiscussionLike(user, discussion)];
      LikeIndex(after, user, discussion) == Some(|likes|)
      && after[..|likes|] + after[|likes| + 1..] == likes
  {
    var after := likes + [DiscussionLike(user, discussion)];
    forall j | 0 <= j < |likes| ensures after[j] != DiscussionLike(user, discussion) {
      assert after[j] == likes[j];
    }
    assert after[..|likes|] == likes;
  }
}

=== FILE: features.dfy ===
/** Features (featureController.js): creation in the project's Backlog
    stage, partial update with a status-change notification, and deletion
    with its votes and comments. */
module Features {
  import opened Common
  import opened Model
  import opened Access
  import opened Votes
  import opened Notifications
  import Members

  /** No two features share a key. */
  predicate FeatureIdsUnique(features: seq<Feature>)
  {
    forall i, j :: 0 <= i < j < |features| ==> features[i].id != features[j].id
  }

  predicate IsBacklogOf(s: Stage, project: Id)
  {
    s.projectId == project && s.title == "Backlog"
  }

  /** The first stage of `project` titled exactly "Backlog". */
  function BacklogIndex(stages: seq<Stage>, project: Id): (r: Option<nat>)
    ensures r.Some? ==> r.value < |stages| && IsBacklogOf(stages[r.value], project)
    ensures r.None? <==> forall j :: 0 <= j < |stages| ==> !IsBacklogOf(stages[j], project)
  {
    if stages == [] then None
    else if IsBacklogOf(stages[0], project) then Some(0)
    else match BacklogIndex(stages[1..], project)
         case None => None
         case Some(k) => Some(k + 1)
  }

  /** The row `createFeature` writes: tags default to none, priority to
      medium, progress to 0; the status starts open and the count at 0. */
  function NewFeatureRow(id: Id, project: Id, stage: Id, author: Id, title: string, description: Option<string>,
                      tags: Option<seq<string>>, priority: Option<Priority>, progress: Option<int>,
                      startDate: Option<int>, targetDate: Option<int>): (f: Feature)
    ensures f.id == id && f.projectId == project && f.stageId == stage && f.authorId == author
    ensures f.tags == (if tags.Some? then tags.value else [])
    ensures f.priority == (if priority.Some? then priority.value else Medium)
    ensures f.progress == (if progress.Some? then progress.value else 0)
    ensures f.status == Open && f.voteCount == 0
  {
    Feature(id, project, stage, author, title, description,
            if tags.Some? then tags.value else [], Open,
            if priority.Some? then priority.value else Medium,
            if progress.Some? then progress.value else 0,
            startDate, targetDate, 0)
  }

  /** The fields `updateFeature` reads from the body. `None` stands for an
      absent field; a date is `Some` when a truthy value was sent. */
  datatype FeatureChanges = FeatureChanges(
    title: Option<string>, description: Option<string>, tags: Option<seq<string>>,
    status: Option<Status>, priority: Option<Priority>, stageId: Option<Id>,
    progress: Option<int>, startDate: Option<int>, targetDate: Option<int>)

  function Or<T>(o: Option<T>, d: T): T
  {
    if o.Some? then o.value else d
  }

  /** The feature after `updateFeature`: an absent field keeps its value,
      except the two dates, which are cleared when absent. */
  function ApplyChanges(f: Feature, c: FeatureChanges): (r: Feature)
    ensures r.id == f.id && r.projectId == f.projectId && r.authorId == f.authorId && r.voteCount == f.voteCount
    ensures r.startDate == c.startDate && r.targetDate == c.targetDate
  {
    f.(title := Or(c.title, f.title),
       description := if c.description.Some? then c.description else f.description,
       tags := Or(c.tags, f.tags), status := Or(c.status, f.status),
       priority := Or(c.priority, f.priority), stageId := Or(c.stageId, f.stageId),
       progress := Or(c.progress, f.progress),
       startDate := c.startDate, targetDate := c.targetDate)
  }

  /** The votes left after deleting every vote on `f`. */
  function VotesOff(votes: seq<Vote>, f: Id): seq<Vote>
  {
    if votes == [] then []
    else
      var last := votes[|votes| - 1];
      VotesOff(votes[..|votes| - 1], f) + (if last.featureId != f then [last] else [])
  }

  /** The comments left after deleting every comment on `f`. */
  function CommentsOff(comments: seq<Comment>, f: Id): seq<Comment>
  {
    if comments == [] then []
    else
      var last := comments[|comments| - 1];
      CommentsOff(comments[..|comments| - 1], f) + (if last.featureId != f then [last] else [])
  }

  // ------------------------------------------------------------ handlers

  /** `createFeature`: any signed-in user may suggest a feature; the only
      refusal is a project without a Backlog stage (404). The followers are
      then told, the author excepted. */
  method CreateFeature(st: Store, caller: Id, projectId: Id, id: Id, title: string, description: Option<string>,
                       tags: Option<seq<string>>, priority: Option<Priority>, progress: Option<int>,
                       startDate: Option<int>, targetDate: Option<int>)
    returns (r: Result<Feature>)
    requires Members.Authenticated(st.users, caller)
    requires FeatureIndex(st.features, id).None?
    modifies st`features, st`notifications, st`nextNotificationId
    ensures BacklogIndex(st.stages, projectId).None? ==>
      r == Err(404, "Backlog stage not found for this project")
      && st.features == old(st.features) && st.notifications == old(st.notifications)
      && st.nextNotificationId == old(st.nextNotificationId)
    ensures BacklogIndex(st.stages, projectId).Some? ==>
      var stage := st.stages[BacklogIndex(st.stages, projectId).value];
      var f := NewFeatureRow(id, projectId, stage.id, caller, title, description, tags, priority, progress, startDate, targetDate);
      var to := Recipients(st.followers, projectId, Some(caller));
      var msg := NewFeatureMessage(st.users[UserIndex(st.users, caller).value].name, title);
      && r == Ok(f)
      && st.features == old(st.features) + [f]
      && st.notifications == old(st.notifications) + Batch(old(st.nextNotificationId), to, NewFeature, id, msg)
      && st.nextNotificationId == old(st.nextNotificationId) + |to|
    ensures CountsAgree(st.votes, old(st.features)) && VoteSum(st.votes, id) == 0 ==> CountsAgree(st.votes, st.features)
  {
    var b := BacklogIndex(st.stages, projectId);
    if b.None? {
      return Err(404, "Backlog stage not found for this project");
    }
    var f := NewFeatureRow(id, projectId, st.stages[b.value].id, caller, title, description, tags, priority, progress, startDate, targetDate);
    FreshFeatureFound(st.features, f);
    ghost var n := |st.features|;
    st.features := st.features + [f];
    assert FeatureIndex(st.features, id) == Some(n) && st.features[n] == f;
    assert UserIndex(st.users, caller).Some?;
    NotifyNewFeature(st, id, projectId, caller);
    AppendKeepsCountsAgreeing(st.votes, old(st.features), f);
    r := Ok(f);
  }

  /** `updateFeature`: the author, the project's owner or an owner/admin
      member may update; anyone else, and a missing feature, get 404. A
      status that is given and differs from the stored one is announced to
      every follower. */
  method UpdateFeature(st: Store, caller: Id, id: Id, c: FeatureChanges) returns (r: Result<Feature>)
    modifies st`features, st`notifications, st`nextNotificationId
    ensures var k := FeatureIndex(old(st.features), id);
      k.None? || !CanUpdateFeature(old(st.features)[k.value], FindProject(st.projects, old(st.features)[k.value].projectId), st.members, caller) ==>
        r == Err(404, "Feature not found or access denied")
        && st.features == old(st.features) && st.notifications == old(st.notifications)
        && st.nextNotificationId == old(st.nextNotificationId)
    ensures var k := FeatureIndex(old(st.features), id);
      k.Some? && CanUpdateFeature(old(st.features)[k.value], FindProject(st.projects, old(st.features)[k.value].projectId), st.members, caller) ==>
        var f := old(st.features)[k.value];
        var g := ApplyChanges(f, c);
        && r == Ok(g)
        && st.features == old(st.features)[k.value := g]
        && if c.status.Some? && c.status.value != f.status then
             var rs := Recipients(st.followers, f.projectId, None);
             && st.notifications == old(st.notifications)
                + Batch(old(st.nextNotificationId), rs, StatusUpdate, id, StatusChangeMessage(g.title, f.status, c.status.value))
             && st.nextNotificationId == old(st.nextNotificationId) + |rs|
           else
             st.notifications == old(st.notifications) && st.nextNotificationId == old(st.nextNotificationId)
    ensures CountsAgree(st.votes, old(st.features)) ==> CountsAgree(st.votes, st.features)
  {
    var k := FeatureIndex(st.features, id);
    if k.None? {
      return Err(404, "Feature not found or access denied");
    }
    var f := st.features[k.value];
    if !CanUpdateFeature(f, FindProject(st.projects, f.projectId), st.members, caller) {
      return Err(404, "Feature not found or access denied");
    }
    var g := ApplyChanges(f, c);
    UpdatedFeatureFound(st.features, k.value, g);
    st.features := st.features[k.value := g];
    if c.status.Some? && c.status.value != f.status {
      NotifyStatusChange(st, id, f.status, c.status.value);
    }
    r := Ok(g);
  }

  /** `deleteFeature`: only the author or the project's owner (404
      otherwise, admins included). The feature's votes go first, then its
      comments, then the feature. */
  method DeleteFeature(st: Store, caller: Id, id: Id) returns (r: Result<()>)
    modifies st`votes, st`comments, st`features
    ensures var k := FeatureIndex(old(st.features), id);
      k.None? || !IsAuthorOrOwner(old(st.features)[k.value].authorId, FindProject(st.projects, old(st.features)[k.value].projectId), caller) ==>
        r == Err(404, "Feature not found or access denied")
        && st.votes == old(st.votes) && st.comments == old(st.comments) && st.features == old(st.features)
    ensures var k := FeatureIndex(old(st.features), id);
      k.Some? && IsAuthorOrOwner(old(st.features)[k.value].authorId, FindProject(st.projects, old(st.features)[k.value].projectId), caller) ==>
        && r == Ok(())
        && st.votes == VotesOff(old(st.votes), id)
        && st.comments == CommentsOff(old(st.comments), id)
        && st.features == old(st.features)[..k.value] + old(st.features)[k.value + 1..]
    ensures r.Ok? ==> forall v :: v in st.votes ==> v.featureId != id
    ensures r.Ok? ==> forall c :: c in st.comments ==> c.featureId != id
    ensures CountsAgree(old(st.votes), old(st.features)) && FeatureIdsUnique(old(st.features)) ==>
      CountsAgree(st.votes, st.features)
  {
    var k := FeatureIndex(st.features, id);
    if k.None? {
      return Err(404, "Feature not found or access denied");
    }
    var f := st.features[k.value];
    if !IsAuthorOrOwner(f.authorId, FindProject(st.projects, f.projectId), caller) {
      return Err(404, "Feature not found or access denied");
    }
    if CountsAgree(st.votes, st.features) && FeatureIdsUnique(st.features) {
      DeleteKeepsCountsAgreeing(st.votes, st.features, k.value);
    }
    VotesOffKeepsOthers(st.votes, id);
    CommentsOffKeepsOthers(st.comments, id);
    st.votes := VotesOff(st.votes, id);
    st.comments := CommentsOff(st.comments, id);
    st.features := st.features[..k.value] + st.features[k.value + 1..];
    r := Ok(());
  }

  // ------------------------------------------------------------ properties

  /** Deleting a feature's votes leaves every other feature's total as it was. */
  lemma {:induction false} VotesOffSum(votes: seq<Vote>, f: Id, g: Id)
    ensures VoteSum(VotesOff(votes, f), g) == if g == f then 0 else VoteSum(votes, g)
  {
    if votes != [] {
      var init := votes[..|votes| - 1];
      var last := votes[|votes| - 1];
      VotesOffSum(init, f, g);
      if last.featureId != f {
        assert VotesOff(votes, f) == VotesOff(init, f) + [last];
        SumConcat(VotesOff(init, f), [last], g);
        assert [last][..0] == [];
        assert VoteSum([last], g) == Contribution(last, g);
      } else {
        assert VotesOff(votes, f) == VotesOff(init, f);
      }
    }
  }

  /** The votes left are exactly those on other features. */
  lemma {:induction false} VotesOffKeepsOthers(votes: seq<Vote>, f: Id)
    ensures forall v :: v in VotesOff(votes, f) <==> v in votes && v.featureId != f
  {
    if votes != [] {
      var init := votes[..|votes| - 1];
      VotesOffKeepsOthers(init, f);
      assert votes == init + [votes[|votes| - 1]];
    }
  }

  /** The comments left are exactly those on other features. */
  lemma {:induction false} CommentsOffKeepsOthers(comments: seq<Comment>, f: Id)
    ensures forall c :: c in CommentsOff(comments, f) <==> c in comments && c.featureId != f
  {
    if comments != [] {
      var init := comments[..|comments| - 1];
      CommentsOffKeepsOthers(init, f);
      assert comments == init + [comments[|comments| - 1]];
    }
  }

  /** A row whose count is its votes' sum keeps counts and votes agreeing. */
  lemma AppendKeepsCountsAgreeing(votes: seq<Vote>, features: seq<Feature>, f: Feature)
    ensures CountsAgree(votes, features) && f.voteCount == VoteSum(votes, f.id) ==> CountsAgree(votes, features + [f])
  {
    if CountsAgree(votes, features) && f.voteCount == VoteSum(votes, f.id) {
      var after := features + [f];
      forall i | 0 <= i < |after| ensures after[i].voteCount == VoteSum(votes, after[i].id) {
        if i < |features| { assert after[i] == features[i]; }
      }
    }
  }

  /** Appending a row with a fresh key makes it the row that key finds. */
  lemma FreshFeatureFound(features: seq<Feature>, f: Feature)
    requires FeatureIndex(features, f.id).None?
    ensures FeatureIndex(features + [f], f.id) == Some(|features|)
  {
    var after := features + [f];
    assert after[|features|].id == f.id;
    forall j | 0 <= j < |features| ensures after[j].id != f.id {
      assert after[j] == features[j];
    }
    var r := FeatureIndex(after, f.id);
    assert r.Some?;
  }

  /** Rewriting the row a key finds, without changing its key, keeps it the row found. */
  lemma UpdatedFeatureFound(features: seq<Feature>, k: nat, g: Feature)
    requires FeatureIndex(features, g.id) == Some(k)
    ensures FeatureIndex(features[k := g], g.id) == Some(k)
  {
    var after := features[k := g];
    assert after[k].id == g.id;
    forall j | 0 <= j < k ensures after[j].id != g.id {
      assert after[j] == features[j];
    }
  }

  /** The cascade of `deleteFeature` keeps every remaining feature's cached
      count equal to its vote sum. */
  lemma DeleteKeepsCountsAgreeing(votes: seq<Vote>, features: seq<Feature>, k: nat)
    requires k < |features| && CountsAgree(votes, features) && FeatureIdsUnique(features)
    ensures CountsAgree(VotesOff(votes, features[k].id), features[..k] + features[k + 1..])
  {
    var rest := features[..k] + features[k + 1..];
    forall i | 0 <= i < |rest|
      ensures rest[i].voteCount == VoteSum(VotesOff(votes, features[k].id), rest[i].id)
    {
      var j := if i < k then i else i + 1;
      assert rest[i] == features[j];
      VotesOffSum(votes, features[k].id, rest[i].id);
    }
  }

  /** Sending the same update twice leaves the feature as the first left it. */
  lemma ApplyChangesIdempotent(f: Feature, c: FeatureChanges)
    ensures ApplyChanges(ApplyChanges(f, c), c) == ApplyChanges(f, c)
  {
  }

  /** An update that names no field still clears both dates. */
  lemma EmptyUpdateClearsDatesOnly(f: Feature)
    ensures ApplyChanges(f, FeatureChanges(None, None, None, None, None, None, None, None, None))
      == f.(startDate := None, targetDate := None)
  {
  }
}

=== FILE: followers.dfy ===
/** Following projects (followerController.js): the follower table is a set
    of (user, project) pairs; each follow or unfollow logs the follower count
    it leaves behind. */
module Followers {
  import opened Common
  import opened Model
  import opened Access
  import opened Notifications

  predicate Follows(followers: seq<Follower>, user: Id, project: Id)
  {
    Follower(user, project) in followers
  }

  /** `getFollowerCount`: the follow rows of a project. */
  function FollowerCount(followers: seq<Follower>, project: Id): nat
  {
    if followers == [] then 0
    else FollowerCount(followers[..|followers| - 1], project)
         + (if followers[|followers| - 1].projectId == project then 1 else 0)
  }

  /** The position of the (user, project) row. */
  function FollowIndex(followers: seq<Follower>, user: Id, project: Id): (r: Option<nat>)
    ensures r.Some? ==> r.value < |followers| && followers[r.value] == Follower(user, project)
    ensures r.None? <==> !Follows(followers, user, project)
  {
    if followers == [] then None
    else if followers[0] == Follower(user, project) then Some(0)
    else match FollowIndex(followers[1..], user, project)
         case None => None
         case Some(k) => Some(k + 1)
  }

  /** The project the follow gate finds: it exists and `CanFollow` admits the caller. */
  predicate MayFollow(projects: seq<Project>, members: seq<Membership>, user: Id, project: Id)
  {
    var p := FindProject(projects, project);
    p.Some? && CanFollow(p.value, members, user)
  }

  /** `followProject`: 404 unless the follow gate admits the caller; 409
      when already following; otherwise one row is added and
      `PROJECT_FOLLOWED` is logged with the new count. */
  method FollowProject(st: Store, caller: Id, project: Id) returns (r: Result<Follower>)
    modifies st`followers, st`activity
    ensures !MayFollow(st.projects, st.members, caller, project) ==>
      r == Err(404, "Project not found or access denied")
      && st.followers == old(st.followers) && st.activity == old(st.activity)
    ensures MayFollow(st.projects, st.members, caller, project) && Follows(old(st.followers), caller, project) ==>
      r == Err(409, "Already following this project")
      && st.followers == old(st.followers) && st.activity == old(st.activity)
    ensures MayFollow(st.projects, st.members, caller, project) && !Follows(old(st.followers), caller, project) ==>
      && r == Ok(Follower(caller, project))
      && st.followers == old(st.followers) + [Follower(caller, project)]
      && st.activity == old(st.activity)
           + [ActivityLog(caller, project, ProjectFollowed(FollowerCount(old(st.followers), project) + 1))]
    ensures FollowersUnique(old(st.followers)) ==> FollowersUnique(st.followers)
  {
    if !MayFollow(st.projects, st.members, caller, project) {
      return Err(404, "Project not found or access denied");
    }
    if FollowIndex(st.followers, caller, project).Some? {
      return Err(409, "Already following this project");
    }
    var row := Follower(caller, project);
    assert (st.followers + [row])[..|st.followers|] == st.followers;
    st.followers := st.followers + [row];
    st.activity := st.activity + [ActivityLog(caller, project, ProjectFollowed(FollowerCount(st.followers, project)))];
    r := Ok(row);
  }

  /** `unfollowProject`: 404 when not following; otherwise exactly that row
      is removed and `PROJECT_UNFOLLOWED` is logged with the new count. */
  method UnfollowProject(st: Store, caller: Id, project: Id) returns (r: Result<()>)
    modifies st`followers, st`activity
    ensures !Follows(old(st.followers), caller, project) ==>
      r == Err(404, "Not following this project")
      && st.followers == old(st.followers) && st.activity == old(st.activity)
    ensures Follows(old(st.followers), caller, project) ==>
      var k := FollowIndex(old(st.followers), caller, project).value;
      && r == Ok(())
      && st.followers == old(st.followers)[..k] + old(st.followers)[k + 1..]
      && st.activity == old(st.activity)
           + [ActivityLog(caller, project, ProjectUnfollowed(FollowerCount(st.followers, project)))]
      && FollowerCount(st.followers, project) + 1 == FollowerCount(old(st.followers), project)
    ensures FollowersUnique(old(st.followers)) ==>
      FollowersUnique(st.followers) && !Follows(st.followers, caller, project)
  {
    var k := FollowIndex(st.followers, caller, project);
    if k.None? {
      return Err(404, "Not following this project");
    }
    RemoveFollowCount(st.followers, k.value);
    if FollowersUnique(st.followers) {
      RemoveFollowUnique(st.followers, k.value);
    }
    st.followers := st.followers[..k.value] + st.followers[k.value + 1..];
    st.activity := st.activity + [ActivityLog(caller, project, ProjectUnfollowed(FollowerCount(st.followers, project)))];
    r := Ok(());
  }

  /** Removing row `k` lowers its project's count by one. */
  lemma RemoveFollowCount(followers: seq<Follower>, k: nat)
    requires k < |followers|
    ensures FollowerCount(followers[..k] + followers[k + 1..], followers[k].projectId) + 1
            == FollowerCount(followers, followers[k].projectId)
  {
    SplitAt(followers, k);
    CountInsert(followers[..k], followers[k], followers[k + 1..], followers[k].projectId);
  }

  /** A table is its rows before `k`, row `k`, and the rows after. */
  lemma SplitAt(s: seq<Follower>, k: nat)
    requires k < |s|
    ensures s == s[..k] + [s[k]] + s[k + 1..]
  {
  }

  /** One row between two runs adds one to its own project's count. */
  lemma CountInsert(pre: seq<Follower>, x: Follower, post: seq<Follower>, project: Id)
    ensures FollowerCount(pre + [x] + post, project)
            == FollowerCount(pre + post, project) + (if x.projectId == project then 1 else 0)
  {
    CountSplit(pre, post, project);
    CountSplit(pre + [x], post, project);
    CountSplit(pre, [x], project);
    assert [x][..0] == [];
  }

  /** When rows are unique, removing row `k` leaves no copy of it and the
      rest unique. */
  lemma RemoveFollowUnique(followers: seq<Follower>, k: nat)
    requires k < |followers| && FollowersUnique(followers)
    ensures var rest := followers[..k] + followers[k + 1..];
      FollowersUnique(rest) && followers[k] !in rest
  {
    var rest := followers[..k] + followers[k + 1..];
    forall j | 0 <= j < |rest| ensures rest[j] != followers[k] {
      if j < k { assert rest[j] == followers[j]; } else { assert rest[j] == followers[j + 1]; }
    }
    forall i, j | 0 <= i < j < |rest| ensures rest[i] != rest[j] {
      var i' := if i < k then i else i + 1;
      var j' := if j < k then j else j + 1;
      assert rest[i] == followers[i'] && rest[j] == followers[j'];
    }
  }

  /** Counting distributes over concatenation. */
  lemma {:induction false} CountSplit(a: seq<Follower>, b: seq<Follower>, project: Id)
    ensures FollowerCount(a + b, project) == FollowerCount(a, project) + FollowerCount(b, project)
    decreases |b|
  {
    if b == [] {
      assert a + b == a;
    } else {
      var b' := b[..|b| - 1];
      CountSplit(a, b', project);
      var ab := a + b;
      assert ab[..|ab| - 1] == a + b';
      assert ab[|ab| - 1] == b[|b| - 1];
      assert FollowerCount(ab, project) == FollowerCount(a + b', project) + (if b[|b| - 1].projectId == project then 1 else 0);
    }
  }

  /** Following and then unfollowing restores the follower table, and the
      two logged counts differ by one. */
  lemma FollowThenUnfollowRestores(followers: seq<Follower>, user: Id, project: Id)
    requires !Follows(followers, user, project)
    ensures var after := followers + [Follower(user, project)];
      && FollowIndex(after, user, project) == Some(|followers|)
      && after[..|followers|] + after[|followers| + 1..] == followers
      && FollowerCount(after, project) == FollowerCount(followers, project) + 1
  {
    var after := followers + [Follower(user, project)];
    forall j | 0 <= j < |followers| ensures after[j] != Follower(user, project) {
      assert after[j] == followers[j];
    }
    assert after[..|followers|] == followers;
  }

  /** The follow rows of a project, oldest first. */
  function OfProject(followers: seq<Follower>, project: Id): (r: seq<Follower>)
    ensures |r| == FollowerCount(followers, project)
  {
    if followers == [] then []
    else OfProject(followers[..|followers| - 1], project)
         + (if followers[|followers| - 1].projectId == project then [followers[|followers| - 1]] else [])
  }

  lemma {:induction false} OfProjectExactly(followers: seq<Follower>, project: Id)
    ensures forall f :: f in OfProject(followers, project) <==> f in followers && f.projectId == project
  {
    if followers != [] {
      var init := followers[..|followers| - 1];
      OfProjectExactly(init, project);
      assert followers == init + [followers[|followers| - 1]];
    }
  }

  /** `getProjectFollowers`: 404 unless the caller may view the project;
      otherwise its followers, newest first. */
  function GetProjectFollowers(projects: seq<Project>, members: seq<Membership>, followers: seq<Follower>,
                               caller: Id, project: Id): (r: Result<seq<Follower>>)
    ensures var p := FindProject(projects, project);
      (p.None? || !CanView(p.value, members, caller)) <==> r == Err(404, "Project not found or access denied")
    ensures r.Ok? ==> |r.value| == FollowerCount(followers, project)
    ensures r.Ok? ==> forall f :: f in r.value <==> f in followers && f.projectId == project
    ensures r.Ok? ==> r.value == Reverse(OfProject(followers, project))
  {
    var p := FindProject(projects, project);
    if p.None? || !CanView(p.value, members, caller) then Err(404, "Project not found or access denied")
    else
      var own := OfProject(followers, project);
      OfProjectExactly(followers, project);
      var newest := Reverse(own);
      assert forall f :: f in newest <==> f in own by {
        forall f | f in own ensures f in newest {
          var i :| 0 <= i < |own| && own[i] == f;
          assert newest[|own| - 1 - i] == f;
        }
      }
      Ok(newest)
  }

  /** A member whose role is `member` may view a private project but not
      follow it, while a viewer may do both. */
  lemma MemberSeesButCannotFollow(p: Project, members: seq<Membership>, user: Id)
    requires p.visibility == Private && p.ownerId != user
    requires OnlyRole(members, user, p.id, Member) && IsMember(members, user, p.id)
    ensures MayFollow([p], members, user, p.id) == false
    ensures GetProjectFollowers([p], members, [], user, p.id).Ok?
  {
    MemberRoleMayInviteButNotFollowPrivate(p, members, user);
  }
}

=== FILE: lists.dfy ===
/** The array operations handlers apply in JavaScript after a query.

    `Array.prototype.sort` with the numeric comparator
    `(a, b) => key(b) - key(a)` orders an array in place by a key, largest
    first; the comparator `(a, b) => key(a) - key(b)` is the same sort on
    the negated key. `slice(0, n)` keeps the first `n` rows. */
module Lists {

  /** Largest key first. */
  predicate Descending<T>(s: seq<T>, key: T -> int)
  {
    forall i, j :: 0 <= i < j < |s| ==> key(s[i]) >= key(s[j])
  }

  /** Sorts `a` in place, largest key first, by insertion: each element is
      swapped leftwards past the smaller keys before it. */
  method SortDescending<T>(a: array<T>, key: T -> int)
    modifies a
    ensures Descending(a[..], key)
    ensures multiset(a[..]) == multiset(old(a[..]))
  {
    var i := 0;
    while i < a.Length
      invariant 0 <= i <= a.Length
      invariant Descending(a[..i], key)
      invariant multiset(a[..]) == multiset(old(a[..]))
    {
      InsertLeft(a, i, key);
      i := i + 1;
    }
    assert a[..a.Length] == a[..];
  }

  /** Moves `a[i]` left into the sorted run `a[..i]`, leaving the rest of the
      array where it was. */
  method InsertLeft<T>(a: array<T>, i: nat, key: T -> int)
    requires i < a.Length
    requires Descending(a[..i], key)
    modifies a
    ensures Descending(a[..i + 1], key)
    ensures multiset(a[..]) == multiset(old(a[..]))
  {
    var j := i;
    while j > 0 && key(a[j - 1]) < key(a[j])
      invariant 0 <= j <= i
      invariant forall p, q :: 0 <= p < q <= i && q != j ==> key(a[p]) >= key(a[q])
      invariant multiset(a[..]) == multiset(old(a[..]))
    {
      Swap(a, j - 1, j);
      j := j - 1;
    }
  }

  /** Exchanges two elements. */
  method Swap<T>(a: array<T>, p: nat, q: nat)
    requires p < q < a.Length
    modifies a
    ensures a[p] == old(a[q]) && a[q] == old(a[p])
    ensures forall k :: 0 <= k < a.Length && k != p && k != q ==> a[k] == old(a[k])
    ensures multiset(a[..]) == multiset(old(a[..]))
  {
    a[p], a[q] := a[q], a[p];
  }

  /** The first `n` rows, or all of them when there are fewer: `slice(0, n)`. */
  function Take<T>(s: seq<T>, n: nat): (r: seq<T>)
    ensures |r| == if |s| <= n then |s| else n
    ensures r == s[..|r|]
  {
    if |s| <= n then s else s[..n]
  }

  /** The query-side `orderBy: { key: 'desc' }`: the rows, largest key first. */
  function SortedDescending<T>(s: seq<T>, key: T -> int): (r: seq<T>)
    ensures Descending(r, key)
    ensures multiset(r) == multiset(s)
  {
    if s == [] then []
    else
      assert s == [s[0]] + s[1..];
      Insert(s[0], SortedDescending(s[1..], key), key)
  }

  /** Places `x` before the first row with a key no larger than its own. */
  function Insert<T>(x: T, s: seq<T>, key: T -> int): (r: seq<T>)
    requires Descending(s, key)
    ensures |r| == |s| + 1 && (r[0] == x || (s != [] && r[0] == s[0]))
    ensures Descending(r, key)
    ensures multiset(r) == multiset(s) + multiset{x}
  {
    if s == [] || key(x) >= key(s[0]) then [x] + s
    else
      var rest := Insert(x, s[1..], key);
      assert s == [s[0]] + s[1..];
      [s[0]] + rest
  }
}

=== FILE: members.dfy ===
/** Project membership (projectMemberController.js): invitations, their
    acceptance, role changes and removal.

    An invite is a small state machine. It is created open, and it is
    usable while its expiry lies in the future and it has not been
    accepted; acceptance closes it for good, and so does the passing of
    time. */
module Members {
  import opened Common
  import opened Model
  import opened Access

  /** Seven days, in milliseconds: the lifetime of an invitation. */
  const InviteLifetime: int := 7 * 24 * 60 * 60 * 1000

  /** The message an ORM write on a missing row fails with (status 500). */
  const RecordNotFound: string := "Record to update not found."

  /** The caller passed the authentication middleware, which loads the
      caller's user row and refuses the request when there is none. */
  predicate Authenticated(users: seq<User>, caller: Id)
  {
    UserIndex(users, caller).Some?
  }

  /** Some membership row of `project` belongs to a user whose e-mail is `email`. */
  predicate HasMemberWithEmail(users: seq<User>, members: seq<Membership>, project: Id, email: string)
  {
    exists i, j :: 0 <= i < |members| && 0 <= j < |users|
      && members[i].projectId == project && users[j].id == members[i].userId && users[j].email == email
  }

  /** An invite that `acceptInvite` may still use at time `now`. */
  predicate IsOpen(inv: Invite, token: string, now: int)
  {
    inv.token == token && inv.expiresAt > now && !inv.accepted
  }

  /** The first open invite carrying `token`. */
  function OpenInvite(invites: seq<Invite>, token: string, now: int): (r: Option<nat>)
    ensures r.Some? ==> r.value < |invites| && IsOpen(invites[r.value], token, now)
    ensures r.Some? ==> forall j :: 0 <= j < r.value ==> !IsOpen(invites[j], token, now)
    ensures r.None? <==> forall j :: 0 <= j < |invites| ==> !IsOpen(invites[j], token, now)
  {
    if invites == [] then None
    else if IsOpen(invites[0], token, now) then Some(0)
    else match OpenInvite(invites[1..], token, now)
         case None => None
         case Some(k) => Some(k + 1)
  }

  /** Invite tokens are 32 random bytes: no two rows share one. */
  predicate TokensUnique(invites: seq<Invite>)
  {
    forall i, j :: 0 <= i < j < |invites| ==> invites[i].token != invites[j].token
  }

  /** The invites table after invite `k` was marked accepted. */
  function MarkAccepted(invites: seq<Invite>, k: nat): seq<Invite>
    requires k < |invites|
  {
    invites[k := invites[k].(accepted := true)]
  }

  /** The row `inviteMember` writes. */
  function NewInvite(id: Id, token: string, email: string, role: Option<Role>, project: Id, caller: Id, now: int): (inv: Invite)
    ensures !inv.accepted && inv.expiresAt == now + InviteLifetime
    ensures inv.role == (if role.Some? then role.value else Member)
    ensures inv.token == token && inv.email == email && inv.projectId == project && inv.invitedBy == caller
  {
    Invite(id, token, email, if role.Some? then role.value else Member, project, caller, now + InviteLifetime, false)
  }

  // ------------------------------------------------------------ handlers

  /** `inviteMember`. The project lookup carries the permission filter, so a
      missing project and a refused caller look alike (404). An address that
      already belongs to a member is refused with 409. The invite row is
      written before the mail goes out, and a failed send is reported as an
      error with the row left in place. */
  method InviteMember(st: Store, caller: Id, projectId: Id, email: string, role: Option<Role>,
                      now: int, inviteId: Id, token: string, emailSent: bool)
    returns (r: Result<Invite>)
    modifies st`invites
    ensures var p := FindProject(old(st.projects), projectId);
      p.None? || !CanInvite(p.value, st.members, caller) ==>
        r == Err(404, "Project not found or insufficient permissions") && st.invites == old(st.invites)
    ensures var p := FindProject(old(st.projects), projectId);
      p.Some? && CanInvite(p.value, st.members, caller) && HasMemberWithEmail(st.users, st.members, projectId, email) ==>
        r == Err(409, "User is already a project member") && st.invites == old(st.invites)
    ensures var p := FindProject(old(st.projects), projectId);
      p.Some? && CanInvite(p.value, st.members, caller) && !HasMemberWithEmail(st.users, st.members, projectId, email) ==>
        && st.invites == old(st.invites) + [NewInvite(inviteId, token, email, role, projectId, caller, now)]
        && r == if emailSent then Ok(NewInvite(inviteId, token, email, role, projectId, caller, now))
                else Err(500, "Failed to send invitation email")
  {
    var p := FindProject(st.projects, projectId);
    if p.None? || !CanInvite(p.value, st.members, caller) {
      return Err(404, "Project not found or insufficient permissions");
    }
    if HasMemberWithEmail(st.users, st.members, projectId, email) {
      return Err(409, "User is already a project member");
    }
    var invite := NewInvite(inviteId, token, email, role, projectId, caller, now);
    st.invites := st.invites + [invite];
    if !emailSent {
      return Err(500, "Failed to send invitation email");
    }
    r := Ok(invite);
  }

  /** `acceptInvite`: the caller must present the token of an open invite
      addressed to the caller's own e-mail. Success adds one membership with
      the invite's role, closes the invite and logs MEMBER_JOINED. The
      welcome mail's failure is swallowed, so it does not appear here. */
  method AcceptInvite(st: Store, caller: Id, token: string, now: int, memberId: Id)
    returns (r: Result<Membership>)
    requires Authenticated(st.users, caller)
    modifies st`members, st`invites, st`activity
    ensures OpenInvite(old(st.invites), token, now).None? ==>
      r == Err(400, "Invalid or expired invite")
      && st.members == old(st.members) && st.invites == old(st.invites) && st.activity == old(st.activity)
    ensures OpenInvite(old(st.invites), token, now).Some? ==>
      var inv := old(st.invites)[OpenInvite(old(st.invites), token, now).value];
      var user := st.users[UserIndex(st.users, caller).value];
      if user.email != inv.email then
        r == Err(400, "Invite email does not match your account")
        && st.members == old(st.members) && st.invites == old(st.invites) && st.activity == old(st.activity)
      else
        && r == Ok(Membership(memberId, caller, inv.projectId, inv.role))
        && st.members == old(st.members) + [Membership(memberId, caller, inv.projectId, inv.role)]
        && st.invites == MarkAccepted(old(st.invites), OpenInvite(old(st.invites), token, now).value)
        && st.activity == old(st.activity) + [ActivityLog(caller, inv.projectId, MemberJoined(inv.role))]
  {
    var k := OpenInvite(st.invites, token, now);
    if k.None? {
      return Err(400, "Invalid or expired invite");
    }
    var inv := st.invites[k.value];
    var user := st.users[UserIndex(st.users, caller).value];
    if user.email != inv.email {
      return Err(400, "Invite email does not match your account");
    }
    var member := Membership(memberId, caller, inv.projectId, inv.role);
    st.members := st.members + [member];
    st.invites := MarkAccepted(st.invites, k.value);
    st.activity := st.activity + [ActivityLog(caller, inv.projectId, MemberJoined(inv.role))];
    r := Ok(member);
  }

  /** `updateMemberRole`: only an owner or admin membership row of the
      project admits the caller. The row to change is looked up by its own
      key alone, whatever project it belongs to; a missing row fails in the
      ORM (500). A body without a role leaves the row as it is, and the
      change is logged all the same. */
  method UpdateMemberRole(st: Store, caller: Id, projectId: Id, memberId: Id, role: Option<Role>)
    returns (r: Result<Membership>)
    modifies st`members, st`activity
    ensures !CanManageMembers(old(st.members), caller, projectId) ==>
      r == Err(403, "Insufficient permissions") && st.members == old(st.members) && st.activity == old(st.activity)
    ensures CanManageMembers(old(st.members), caller, projectId) && MembershipIndex(old(st.members), memberId).None? ==>
      r == Err(500, RecordNotFound) && st.members == old(st.members) && st.activity == old(st.activity)
    ensures CanManageMembers(old(st.members), caller, projectId) && MembershipIndex(old(st.members), memberId).Some? ==>
      var k := MembershipIndex(old(st.members), memberId).value;
      var row := old(st.members)[k];
      var updated := if role.Some? then row.(role := role.value) else row;
      && st.members == old(st.members)[k := updated]
      && r == Ok(updated)
      && st.activity == old(st.activity) + [ActivityLog(caller, projectId, MemberRoleUpdated(memberId, role))]
    ensures role.None? ==> st.members == old(st.members)
  {
    if !CanManageMembers(st.members, caller, projectId) {
      return Err(403, "Insufficient permissions");
    }
    var k := MembershipIndex(st.members, memberId);
    if k.None? {
      return Err(500, RecordNotFound);
    }
    var row := st.members[k.value];
    var updated := if role.Some? then row.(role := role.value) else row;
    st.members := st.members[k.value := updated];
    st.activity := st.activity + [ActivityLog(caller, projectId, MemberRoleUpdated(memberId, role))];
    r := Ok(updated);
  }

  /** `removeMember`: the same owner/admin gate; the row to delete is looked
      up by its key alone. A missing row is dereferenced (500); removing the
      caller's own row is refused (400). */
  method RemoveMember(st: Store, caller: Id, projectId: Id, memberId: Id) returns (r: Result<()>)
    modifies st`members, st`activity
    ensures !CanManageMembers(old(st.members), caller, projectId) ==>
      r == Err(403, "Insufficient permissions") && st.members == old(st.members) && st.activity == old(st.activity)
    ensures CanManageMembers(old(st.members), caller, projectId) && MembershipIndex(old(st.members), memberId).None? ==>
      r.Err? && r.status == 500 && st.members == old(st.members) && st.activity == old(st.activity)
    ensures CanManageMembers(old(st.members), caller, projectId) && MembershipIndex(old(st.members), memberId).Some? ==>
      var k := MembershipIndex(old(st.members), memberId).value;
      if old(st.members)[k].userId == caller then
        r == Err(400, "Cannot remove yourself from project") && st.members == old(st.members) && st.activity == old(st.activity)
      else
        && r == Ok(())
        && st.members == old(st.members)[..k] + old(st.members)[k + 1..]
        && st.activity == old(st.activity) + [ActivityLog(caller, projectId, MemberRemoved(old(st.members)[k].userId))]
  {
    if !CanManageMembers(st.members, caller, projectId) {
      return Err(403, "Insufficient permissions");
    }
    var k := MembershipIndex(st.members, memberId);
    if k.None? {
      return Err(500, "Cannot read properties of null (reading 'user_id')");
    }
    var target := st.members[k.value];
    if target.userId == caller {
      return Err(400, "Cannot remove yourself from project");
    }
    st.members := st.members[..k.value] + st.members[k.value + 1..];
    st.activity := st.activity + [ActivityLog(caller, projectId, MemberRemoved(target.userId))];
    r := Ok(());
  }

  // ------------------------------------------------------------ the invite state machine

  /** Once accepted, an invite's token opens nothing: a second `acceptInvite`
      with the same token fails, at any later or earlier time. */
  lemma AcceptedInviteCannotBeReused(invites: seq<Invite>, token: string, now: int, later: int)
    requires TokensUnique(invites)
    requires OpenInvite(invites, token, now).Some?
    ensures OpenInvite(MarkAccepted(invites, OpenInvite(invites, token, now).value), token, later).None?
  {
    var k := OpenInvite(invites, token, now).value;
    var after := MarkAccepted(invites, k);
    forall j | 0 <= j < |after| ensures !IsOpen(after[j], token, later) {
      if j != k {
        assert invites[j].token != invites[k].token;
      }
    }
  }

  /** A token that opens nothing now opens nothing later: expiry and
      acceptance are both final. */
  lemma ClosedStaysClosed(invites: seq<Invite>, token: string, now: int, later: int)
    requires now <= later
    requires OpenInvite(invites, token, now).None?
    ensures OpenInvite(invites, token, later).None?
  {
    forall j | 0 <= j < |invites| ensures !IsOpen(invites[j], token, later) {
      assert !IsOpen(invites[j], token, now);
    }
  }

  /** A freshly created invite opens with its token until its seventh day
      is over, and not after. */
  lemma NewInviteOpenForSevenDays(id: Id, token: string, email: string, role: Option<Role>, project: Id, caller: Id, now: int, t: int)
    ensures IsOpen(NewInvite(id, token, email, role, project, caller, now), token, t) <==> t < now + 604800000
  {
  }

  /** Appending a fresh invite keeps tokens unique when its token is new. */
  lemma NewTokenKeepsTokensUnique(invites: seq<Invite>, inv: Invite)
    requires TokensUnique(invites)
    requires forall j :: 0 <= j < |invites| ==> invites[j].token != inv.token
    ensures TokensUnique(invites + [inv])
  {
  }

  // ------------------------------------------------------------ permission consequences

  /** The owner of a project who holds no membership row on it is refused by
      both `updateMemberRole` and `removeMember`, while `inviteMember`
      admits them. */
  lemma OwnerWithoutRowIsRefusedMemberManagement(p: Project, members: seq<Membership>, user: Id)
    requires p.ownerId == user && !IsMember(members, user, p.id)
    ensures !CanManageMembers(members, user, p.id) && CanInvite(p, members, user)
  {
    OwnerWithoutRowCannotManageMembers(p, members, user);
  }
}

=== FILE: model.dfy ===
/** The relational store behind every handler, as in-memory tables.

    Each table is a sequence of rows in insertion order. Rows are created
    with a monotone clock, so insertion order is `createdAt` ascending and
    its reverse is `createdAt` descending; the queries that order by
    creation time are modelled that way. Primary keys are strings chosen by
    the store; a handler that creates a row takes the new key as a
    parameter. Notifications are the exception: the store numbers them
    itself, so that a fan-out loop can create as many as it needs. */
module Model {
  import opened Common

  type Id = string

  datatype Role = Owner | Admin | Member | Editor | Viewer
  datatype Visibility = Public | Private
  datatype Status = Open | UnderReview | InProgress | Completed | Rejected
  datatype Priority = Low | Medium | High

  datatype User = User(
    id: Id, name: string, email: string, username: Option<string>,
    passwordHash: Option<string>, googleId: Option<string>, githubId: Option<string>,
    avatarUrl: Option<string>, bio: Option<string>, role: string)

  datatype Project = Project(
    id: Id, title: string, slug: string, description: Option<string>,
    category: Option<string>, logoUrl: string, visibility: Visibility,
    progress: int, ownerId: Id)

  /** A collaborator row; the project's owner is implied by `ownerId` and
      needs no such row. */
  datatype Membership = Membership(id: Id, userId: Id, projectId: Id, role: Role)

  datatype Invite = Invite(
    id: Id, token: string, email: string, role: Role, projectId: Id,
    invitedBy: Id, expiresAt: int, accepted: bool)

  datatype Stage = Stage(id: Id, projectId: Id, title: string, position: int, color: string)

  datatype Feature = Feature(
    id: Id, projectId: Id, stageId: Id, authorId: Id, title: string,
    description: Option<string>, tags: seq<string>, status: Status,
    priority: Priority, progress: int, startDate: Option<int>,
    targetDate: Option<int>, voteCount: int)

  /** A vote row; its key is the pair (userId, featureId). */
  datatype Vote = Vote(userId: Id, featureId: Id, value: int)

  /** A follow row; its key is the pair (userId, projectId). */
  datatype Follower = Follower(userId: Id, projectId: Id)

  datatype Comment = Comment(id: Id, featureId: Id, authorId: Id, content: string, parentId: Option<Id>)

  datatype Discussion = Discussion(id: Id, projectId: Id, authorId: Id, content: string)
  datatype DiscussionLike = DiscussionLike(userId: Id, discussionId: Id)

  datatype Reply = Reply(id: Id, discussionId: Id, authorId: Id, content: string, parentId: Option<Id>)
  datatype ReplyLike = ReplyLike(userId: Id, replyId: Id)

  datatype NotificationKind = NewFeature | StatusUpdate | Mention

  datatype Notification = Notification(
    id: nat, userId: Id, kind: NotificationKind, referenceId: Id,
    message: string, read: bool)

  /** The action tag of an activity log row together with its metadata. */
  datatype Action =
    | MemberJoined(role: Role)
    | MemberRoleUpdated(memberId: Id, newRole: Option<Role>)
    | MemberRemoved(removedUserId: Id)
    | ProjectFollowed(followerCount: nat)
    | ProjectUnfollowed(followerCount: nat)
    | CommentAdded(commentId: Id, featureId: Id, featureTitle: string)
    | UserMentioned(mentionedUserId: Id, commentId: Id, featureId: Id)
    | DiscussionCreated(discussionId: Id)

  datatype ActivityLog = ActivityLog(userId: Id, projectId: Id, action: Action)

  /** The shared store: one field per table. */
  class Store {
    var users: seq<User>
    var projects: seq<Project>
    var members: seq<Membership>
    var invites: seq<Invite>
    var stages: seq<Stage>
    var features: seq<Feature>
    var votes: seq<Vote>
    var followers: seq<Follower>
    var comments: seq<Comment>
    var discussions: seq<Discussion>
    var discussionLikes: seq<DiscussionLike>
    var replies: seq<Reply>
    var replyLikes: seq<ReplyLike>
    var notifications: seq<Notification>
    var nextNotificationId: nat
    var activity: seq<ActivityLog>

    /** An empty store. */
    constructor ()
      ensures users == [] && projects == [] && members == [] && invites == []
      ensures stages == [] && features == [] && votes == [] && followers == []
      ensures comments == [] && discussions == [] && discussionLikes == []
      ensures replies == [] && replyLikes == [] && notifications == [] && activity == []
      ensures nextNotificationId == 0
    {
      users, projects, members, invites := [], [], [], [];
      stages, features, votes, followers := [], [], [], [];
      comments, discussions, discussionLikes := [], [], [];
      replies, replyLikes, notifications, activity := [], [], [], [];
      nextNotificationId := 0;
    }
  }

  // ------------------------------------------------------------ wire names

  /** The lower-case strings the store and the request bodies use. */
  function RoleName(r: Role): string
  {
    match r
    case Owner => "owner" case Admin => "admin" case Member => "member"
    case Editor => "editor" case Viewer => "viewer"
  }

  function ParseRole(s: string): (r: Option<Role>)
    ensures r.Some? ==> RoleName(r.value) == s
    ensures forall x: Role :: RoleName(x) == s ==> r == Some(x)
  {
    if s == "owner" then Some(Owner) else if s == "admin" then Some(Admin)
    else if s == "member" then Some(Member) else if s == "editor" then Some(Editor)
    else if s == "viewer" then Some(Viewer) else None
  }

  function StatusName(st: Status): string
  {
    match st
    case Open => "open" case UnderReview => "under_review" case InProgress => "in_progress"
    case Completed => "completed" case Rejected => "rejected"
  }

  function ParseStatus(s: string): (r: Option<Status>)
    ensures r.Some? ==> StatusName(r.value) == s
    ensures forall x: Status :: StatusName(x) == s ==> r == Some(x)
  {
    if s == "open" then Some(Open) else if s == "under_review" then Some(UnderReview)
    else if s == "in_progress" then Some(InProgress) else if s == "completed" then Some(Completed)
    else if s == "rejected" then Some(Rejected) else None
  }

  function PriorityName(p: Priority): string
  {
    match p case Low => "low" case Medium => "medium" case High => "high"
  }

  function ParsePriority(s: string): (r: Option<Priority>)
    ensures r.Some? ==> PriorityName(r.value) == s
    ensures forall x: Priority :: PriorityName(x) == s ==> r == Some(x)
  {
    if s == "low" then Some(Low) else if s == "medium" then Some(Medium)
    else if s == "high" then Some(High) else None
  }

  function VisibilityName(v: Visibility): string
  {
    match v case Public => "public" case Private => "private"
  }

  function ParseVisibility(s: string): (r: Option<Visibility>)
    ensures r.Some? ==> VisibilityName(r.value) == s
    ensures forall x: Visibility :: VisibilityName(x) == s ==> r == Some(x)
  {
    if s == "public" then Some(Public) else if s == "private" then Some(Private) else None
  }

  // ------------------------------------------------------------ lookups by key

  /** The position of the first user with primary key `id`. */
  function UserIndex(users: seq<User>, id: Id): (r: Option<nat>)
    ensures r.Some? ==> r.value < |users| && users[r.value].id == id
    ensures r.Some? ==> forall j :: 0 <= j < r.value ==> users[j].id != id
    ensures r.None? <==> forall j :: 0 <= j < |users| ==> users[j].id != id
  {
    if users == [] then None
    else if users[0].id == id then Some(0)
    else match UserIndex(users[1..], id)
         case None => None
         case Some(k) => Some(k + 1)
  }

  /** The position of the first user with the given e-mail address. */
  function UserByEmail(users: seq<User>, email: string): (r: Option<nat>)
    ensures r.Some? ==> r.value < |users| && users[r.value].email == email
    ensures r.Some? ==> forall j :: 0 <= j < r.value ==> users[j].email != email
    ensures r.None? <==> forall j :: 0 <= j < |users| ==> users[j].email != email
  {
    if users == [] then None
    else if users[0].email == email then Some(0)
    else match UserByEmail(users[1..], email)
         case None => None
         case Some(k) => Some(k + 1)
  }

  /** The position of the first user holding the given username. */
  function UserByUsername(users: seq<User>, username: string): (r: Option<nat>)
    ensures r.Some? ==> r.value < |users| && users[r.value].username == Some(username)
    ensures r.Some? ==> forall j :: 0 <= j < r.value ==> users[j].username != Some(username)
    ensures r.None? <==> forall j :: 0 <= j < |users| ==> users[j].username != Some(username)
  {
    if users == [] then None
    else if users[0].username == Some(username) then Some(0)
    else match UserByUsername(users[1..], username)
         case None => None
         case Some(k) => Some(k + 1)
  }

  function ProjectIndex(projects: seq<Project>, id: Id): (r: Option<nat>)
    ensures r.Some? ==> r.value < |projects| && projects[r.value].id == id
    ensures r.Some? ==> forall j :: 0 <= j < r.value ==> projects[j].id != id
    ensures r.None? <==> forall j :: 0 <= j < |projects| ==> projects[j].id != id
  {
    if projects == [] then None
    else if projects[0].id == id then Some(0)
    else match ProjectIndex(projects[1..], id)
         case None => None
         case Some(k) => Some(k + 1)
  }

  function FeatureIndex(features: seq<Feature>, id: Id): (r: Option<nat>)
    ensures r.Some? ==> r.value < |features| && features[r.value].id == id
    ensures r.Some? ==> forall j :: 0 <= j < r.value ==> features[j].id != id
    ensures r.None? <==> forall j :: 0 <= j < |features| ==> features[j].id != id
  {
    if features == [] then None
    else if features[0].id == id then Some(0)
    else match FeatureIndex(features[1..], id)
         case None => None
         case Some(k) => Some(k + 1)
  }

  function StageIndex(stages: seq<Stage>, id: Id): (r: Option<nat>)
    ensures r.Some? ==> r.value < |stages| && stages[r.value].id == id
    ensures r.Some? ==> forall j :: 0 <= j < r.value ==> stages[j].id != id
    ensures r.None? <==> forall j :: 0 <= j < |stages| ==> stages[j].id != id
  {
    if stages == [] then None
    else if stages[0].id == id then Some(0)
    else match StageIndex(stages[1..], id)
         case None => None
         case Some(k) => Some(k + 1)
  }

  function MembershipIndex(members: seq<Membership>, id: Id): (r: Option<nat>)
    ensures r.Some? ==> r.value < |members| && members[r.value].id == id
    ensures r.Some? ==> forall j :: 0 <= j < r.value ==> members[j].id != id
    ensures r.None? <==> forall j :: 0 <= j < |members| ==> members[j].id != id
  {
    if members == [] then None
    else if members[0].id == id then Some(0)
    else match MembershipIndex(members[1..], id)
         case None => None
         case Some(k) => Some(k + 1)
  }

  function CommentIndex(comments: seq<Comment>, id: Id): (r: Option<nat>)
    ensures r.Some? ==> r.value < |comments| && comments[r.value].id == id
    ensures r.Some? ==> forall j :: 0 <= j < r.value ==> comments[j].id != id
    ensures r.None? <==> forall j :: 0 <= j < |comments| ==> comments[j].id != id
  {
    if comments == [] then None
    else if comments[0].id == id then Some(0)
    else match CommentIndex(comments[1..], id)
         case None => None
         case Some(k) => Some(k + 1)
  }

  function DiscussionIndex(discussions: seq<Discussion>, id: Id): (r: Option<nat>)
    ensures r.Some? ==> r.value < |discussions| && discussions[r.value].id == id
    ensures r.Some? ==> forall j :: 0 <= j < r.value ==> discussions[j].id != id
    ensures r.None? <==> forall j :: 0 <= j < |discussions| ==> discussions[j].id != id
  {
    if discussions == [] then None
    else if discussions[0].id == id then Some(0)
    else match DiscussionIndex(discussions[1..], id)
         case None => None
         case Some(k) => Some(k + 1)
  }

  function ReplyIndex(replies: seq<Reply>, id: Id): (r: Option<nat>)
    ensures r.Some? ==> r.value < |replies| && replies[r.value].id == id
    ensures r.Some? ==> forall j :: 0 <= j < r.value ==> replies[j].id != id
    ensures r.None? <==> forall j :: 0 <= j < |replies| ==> replies[j].id != id
  {
    if replies == [] then None
    else if replies[0].id == id then Some(0)
    else match ReplyIndex(replies[1..], id)
         case None => None
         case Some(k) => Some(k + 1)
  }

  function NotificationIndex(ns: seq<Notification>, id: nat): (r: Option<nat>)
    ensures r.Some? ==> r.value < |ns| && ns[r.value].id == id
    ensures r.Some? ==> forall j :: 0 <= j < r.value ==> ns[j].id != id
    ensures r.None? <==> forall j :: 0 <= j < |ns| ==> ns[j].id != id
  {
    if ns == [] then None
    else if ns[0].id == id then Some(0)
    else match NotificationIndex(ns[1..], id)
         case None => None
         case Some(k) => Some(k + 1)
  }

  /** The project with primary key `id`, if any. */
  function FindProject(projects: seq<Project>, id: Id): (r: Option<Project>)
    ensures r.Some? ==> r.value in projects && r.value.id == id
    ensures r.None? <==> forall j :: 0 <= j < |projects| ==> projects[j].id != id
  {
    match ProjectIndex(projects, id)
    case None => None
    case Some(i) => Some(projects[i])
  }
}

=== FILE: notifications.dfy ===
/** Notifications (notificationController.js): the reader's inbox handlers
    and the two fan-outs other controllers call after a feature is created
    or changes status. A fan-out walks the project's follower rows and
    appends one notification per recipient; its failures are caught and
    logged, never passed to the caller. */
module Notifications {
  import opened Common
  import opened Model

  /** The follower rows carry set semantics: no (user, project) pair twice. */
  predicate FollowersUnique(followers: seq<Follower>)
  {
    forall i, j :: 0 <= i < j < |followers| ==> followers[i] != followers[j]
  }

  /** The users a fan-out over `project` reaches, in follower-row order;
      `exclude` is left out when given. */
  function Recipients(followers: seq<Follower>, project: Id, exclude: Option<Id>): seq<Id>
  {
    if followers == [] then []
    else
      var last := followers[|followers| - 1];
      Recipients(followers[..|followers| - 1], project, exclude)
      + (if last.projectId == project && exclude != Some(last.userId) then [last.userId] else [])
  }

  /** The notifications a fan-out appends: numbered from `start`, unread. */
  function Batch(start: nat, recipients: seq<Id>, kind: NotificationKind, ref: Id, message: string): seq<Notification>
  {
    seq(|recipients|, i requires 0 <= i < |recipients| => Notification(start + i, recipients[i], kind, ref, message, false))
  }

  function NewFeatureMessage(authorName: string, title: string): string
  {
    authorName + " suggested a new feature: " + title
  }

  function StatusChangeMessage(title: string, from: Status, to: Status): string
  {
    "Feature \"" + title + "\" changed from " + StatusName(from) + " to " + StatusName(to)
  }

  // ------------------------------------------------------------ fan-out

  /** The loop both fan-outs share: one unread notification of `kind` per
      follower row of `project`, skipping `exclude`. */
  method FanOut(st: Store, project: Id, exclude: Option<Id>, kind: NotificationKind, ref: Id, message: string)
    modifies st`notifications, st`nextNotificationId
    ensures st.notifications == old(st.notifications)
      + Batch(old(st.nextNotificationId), Recipients(st.followers, project, exclude), kind, ref, message)
    ensures st.nextNotificationId == old(st.nextNotificationId) + |Recipients(st.followers, project, exclude)|
  {
    var i := 0;
    while i < |st.followers|
      invariant 0 <= i <= |st.followers|
      invariant st.notifications == old(st.notifications)
        + Batch(old(st.nextNotificationId), Recipients(st.followers[..i], project, exclude), kind, ref, message)
      invariant st.nextNotificationId == old(st.nextNotificationId) + |Recipients(st.followers[..i], project, exclude)|
    {
      var follow := st.followers[i];
      assert st.followers[..i + 1][..i] == st.followers[..i];
      var sent := Recipients(st.followers[..i], project, exclude);
      if follow.projectId == project && exclude != Some(follow.userId) {
        BatchSnoc(old(st.notifications), old(st.nextNotificationId), sent, follow.userId, kind, ref, message);
        st.notifications := st.notifications + [Notification(st.nextNotificationId, follow.userId, kind, ref, message, false)];
        st.nextNotificationId := st.nextNotificationId + 1;
      }
      i := i + 1;
    }
    assert st.followers[..i] == st.followers;
  }

  /** `notifyNewFeature`: every follower of the project except the author
      is told about the new feature. The message needs the feature and its
      author; when either is missing the lookup throws inside the guarded
      block and nothing is sent. */
  method NotifyNewFeature(st: Store, featureId: Id, projectId: Id, authorId: Id)
    modifies st`notifications, st`nextNotificationId
    ensures var fi := FeatureIndex(st.features, featureId);
      var ai := if fi.Some? then UserIndex(st.users, st.features[fi.value].authorId) else None;
      if ai.None? then
        st.notifications == old(st.notifications) && st.nextNotificationId == old(st.nextNotificationId)
      else
        var msg := NewFeatureMessage(st.users[ai.value].name, st.features[fi.value].title);
        var to := Recipients(st.followers, projectId, Some(authorId));
        && st.notifications == old(st.notifications) + Batch(old(st.nextNotificationId), to, NewFeature, featureId, msg)
        && st.nextNotificationId == old(st.nextNotificationId) + |to|
  {
    var fi := FeatureIndex(st.features, featureId);
    if fi.None? {
      return;
    }
    var ai := UserIndex(st.users, st.features[fi.value].authorId);
    if ai.None? {
      return;
    }
    var msg := NewFeatureMessage(st.users[ai.value].name, st.features[fi.value].title);
    FanOut(st, projectId, Some(authorId), NewFeature, featureId, msg);
  }

  /** `notifyStatusChange`: every follower of the feature's project is told,
      the author included. A missing feature makes the lookup throw and
      nothing is sent. */
  method NotifyStatusChange(st: Store, featureId: Id, from: Status, to: Status)
    modifies st`notifications, st`nextNotificationId
    ensures var fi := FeatureIndex(st.features, featureId);
      if fi.None? then
        st.notifications == old(st.notifications) && st.nextNotificationId == old(st.nextNotificationId)
      else
        var f := st.features[fi.value];
        var rs := Recipients(st.followers, f.projectId, None);
        && st.notifications == old(st.notifications)
           + Batch(old(st.nextNotificationId), rs, StatusUpdate, featureId, StatusChangeMessage(f.title, from, to))
        && st.nextNotificationId == old(st.nextNotificationId) + |rs|
  {
    var fi := FeatureIndex(st.features, featureId);
    if fi.None? {
      return;
    }
    var f := st.features[fi.value];
    FanOut(st, f.projectId, None, StatusUpdate, featureId, StatusChangeMessage(f.title, from, to));
  }

  // ------------------------------------------------------------ inbox

  predicate OwnedBy(n: Notification, id: nat, user: Id)
  {
    n.id == id && n.userId == user
  }

  /** The caller's notification with key `id`, if any. */
  function OwnedIndex(ns: seq<Notification>, id: nat, user: Id): (r: Option<nat>)
    ensures r.Some? ==> r.value < |ns| && OwnedBy(ns[r.value], id, user)
    ensures r.None? <==> forall j :: 0 <= j < |ns| ==> !OwnedBy(ns[j], id, user)
  {
    if ns == [] then None
    else if OwnedBy(ns[0], id, user) then Some(0)
    else match OwnedIndex(ns[1..], id, user)
         case None => None
         case Some(k) => Some(k + 1)
  }

  /** `markAsRead`: 404 unless the notification belongs to the caller; then
      only its `read` flag changes. */
  method MarkAsRead(st: Store, caller: Id, id: nat) returns (r: Result<Notification>)
    modifies st`notifications
    ensures OwnedIndex(old(st.notifications), id, caller).None? ==>
      r == Err(404, "Notification not found") && st.notifications == old(st.notifications)
    ensures OwnedIndex(old(st.notifications), id, caller).Some? ==>
      var k := OwnedIndex(old(st.notifications), id, caller).value;
      && st.notifications == old(st.notifications)[k := old(st.notifications)[k].(read := true)]
      && r == Ok(old(st.notifications)[k].(read := true))
  {
    var k := OwnedIndex(st.notifications, id, caller);
    if k.None? {
      return Err(404, "Notification not found");
    }
    var updated := st.notifications[k.value].(read := true);
    st.notifications := st.notifications[k.value := updated];
    r := Ok(updated);
  }

  /** The table after the bulk update of `markAllAsRead`. */
  function AllRead(ns: seq<Notification>, user: Id): (r: seq<Notification>)
    ensures |r| == |ns|
    ensures forall i :: 0 <= i < |ns| ==>
      r[i] == if ns[i].userId == user then ns[i].(read := true) else ns[i]
  {
    if ns == [] then []
    else
      var last := ns[|ns| - 1];
      AllRead(ns[..|ns| - 1], user) + [if last.userId == user then last.(read := true) else last]
  }

  /** `markAllAsRead`. */
  method MarkAllAsRead(st: Store, caller: Id) returns (r: Result<()>)
    modifies st`notifications
    ensures r == Ok(()) && st.notifications == AllRead(old(st.notifications), caller)
  {
    st.notifications := AllRead(st.notifications, caller);
    r := Ok(());
  }

  /** `deleteNotification`: 404 unless the notification belongs to the
      caller; then exactly that row goes. */
  method DeleteNotification(st: Store, caller: Id, id: nat) returns (r: Result<()>)
    modifies st`notifications
    ensures OwnedIndex(old(st.notifications), id, caller).None? ==>
      r == Err(404, "Notification not found") && st.notifications == old(st.notifications)
    ensures OwnedIndex(old(st.notifications), id, caller).Some? ==>
      var k := OwnedIndex(old(st.notifications), id, caller).value;
      r == Ok(()) && st.notifications == old(st.notifications)[..k] + old(st.notifications)[k + 1..]
  {
    var k := OwnedIndex(st.notifications, id, caller);
    if k.None? {
      return Err(404, "Notification not found");
    }
    st.notifications := st.notifications[..k.value] + st.notifications[k.value + 1..];
    r := Ok(());
  }

  datatype Inbox = Inbox(notifications: seq<Notification>, unreadCount: nat, total: nat)

  /** The caller's notifications, unread ones only when asked. */
  function Selected(ns: seq<Notification>, user: Id, unreadOnly: bool): (r: seq<Notification>)
    ensures forall n :: n in r <==> n in ns && n.userId == user && (unreadOnly ==> !n.read)
  {
    if ns == [] then []
    else Selected(ns[..|ns| - 1], user, unreadOnly)
         + (var n := ns[|ns| - 1]; if n.userId == user && (unreadOnly ==> !n.read) then [n] else [])
  }

  /** `getUserNotifications`: newest first, one page; the unread filter
      applies only when the query parameter is exactly the string "true".
      The unread count and the total ignore paging and the filter. A
      negative offset is refused by the ORM; a negative page size pages back
      from the oldest rows. */
  function GetUserNotifications(ns: seq<Notification>, caller: Id, page: int, limit: int, unreadOnly: string): (r: Result<Inbox>)
    ensures Skip(page, limit) < 0 <==> r.Err?
    ensures r.Ok? ==> r.value.notifications == Window(Reverse(Selected(ns, caller, unreadOnly == "true")), Skip(page, limit), limit)
    ensures r.Ok? ==> |r.value.notifications| <= Magnitude(limit)
    ensures r.Ok? ==> forall n :: n in r.value.notifications ==>
      n in ns && n.userId == caller && (unreadOnly == "true" ==> !n.read)
    ensures r.Ok? ==> r.value.unreadCount == |Selected(ns, caller, true)| && r.value.total == |Selected(ns, caller, false)|
  {
    if Skip(page, limit) < 0 then Err(500, "Invalid pagination")
    else
      var rows := Reverse(Selected(ns, caller, unreadOnly == "true"));
      var items := Window(rows, Skip(page, limit), limit);
      ReverseSame(Selected(ns, caller, unreadOnly == "true"));
      WindowWithin(rows, Skip(page, limit), limit);
      Ok(Inbox(items, |Selected(ns, caller, true)|, |Selected(ns, caller, false)|))
  }

  /** Any query value but "true" lists read rows too: with room on the
      first page, every one of the caller's rows is listed, newest first. */
  lemma UnreadFilterOnlyWhenTrue(ns: seq<Notification>, caller: Id, unreadOnly: string, limit: int)
    requires unreadOnly != "true" && limit >= |Selected(ns, caller, false)|
    ensures var r := GetUserNotifications(ns, caller, 1, limit, unreadOnly);
      r.Ok? && forall n :: n in ns && n.userId == caller ==> n in r.value.notifications
  {
    var rows := Reverse(Selected(ns, caller, false));
    ReverseSame(Selected(ns, caller, false));
    assert Window(rows, 0, limit) == rows;
  }

  // ------------------------------------------------------------ properties

  /** One more recipient adds one notification, numbered next, after the
      rows already written. */
  lemma BatchSnoc(before: seq<Notification>, start: nat, rs: seq<Id>, u: Id, kind: NotificationKind, ref: Id, message: string)
    ensures before + Batch(start, rs + [u], kind, ref, message)
      == (before + Batch(start, rs, kind, ref, message)) + [Notification(start + |rs|, u, kind, ref, message, false)]
  {
    var b := Batch(start, rs, kind, ref, message);
    var n := Notification(start + |rs|, u, kind, ref, message, false);
    assert Batch(start, rs + [u], kind, ref, message) == b + [n];
    assert before + (b + [n]) == (before + b) + [n];
  }

  /** A fan-out reaches exactly the followers of the project other than the
      excluded user. */
  lemma {:induction false} RecipientsAreFollowers(followers: seq<Follower>, project: Id, exclude: Option<Id>, u: Id)
    ensures u in Recipients(followers, project, exclude) <==> Follower(u, project) in followers && exclude != Some(u)
  {
    if followers != [] {
      var init := followers[..|followers| - 1];
      RecipientsAreFollowers(init, project, exclude, u);
      assert followers == init + [followers[|followers| - 1]];
    }
  }

  /** No user appears twice. */
  predicate Distinct(s: seq<Id>)
  {
    forall i, j :: 0 <= i < j < |s| ==> s[i] != s[j]
  }

  /** With follower rows forming a set, nobody is reached twice. */
  lemma {:induction false} RecipientsDistinct(followers: seq<Follower>, project: Id, exclude: Option<Id>)
    requires FollowersUnique(followers)
    ensures Distinct(Recipients(followers, project, exclude))
  {
    if followers != [] {
      var init := followers[..|followers| - 1];
      var last := followers[|followers| - 1];
      assert FollowersUnique(init) by {
        forall i, j | 0 <= i < j < |init| ensures init[i] != init[j] {
          assert init[i] == followers[i] && init[j] == followers[j];
        }
      }
      RecipientsDistinct(init, project, exclude);
      var rs, ri := Recipients(followers, project, exclude), Recipients(init, project, exclude);
      if last.projectId == project && exclude != Some(last.userId) {
        assert rs == ri + [last.userId];
        RecipientsAreFollowers(init, project, exclude, last.userId);
        assert Follower(last.userId, project) == last;
        assert last !in init by {
          forall k | 0 <= k < |init| ensures init[k] != last {
            assert init[k] == followers[k];
          }
        }
        forall i, j | 0 <= i < j < |rs| ensures rs[i] != rs[j] {
          assert rs[i] == ri[i];
          if j < |ri| { assert rs[j] == ri[j]; } else { assert ri[i] in ri; }
        }
      } else {
        assert rs == ri;
      }
    }
  }

  /** The author of a new feature who follows its project is told of a
      later status change but not of the creation itself. */
  lemma AuthorToldOfStatusChangeOnly(followers: seq<Follower>, project: Id, author: Id)
    requires Follower(author, project) in followers
    ensures author !in Recipients(followers, project, Some(author))
    ensures author in Recipients(followers, project, None)
  {
    RecipientsAreFollowers(followers, project, Some(author), author);
    RecipientsAreFollowers(followers, project, None, author);
  }

  /** Every notification of a batch is addressed to a recipient and starts unread. */
  lemma BatchAddressedToRecipients(start: nat, rs: seq<Id>, kind: NotificationKind, ref: Id, message: string)
    ensures forall n :: n in Batch(start, rs, kind, ref, message) ==>
      n.userId in rs && !n.read && n.kind == kind && n.referenceId == ref && start <= n.id < start + |rs|
  {
  }

  /** After `markAllAsRead` the caller has nothing unread, everyone else's
      notifications are as they were, and a second call changes nothing. */
  lemma {:induction false} AllReadProperties(ns: seq<Notification>, user: Id)
    ensures Selected(AllRead(ns, user), user, true) == []
    ensures forall n :: n in ns && n.userId != user ==> n in AllRead(ns, user)
    ensures AllRead(AllRead(ns, user), user) == AllRead(ns, user)
  {
    var r := AllRead(ns, user);
    if ns != [] {
      AllReadProperties(ns[..|ns| - 1], user);
      assert r[..|r| - 1] == AllRead(ns[..|ns| - 1], user);
    }
    forall n | n in ns && n.userId != user ensures n in r {
      var k :| 0 <= k < |ns| && ns[k] == n;
      assert r[k] == n;
    }
  }
}

=== FILE: passport.dfy ===
/** OAuth sign-in (passportSetup.js): the Google and GitHub verify
    callbacks find a user row, create one, or link the provider id to it;
    the session keeps the user's id alone.

    The provider profile is a parameter; the provider's protocol and the
    redirects around it are not modelled. */
module Passport {
  import opened Common
  import opened Model
  import Users

  // ------------------------------------------------------------ session

  /** `serializeUser`: the session stores the id alone. */
  function Serialize(u: User): (id: Id)
    ensures id == u.id
  {
    u.id
  }

  /** `deserializeUser`: the row with that id, or nothing. */
  function Deserialize(users: seq<User>, id: Id): (r: Option<User>)
    ensures r.Some? ==> r.value in users && r.value.id == id
    ensures r.None? <==> forall j :: 0 <= j < |users| ==> users[j].id != id
  {
    match UserIndex(users, id)
    case None => None
    case Some(k) => Some(users[k])
  }

  /** With keys unique, a session brings back the very row it was made from. */
  lemma SessionRoundTrip(users: seq<User>, u: User)
    requires u in users && Users.IdsUnique(users)
    ensures Deserialize(users, Serialize(u)) == Some(u)
  {
    var i :| 0 <= i < |users| && users[i] == u;
    var k := UserIndex(users, u.id).value;
    assert users[k].id == users[i].id;
  }

  // ------------------------------------------------------------ Google

  /** The parts of a Google profile the callback reads. */
  datatype GoogleProfile = GoogleProfile(id: string, email: string, displayName: string, photo: string)

  /** A row the Google lookup returns: the same Google id, the same e-mail,
      or the same avatar address. */
  predicate GoogleMatches(u: User, p: GoogleProfile)
  {
    u.googleId == Some(p.id) || u.email == p.email || u.avatarUrl == Some(p.photo)
  }

  function FirstGoogleMatch(users: seq<User>, p: GoogleProfile): (r: Option<nat>)
    ensures r.Some? ==> r.value < |users| && GoogleMatches(users[r.value], p)
    ensures r.Some? ==> forall j :: 0 <= j < r.value ==> !GoogleMatches(users[j], p)
    ensures r.None? <==> forall j :: 0 <= j < |users| ==> !GoogleMatches(users[j], p)
  {
    if users == [] then None
    else if GoogleMatches(users[0], p) then Some(0)
    else match FirstGoogleMatch(users[1..], p)
         case None => None
         case Some(k) => Some(k + 1)
  }

  /** The row a first Google sign-in creates; `role` is the column's default. */
  function NewGoogleUser(id: Id, p: GoogleProfile, role: string): (u: User)
    ensures u.id == id && GoogleMatches(u, p) && u.googleId == Some(p.id)
    ensures u.passwordHash.None? && u.githubId.None?
  {
    User(id, p.displayName, p.email, None, None, Some(p.id), None, Some(p.photo), None, role)
  }

  /** The table and the signed-in user after the Google callback. */
  datatype SignIn = SignIn(users: seq<User>, user: User)

  function GoogleOutcome(users: seq<User>, p: GoogleProfile, id: Id, role: string): (r: SignIn)
    ensures GoogleMatches(r.user, p)
    ensures r.user in r.users
    ensures |r.users| == |users| || r.users == users + [r.user]
  {
    match FirstGoogleMatch(users, p)
    case None => SignIn(users + [NewGoogleUser(id, p, role)], NewGoogleUser(id, p, role))
    case Some(k) =>
      if users[k].googleId.None? then
        var linked := users[k].(googleId := Some(p.id));
        assert users[k := linked][k] == linked;
        SignIn(users[k := linked], linked)
      else SignIn(users, users[k])
  }

  /** The Google verify callback: with no matching row, a row is created
      from the profile; a matching row without a Google id gets this one and
      nothing else; a matching row that has one is returned as it is, even
      when it differs. */
  method GoogleSignIn(st: Store, p: GoogleProfile, id: Id, role: string) returns (user: User)
    modifies st`users
    ensures FirstGoogleMatch(old(st.users), p).None? ==>
      user == NewGoogleUser(id, p, role) && st.users == old(st.users) + [user]
    ensures var k := FirstGoogleMatch(old(st.users), p);
      k.Some? && old(st.users)[k.value].googleId.None? ==>
        user == old(st.users)[k.value].(googleId := Some(p.id)) && st.users == old(st.users)[k.value := user]
    ensures var k := FirstGoogleMatch(old(st.users), p);
      k.Some? && old(st.users)[k.value].googleId.Some? ==> user == old(st.users)[k.value] && st.users == old(st.users)
    ensures SignIn(st.users, user) == GoogleOutcome(old(st.users), p, id, role)
  {
    var k := FirstGoogleMatch(st.users, p);
    if k.None? {
      user := NewGoogleUser(id, p, role);
      st.users := st.users + [user];
    } else if st.users[k.value].googleId.None? {
      user := st.users[k.value].(googleId := Some(p.id));
      st.users := st.users[k.value := user];
    } else {
      user := st.users[k.value];
    }
  }

  /** Signing in again with the same profile finds the same row and writes
      nothing. */
  lemma GoogleSignInSettles(users: seq<User>, p: GoogleProfile, id: Id, id2: Id, role: string)
    ensures var first := GoogleOutcome(users, p, id, role);
      GoogleOutcome(first.users, p, id2, role) == first
  {
    var first := GoogleOutcome(users, p, id, role);
    var k := FirstGoogleMatch(users, p);
    var k2 := FirstGoogleMatch(first.users, p);
    if k.None? {
      assert first.users[|users|] == first.user;
      assert k2.Some? && k2.value == |users| by {
        forall j | 0 <= j < |users| ensures !GoogleMatches(first.users[j], p) {
          assert first.users[j] == users[j];
        }
      }
    } else {
      assert first.users[k.value] == first.user;
      assert k2.Some? && k2.value == k.value by {
        forall j | 0 <= j < k.value ensures !GoogleMatches(first.users[j], p) {
          assert first.users[j] == users[j];
        }
      }
    }
  }

  /** A row is linked to a Google account on the strength of its avatar
      address alone: different e-mail, no Google id, same photo. */
  lemma GoogleLinksByAvatar(u: User, p: GoogleProfile, id: Id, role: string)
    requires u.email != p.email && u.googleId.None? && u.avatarUrl == Some(p.photo)
    ensures GoogleOutcome([u], p, id, role).user == u.(googleId := Some(p.id))
    ensures GoogleOutcome([u], p, id, role).user.email != p.email
  {
    assert FirstGoogleMatch([u], p) == Some(0);
  }

  // ------------------------------------------------------------ GitHub

  /** The parts of a GitHub profile the callback reads. */
  datatype GitHubProfile = GitHubProfile(id: string, username: string, email: Option<string>,
                                         displayName: Option<string>, photo: string)

  /** The public e-mail, or the no-reply address GitHub gives every login. */
  function GitHubEmail(p: GitHubProfile): (e: string)
    ensures p.email.Some? ==> e == p.email.value
    ensures p.email.None? ==> e == p.username + "@users.noreply.github.com"
    ensures p.email.None? ==> IsPrefix(p.username, e)
  {
    if p.email.Some? then p.email.value else p.username + "@users.noreply.github.com"
  }

  /** `displayName || username`. */
  function GitHubName(p: GitHubProfile): string
  {
    if p.displayName.Some? && p.displayName.value != "" then p.displayName.value else p.username
  }

  /** A row the GitHub lookup returns: the same GitHub id or the same
      e-mail (the one `GitHubEmail` gives). */
  predicate GitHubMatches(u: User, githubId: string, email: string)
  {
    u.githubId == Some(githubId) || u.email == email
  }

  function FirstGitHubMatch(users: seq<User>, githubId: string, email: string): (r: Option<nat>)
    ensures r.Some? ==> r.value < |users| && GitHubMatches(users[r.value], githubId, email)
    ensures r.Some? ==> forall j :: 0 <= j < r.value ==> !GitHubMatches(users[j], githubId, email)
    ensures r.None? <==> forall j :: 0 <= j < |users| ==> !GitHubMatches(users[j], githubId, email)
  {
    if users == [] then None
    else if GitHubMatches(users[0], githubId, email) then Some(0)
    else match FirstGitHubMatch(users[1..], githubId, email)
         case None => None
         case Some(k) => Some(k + 1)
  }

  /** The row a first GitHub sign-in creates: it takes the login as its
      username and has no password. */
  function NewGitHubUser(id: Id, p: GitHubProfile, role: string): (u: User)
    ensures u.id == id && GitHubMatches(u, p.id, GitHubEmail(p)) && u.githubId == Some(p.id)
    ensures u.username == Some(p.username) && u.passwordHash.None? && u.googleId.None?
    ensures u.name != "" || p.username == ""
  {
    User(id, GitHubName(p), GitHubEmail(p), Some(p.username), None, None, Some(p.id), Some(p.photo), None, role)
  }

  /** The GitHub verify callback: like Google's, matching on the GitHub id
      or the e-mail; a created row also takes the GitHub login as its
      username, which fails on the unique index when another row holds it. */
  method GitHubSignIn(st: Store, p: GitHubProfile, id: Id, role: string) returns (r: Result<User>)
    modifies st`users
    ensures FirstGitHubMatch(old(st.users), p.id, GitHubEmail(p)).None? && UserByUsername(old(st.users), p.username).Some? ==>
      r == Err(500, "Unique constraint failed on the fields: (username)") && st.users == old(st.users)
    ensures FirstGitHubMatch(old(st.users), p.id, GitHubEmail(p)).None? && UserByUsername(old(st.users), p.username).None? ==>
      r == Ok(NewGitHubUser(id, p, role)) && st.users == old(st.users) + [r.value]
    ensures var k := FirstGitHubMatch(old(st.users), p.id, GitHubEmail(p));
      k.Some? && old(st.users)[k.value].githubId.None? ==>
        r == Ok(old(st.users)[k.value].(githubId := Some(p.id))) && st.users == old(st.users)[k.value := r.value]
    ensures var k := FirstGitHubMatch(old(st.users), p.id, GitHubEmail(p));
      k.Some? && old(st.users)[k.value].githubId.Some? ==> r == Ok(old(st.users)[k.value]) && st.users == old(st.users)
    ensures r.Ok? ==> GitHubMatches(r.value, p.id, GitHubEmail(p)) && r.value in st.users
  {
    var k := FirstGitHubMatch(st.users, p.id, GitHubEmail(p));
    if k.None? {
      if UserByUsername(st.users, p.username).Some? {
        return Err(500, "Unique constraint failed on the fields: (username)");
      }
      var u := NewGitHubUser(id, p, role);
      st.users := st.users + [u];
      assert st.users[|st.users| - 1] == u;
      return Ok(u);
    }
    if st.users[k.value].githubId.None? {
      var u := st.users[k.value].(githubId := Some(p.id));
      st.users := st.users[k.value := u];
      assert st.users[k.value] == u;
      return Ok(u);
    }
    r := Ok(st.users[k.value]);
  }

  /** A GitHub profile without a public e-mail signs in to the row holding
      its no-reply address. */
  lemma GitHubNoReplyMatch(users: seq<User>, p: GitHubProfile, k: nat)
    requires p.email.None? && k < |users| && users[k].email == p.username + "@users.noreply.github.com"
    ensures FirstGitHubMatch(users, p.id, GitHubEmail(p)).Some? && FirstGitHubMatch(users, p.id, GitHubEmail(p)).value <= k
  {
    assert GitHubMatches(users[k], p.id, GitHubEmail(p));
  }
}

=== FILE: projects.dfy ===
/** Projects (projectController.js): the slug derived from the title, the
    default stages, the logo fallback, owner-only update and delete, and
    the unchecked public read. */
module Projects {
  import opened Common
  import opened Model
  import opened Access
  import Features

  // ------------------------------------------------------------ slugs

  /** The characters `[a-z0-9]` a slug keeps. */
  predicate IsSlugChar(c: char) { IsLower(c) || IsDigit(c) }

  /** `s` with its leading run of characters outside `[a-z0-9]` removed. */
  function DropRun(s: string): (r: string)
    ensures |r| <= |s|
    ensures r == [] || IsSlugChar(r[0])
  {
    if s != [] && !IsSlugChar(s[0]) then DropRun(s[1..]) else s
  }

  /** `replace(/[^a-z0-9]+/g, '-')`: every maximal run of other characters
      becomes one dash. */
  function Collapse(s: string): string
    decreases |s|
  {
    if s == [] then []
    else if IsSlugChar(s[0]) then [s[0]] + Collapse(s[1..])
    else ['-'] + Collapse(DropRun(s[1..]))
  }

  /** `replace(/(^-|-$)+/g, '')`: a dash at either end is removed. */
  function StripDashes(s: string): (r: string)
  {
    var a := if s != [] && s[0] == '-' then s[1..] else s;
    if a != [] && a[|a| - 1] == '-' then a[..|a| - 1] else a
  }

  /** The slug `createProject` stores: only `[a-z0-9-]`, never two dashes
      in a row and no dash at either end. `toLowerCase` is modelled on ASCII
      letters. */
  function Slugify(title: string): (r: string)
    ensures WellFormedSlug(r)
  {
    CollapseShape(ToLower(title));
    StripShape(Collapse(ToLower(title)));
    StripDashes(Collapse(ToLower(title)))
  }

  /** Only `[a-z0-9-]`, no dash at either end, and never two dashes in a row. */
  predicate WellFormedSlug(s: string)
  {
    SlugChars(s) && NoDoubleDash(s) && (s != [] ==> s[0] != '-' && s[|s| - 1] != '-')
  }

  predicate SlugChars(s: string)
  {
    forall i :: 0 <= i < |s| ==> IsSlugChar(s[i]) || s[i] == '-'
  }

  predicate NoDoubleDash(s: string)
  {
    forall i :: 0 <= i < |s| - 1 ==> !(s[i] == '-' && s[i + 1] == '-')
  }

  /** What `Collapse` produces: slug characters and single dashes; it starts
      with a dash exactly when the input starts outside `[a-z0-9]`. */
  lemma {:induction false} CollapseShape(s: string)
    ensures var c := Collapse(s);
      && SlugChars(c) && NoDoubleDash(c)
      && (c != [] <==> s != [])
      && (c != [] ==> (c[0] == '-' <==> !IsSlugChar(s[0])))
    decreases |s|
  {
    if s != [] {
      var c := Collapse(s);
      var t := if IsSlugChar(s[0]) then Collapse(s[1..]) else Collapse(DropRun(s[1..]));
      if IsSlugChar(s[0]) {
        CollapseShape(s[1..]);
        assert c == [s[0]] + t;
      } else {
        CollapseShape(DropRun(s[1..]));
        assert c == ['-'] + t;
      }
      forall i | 0 <= i < |c| - 1 ensures !(c[i] == '-' && c[i + 1] == '-') {
        if i > 0 { assert c[i] == t[i - 1] && c[i + 1] == t[i]; }
      }
    }
  }

  /** A piece of a string of slug characters and single dashes is one too. */
  lemma PieceShape(s: string, lo: nat, hi: nat)
    requires lo <= hi <= |s| && SlugChars(s) && NoDoubleDash(s)
    ensures SlugChars(s[lo..hi]) && NoDoubleDash(s[lo..hi])
  {
    var t := s[lo..hi];
    assert forall i :: 0 <= i < |t| ==> t[i] == s[lo + i];
  }

  /** Removing a dash at either end of such a string leaves a well-formed slug. */
  lemma StripShape(c: string)
    requires SlugChars(c) && NoDoubleDash(c)
    ensures WellFormedSlug(StripDashes(c))
  {
    var a := if c != [] && c[0] == '-' then c[1..] else c;
    PieceShape(c, |c| - |a|, |c|);
    assert a != [] ==> a[0] != '-' by {
      if a != [] && c != [] && c[0] == '-' {
        assert a[0] == c[1];
      }
    }
    var s := StripDashes(c);
    PieceShape(a, 0, |s|);
    assert s == a[..|s|];
    if |s| > 0 && |s| < |a| {
      assert s[|s| - 1] == a[|a| - 2];
    }
  }

  /** A well-formed slug passes through every step unchanged. */
  lemma WellFormedIsFixed(s: string)
    requires WellFormedSlug(s)
    ensures Slugify(s) == s
  {
    assert ToLower(s) == s;
    CollapseFixed(s);
  }

  /** `Collapse` leaves alone a string of slug characters and single dashes
      that does not end in a dash. */
  lemma {:induction false} CollapseFixed(s: string)
    requires SlugChars(s) && NoDoubleDash(s)
    requires s != [] ==> s[|s| - 1] != '-'
    ensures Collapse(s) == s
    decreases |s|
  {
    if s != [] {
      var t := s[1..];
      PieceShape(s, 1, |s|);
      if IsSlugChar(s[0]) {
        CollapseFixed(t);
      } else {
        assert t != [] && IsSlugChar(t[0]);
        assert DropRun(t) == t;
        CollapseFixed(t);
      }
    }
  }

  /** Slugifying a slug returns it unchanged. */
  lemma SlugIdempotent(title: string)
    ensures Slugify(Slugify(title)) == Slugify(title)
  {
    WellFormedIsFixed(Slugify(title));
  }

  lemma ExampleSlug()
    ensures Slugify(" Go!") == "go"
  {
    assert ToLower(" Go!") == " go!";
    assert DropRun("go!") == "go!";
    assert DropRun("!") == "";
    assert Collapse("!") == "-";
    assert Collapse("go!") == "go-";
    assert Collapse(" go!") == "-go-";
  }

  // ------------------------------------------------------------ creation

  /** A stage as a request body describes it. */
  datatype StageSpec = StageSpec(title: string, position: int, color: string)

  const DefaultStages: seq<StageSpec> := [
    StageSpec("Backlog", 1, "bg-gray-500"),
    StageSpec("In Progress", 2, "bg-yellow-500"),
    StageSpec("Completed", 3, "bg-green-500")
  ]

  /** The supplied stages when there is at least one, the defaults otherwise. */
  function StagesToCreate(stages: Option<seq<StageSpec>>): (r: seq<StageSpec>)
    ensures stages.None? || stages.value == [] ==> r == DefaultStages
    ensures stages.Some? && stages.value != [] ==> r == stages.value
    ensures r != []
  {
    if stages.Some? && |stages.value| > 0 then stages.value else DefaultStages
  }

  /** The logo: an uploaded file wins, then a non-empty `logo_url` from the
      body, then an initials avatar seeded with the URI-encoded title.
      `encoded` is `encodeURIComponent(title)`. */
  function LogoUrl(bodyLogo: Option<string>, uploaded: Option<string>, encoded: string): (r: string)
    ensures uploaded.Some? ==> r == "/uploads/projects/" + uploaded.value
    ensures uploaded.None? && bodyLogo.Some? && bodyLogo.value != "" ==> r == bodyLogo.value
    ensures uploaded.None? && (bodyLogo.None? || bodyLogo.value == "") ==> IsPrefix(AvatarBase, r)
  {
    var logo := if uploaded.Some? then Some("/uploads/projects/" + uploaded.value) else bodyLogo;
    if logo.None? || logo.value == "" then AvatarBase + encoded + "&backgroundColor=0D8ABC&fontWeight=500"
    else logo.value
  }

  const AvatarBase: string := "https://api.dicebear.com/7.x/initials/svg?seed="

  /** The stage rows a new project gets, with keys from `stageKey`. */
  function StageRows(project: Id, specs: seq<StageSpec>, stageKey: nat -> Id): (r: seq<Stage>)
    ensures |r| == |specs|
    ensures forall i :: 0 <= i < |specs| ==>
      r[i] == Stage(stageKey(i), project, specs[i].title, specs[i].position, specs[i].color)
  {
    seq(|specs|, i requires 0 <= i < |specs| => Stage(stageKey(i), project, specs[i].title, specs[i].position, specs[i].color))
  }

  /** The request fields `createProject` reads. */
  datatype NewProject = NewProject(
    title: string, description: Option<string>, category: Option<string>,
    visibility: Option<Visibility>, progress: Option<int>, stages: Option<seq<StageSpec>>,
    logoUrl: Option<string>)

  /** `createProject`: the caller becomes the owner; visibility defaults to
      public and progress to 0; the slug comes from the title; the stages
      are the supplied ones or the three defaults. `encoded` is
      `encodeURIComponent(title)`, `uploaded` the stored upload's file name
      and `stageKey` the keys the store gives the stage rows. */
  method CreateProject(st: Store, caller: Id, id: Id, req: NewProject, uploaded: Option<string>, encoded: string,
                       stageKey: nat -> Id) returns (r: Result<Project>)
    modifies st`projects, st`stages
    ensures r.Ok?
    ensures r.value.id == id && r.value.ownerId == caller && r.value.title == req.title
    ensures r.value.slug == Slugify(req.title) && WellFormedSlug(r.value.slug)
    ensures r.value.visibility == (if req.visibility.Some? then req.visibility.value else Public)
    ensures r.value.progress == (if req.progress.Some? then req.progress.value else 0)
    ensures r.value.logoUrl == LogoUrl(req.logoUrl, uploaded, encoded)
    ensures st.projects == old(st.projects) + [r.value]
    ensures st.stages == old(st.stages) + StageRows(id, StagesToCreate(req.stages), stageKey)
  {
    var p := Project(id, req.title, Slugify(req.title), req.description, req.category,
                     LogoUrl(req.logoUrl, uploaded, encoded),
                     if req.visibility.Some? then req.visibility.value else Public,
                     if req.progress.Some? then req.progress.value else 0, caller);
    st.projects := st.projects + [p];
    st.stages := st.stages + StageRows(id, StagesToCreate(req.stages), stageKey);
    r := Ok(p);
  }

  /** A project created without stages gets a Backlog, so features can be
      placed in it. */
  lemma {:induction false} DefaultStagesHaveBacklog(before: seq<Stage>, id: Id, stages: Option<seq<StageSpec>>, stageKey: nat -> Id)
    requires forall j :: 0 <= j < |before| ==> before[j].projectId != id
    requires stages.None? || stages.value == []
    ensures Features.BacklogIndex(before + StageRows(id, StagesToCreate(stages), stageKey), id) == Some(|before|)
  {
    var all := before + StageRows(id, StagesToCreate(stages), stageKey);
    forall j | 0 <= j < |before| ensures !Features.IsBacklogOf(all[j], id) {
      assert all[j] == before[j];
    }
    assert Features.IsBacklogOf(all[|before|], id);
  }

  /** A project created with stages none of which is titled "Backlog" never
      gets a feature: `createFeature` finds no Backlog stage for it. */
  lemma {:induction false} CustomStagesWithoutBacklog(before: seq<Stage>, id: Id, stages: seq<StageSpec>, stageKey: nat -> Id)
    requires forall j :: 0 <= j < |before| ==> before[j].projectId != id
    requires stages != [] && forall i :: 0 <= i < |stages| ==> stages[i].title != "Backlog"
    ensures Features.BacklogIndex(before + StageRows(id, StagesToCreate(Some(stages)), stageKey), id).None?
  {
    var rows := StageRows(id, StagesToCreate(Some(stages)), stageKey);
    var all := before + rows;
    forall j | 0 <= j < |all| ensures !Features.IsBacklogOf(all[j], id) {
      if j < |before| { assert all[j] == before[j]; } else { assert all[j] == rows[j - |before|]; }
    }
  }

  // ------------------------------------------------------------ update, delete, read

  /** The fields `updateProject` reads; `None` leaves a field as it is. */
  datatype ProjectChanges = ProjectChanges(
    title: Option<string>, description: Option<string>, category: Option<string>,
    logoUrl: Option<string>, visibility: Option<Visibility>, progress: Option<int>)

  function ApplyProjectChanges(p: Project, c: ProjectChanges): (r: Project)
    ensures r.id == p.id && r.ownerId == p.ownerId && r.slug == p.slug
    ensures r.title == (if c.title.Some? then c.title.value else p.title)
    ensures r.visibility == (if c.visibility.Some? then c.visibility.value else p.visibility)
    ensures r.progress == (if c.progress.Some? then c.progress.value else p.progress)
  {
    p.(title := if c.title.Some? then c.title.value else p.title,
       description := if c.description.Some? then c.description else p.description,
       category := if c.category.Some? then c.category else p.category,
       logoUrl := if c.logoUrl.Some? then c.logoUrl.value else p.logoUrl,
       visibility := if c.visibility.Some? then c.visibility.value else p.visibility,
       progress := if c.progress.Some? then c.progress.value else p.progress)
  }

  /** A title change leaves the old slug in place: after renaming, the slug
      no longer matches the title. */
  lemma RenameKeepsStaleSlug(p: Project, c: ProjectChanges)
    requires p.slug == Slugify(p.title) && c.title.Some? && Slugify(c.title.value) != p.slug
    ensures var q := ApplyProjectChanges(p, c);
      q.slug != Slugify(q.title)
  {
  }

  /** The caller owns the project with key `id`. */
  predicate OwnsProject(projects: seq<Project>, user: Id, id: Id)
  {
    var k := ProjectIndex(projects, id);
    k.Some? && projects[k.value].ownerId == user
  }

  /** `updateProject`: only the owner (404 otherwise); the sent fields
      change and nothing else, the slug included. */
  method UpdateProject(st: Store, caller: Id, id: Id, c: ProjectChanges) returns (r: Result<Project>)
    modifies st`projects
    ensures !OwnsProject(old(st.projects), caller, id) ==>
      r == Err(404, "Project not found or access denied") && st.projects == old(st.projects)
    ensures OwnsProject(old(st.projects), caller, id) ==>
      var k := ProjectIndex(old(st.projects), id).value;
      && st.projects == old(st.projects)[k := ApplyProjectChanges(old(st.projects)[k], c)]
      && r == Ok(st.projects[k])
  {
    var k := ProjectIndex(st.projects, id);
    if k.None? || st.projects[k.value].ownerId != caller {
      return Err(404, "Project not found or access denied");
    }
    var updated := ApplyProjectChanges(st.projects[k.value], c);
    st.projects := st.projects[k.value := updated];
    r := Ok(updated);
  }

  /** `deleteProject`: only the owner (404 otherwise); exactly that row goes. */
  method DeleteProject(st: Store, caller: Id, id: Id) returns (r: Result<()>)
    modifies st`projects
    ensures !OwnsProject(old(st.projects), caller, id) ==>
      r == Err(404, "Project not found or access denied") && st.projects == old(st.projects)
    ensures OwnsProject(old(st.projects), caller, id) ==>
      var k := ProjectIndex(old(st.projects), id).value;
      r == Ok(()) && st.projects == old(st.projects)[..k] + old(st.projects)[k + 1..]
  {
    var k := ProjectIndex(st.projects, id);
    if k.None? || st.projects[k.value].ownerId != caller {
      return Err(404, "Project not found or access denied");
    }
    st.projects := st.projects[..k.value] + st.projects[k.value + 1..];
    r := Ok(());
  }

  /** `getProject`: a public route that only looks the key up; there is no
      visibility check. */
  function GetProject(projects: seq<Project>, id: Id): (r: Result<Project>)
    ensures r.Err? <==> forall j :: 0 <= j < |projects| ==> projects[j].id != id
    ensures r.Err? ==> r == Err(404, "Project not found")
    ensures r.Ok? ==> r.value in projects && r.value.id == id
  {
    match FindProject(projects, id)
    case None => Err(404, "Project not found")
    case Some(p) => Ok(p)
  }

  /** Anyone, member or not, signed in or not, reads a private project by
      its key, although every other read handler hides it from outsiders. */
  lemma PrivateProjectReadableByAnyone(projects: seq<Project>, members: seq<Membership>, id: Id, outsider: Id)
    requires ProjectIndex(projects, id).Some?
    requires var p := projects[ProjectIndex(projects, id).value];
      p.visibility == Private && p.ownerId != outsider && !IsMember(members, outsider, id)
    ensures GetProject(projects, id).Ok?
    ensures !CanView(GetProject(projects, id).value, members, outsider)
  {
  }
}

=== FILE: replies.dfy ===
/** Threaded replies to discussions (discussionRepliesController.js): the
    parent-id sanitiser, the recursive rebuilding of the reply tree, the
    author/owner/admin permissions, and reply likes. */
module Replies {
  import opened Common
  import opened Model
  import opened Access

  // ------------------------------------------------------------ parent ids

  /** The sanitiser of `createReply`: a supplied parent id is kept only when
      it is truthy, longer than five characters, not a client-side
      temporary id (`temp-…`) and not the placeholder `aaa`. */
  predicate ValidParentId(p: Option<string>)
  {
    p.Some? && p.value != "" && |p.value| > 5 && !IsPrefix("temp-", p.value) && p.value != "aaa"
  }

  /** The `parent_id` a new reply is stored with. */
  function StoredParent(p: Option<string>): (r: Option<Id>)
    ensures r.Some? ==> r == p && |r.value| > 5 && !IsPrefix("temp-", r.value)
    ensures r.None? <==> !ValidParentId(p)
  {
    if ValidParentId(p) then p else None
  }

  /** The length test already rules out the empty string and `aaa`: a
      supplied id is kept exactly when it is long enough and not temporary. */
  lemma ParentIdTestReduces(s: string)
    ensures ValidParentId(Some(s)) <==> |s| > 5 && !IsPrefix("temp-", s)
    ensures !ValidParentId(Some("aaa")) && !ValidParentId(Some("temp-123456")) && !ValidParentId(None)
  {
    assert IsPrefix("temp-", "temp-123456");
  }

  // ------------------------------------------------------------ the tree

  /** A reply as `getDiscussionReplies` returns it. */
  datatype ReplyNode = ReplyNode(reply: Reply, userHasLiked: bool, replies: seq<ReplyNode>)

  predicate Liked(likes: seq<ReplyLike>, user: Id, reply: Id)
  {
    ReplyLike(user, reply) in likes
  }

  predicate IsChildOf(r: Reply, discussion: Id, parent: Option<Id>)
  {
    r.discussionId == discussion && r.parentId == parent
  }

  /** A reply's parent row, when present, was created before it. Replies
      are created only under an existing parent, so the table keeps this. */
  predicate ParentsEarlier(t: seq<Reply>)
  {
    forall i, j :: 0 <= i < |t| && 0 <= j < |t| && t[i].parentId == Some(t[j].id) ==> j < i
  }

  /** Every stored parent link names an existing reply (the foreign key). */
  predicate LinksResolve(t: seq<Reply>)
  {
    forall i :: 0 <= i < |t| && t[i].parentId.Some? ==> ReplyIndex(t, t[i].parentId.value).Some?
  }

  /** The replies of `discussion` under `parent` among the rows from `from`
      on, oldest first. */
  function Children(t: seq<Reply>, discussion: Id, parent: Option<Id>, from: nat): seq<Reply>
    requires from <= |t|
    decreases |t| - from
  {
    if from == |t| then []
    else if IsChildOf(t[from], discussion, parent) then [t[from]] + Children(t, discussion, parent, from + 1)
    else Children(t, discussion, parent, from + 1)
  }

  /** `getNestedReplies(parent)`: the children of `parent`, oldest first,
      each with its like flag and its own subtree. A child is looked for
      only after its parent's row, which finds every child when
      `ParentsEarlier` holds. */
  function Forest(t: seq<Reply>, likes: seq<ReplyLike>, user: Id, discussion: Id, parent: Option<Id>, from: nat): (r: seq<ReplyNode>)
    requires from <= |t|
    ensures |r| <= |t| - from
    ensures forall i :: 0 <= i < |r| ==> IsChildOf(r[i].reply, discussion, parent) && r[i].reply in t[from..]
    decreases |t| - from, 1
  {
    if from == |t| then []
    else if IsChildOf(t[from], discussion, parent) then
      [Node(t, likes, user, discussion, from)] + Forest(t, likes, user, discussion, parent, from + 1)
    else Forest(t, likes, user, discussion, parent, from + 1)
  }

  /** One reply with its like flag and the subtree of the replies under it,
      each a reply of the same discussion whose parent is this one. */
  function Node(t: seq<Reply>, likes: seq<ReplyLike>, user: Id, discussion: Id, k: nat): (r: ReplyNode)
    requires k < |t|
    ensures r.reply == t[k]
    ensures forall i :: 0 <= i < |r.replies| ==> IsChildOf(r.replies[i].reply, discussion, Some(t[k].id))
    decreases |t| - k, 0
  {
    ReplyNode(t[k], Liked(likes, user, t[k].id), Forest(t, likes, user, discussion, Some(t[k].id), k + 1))
  }

  function ReplyOf(n: ReplyNode): Reply { n.reply }

  function RepliesOf(ns: seq<ReplyNode>): (r: seq<Reply>)
    ensures |r| == |ns| && forall i :: 0 <= i < |ns| ==> r[i] == ns[i].reply
  {
    if ns == [] then [] else [ns[0].reply] + RepliesOf(ns[1..])
  }

  /** Every node of a forest carries the like flag of its own reply. */
  predicate FlagsCorrect(ns: seq<ReplyNode>, likes: seq<ReplyLike>, user: Id)
    decreases ns
  {
    forall i :: 0 <= i < |ns| ==>
      ns[i].userHasLiked == Liked(likes, user, ns[i].reply.id) && FlagsCorrect(ns[i].replies, likes, user)
  }

  /** `getDiscussionReplies`: 404 unless the caller may see the discussion;
      otherwise the forest of its top-level replies. */
  function GetDiscussionReplies(discussions: seq<Discussion>, projects: seq<Project>, members: seq<Membership>,
                                t: seq<Reply>, likes: seq<ReplyLike>, caller: Id, discussion: Id): (r: Result<seq<ReplyNode>>)
    ensures !CanSeeDiscussion(discussions, projects, members, caller, discussion) <==> r == Err(404, "Discussion not found or access denied")
    ensures r.Ok? ==> RepliesOf(r.value) == Children(t, discussion, None, 0)
    ensures r.Ok? ==> FlagsCorrect(r.value, likes, caller)
  {
    if !CanSeeDiscussion(discussions, projects, members, caller, discussion) then Err(404, "Discussion not found or access denied")
    else
      ForestRoots(t, likes, caller, discussion, None, 0);
      ForestFlags(t, likes, caller, discussion, None, 0);
      Ok(Forest(t, likes, caller, discussion, None, 0))
  }

  /** The top level of a forest holds exactly the children, in row order. */
  lemma {:induction false} ForestRoots(t: seq<Reply>, likes: seq<ReplyLike>, user: Id, discussion: Id, parent: Option<Id>, from: nat)
    requires from <= |t|
    ensures RepliesOf(Forest(t, likes, user, discussion, parent, from)) == Children(t, discussion, parent, from)
    decreases |t| - from
  {
    if from < |t| {
      ForestRoots(t, likes, user, discussion, parent, from + 1);
      if IsChildOf(t[from], discussion, parent) {
        var rest := Forest(t, likes, user, discussion, parent, from + 1);
        assert ([Node(t, likes, user, discussion, from)] + rest)[1..] == rest;
      }
    }
  }

  /** Each node's `replies` are exactly the children of its reply, oldest
      first, whenever parents precede their children. */
  lemma NodeChildren(t: seq<Reply>, likes: seq<ReplyLike>, user: Id, discussion: Id, k: nat)
    requires k < |t| && ParentsEarlier(t)
    ensures RepliesOf(Node(t, likes, user, discussion, k).replies) == Children(t, discussion, Some(t[k].id), 0)
  {
    ForestRoots(t, likes, user, discussion, Some(t[k].id), k + 1);
    NoChildBefore(t, discussion, k, 0);
  }

  /** Under `ParentsEarlier` no child of row `k` sits at or before `k`. */
  lemma {:induction false} NoChildBefore(t: seq<Reply>, discussion: Id, k: nat, from: nat)
    requires k < |t| && from <= k + 1 && ParentsEarlier(t)
    ensures Children(t, discussion, Some(t[k].id), from) == Children(t, discussion, Some(t[k].id), k + 1)
    decreases k + 1 - from
  {
    if from <= k {
      assert t[from].parentId != Some(t[k].id);
      NoChildBefore(t, discussion, k, from + 1);
    }
  }

  /** `userHasLiked` is true exactly on the replies the caller liked. */
  lemma {:induction false} ForestFlags(t: seq<Reply>, likes: seq<ReplyLike>, user: Id, discussion: Id, parent: Option<Id>, from: nat)
    requires from <= |t|
    ensures FlagsCorrect(Forest(t, likes, user, discussion, parent, from), likes, user)
    decreases |t| - from, 1
  {
    if from < |t| {
      ForestFlags(t, likes, user, discussion, parent, from + 1);
      if IsChildOf(t[from], discussion, parent) {
        NodeFlags(t, likes, user, discussion, from);
        var rest := Forest(t, likes, user, discussion, parent, from + 1);
        var all := [Node(t, likes, user, discussion, from)] + rest;
        forall i | 0 <= i < |all|
          ensures all[i].userHasLiked == Liked(likes, user, all[i].reply.id) && FlagsCorrect(all[i].replies, likes, user)
        {
          if i > 0 {
            assert all[i] == rest[i - 1];
          }
        }
      }
    }
  }

  lemma {:induction false} NodeFlags(t: seq<Reply>, likes: seq<ReplyLike>, user: Id, discussion: Id, k: nat)
    requires k < |t|
    ensures FlagsCorrect(Node(t, likes, user, discussion, k).replies, likes, user)
    ensures Node(t, likes, user, discussion, k).userHasLiked == Liked(likes, user, t[k].id)
    decreases |t| - k, 0
  {
    ForestFlags(t, likes, user, discussion, Some(t[k].id), k + 1);
  }

  // ------------------------------------------------------------ handlers

  /** `createReply`: 404 unless the caller may see the discussion. The
      sanitised parent id must name an existing reply (the foreign key,
      500 otherwise). */
  method CreateReply(st: Store, caller: Id, discussion: Id, id: Id, content: string, parentId: Option<string>)
    returns (r: Result<Reply>)
    modifies st`replies
    ensures !CanSeeDiscussion(st.discussions, st.projects, st.members, caller, discussion) ==>
      r == Err(404, "Discussion not found or access denied") && st.replies == old(st.replies)
    ensures (CanSeeDiscussion(st.discussions, st.projects, st.members, caller, discussion)
      && StoredParent(parentId).Some? && ReplyIndex(old(st.replies), StoredParent(parentId).value).None?) ==>
        r.Err? && r.status == 500 && st.replies == old(st.replies)
    ensures (CanSeeDiscussion(st.discussions, st.projects, st.members, caller, discussion)
      && (StoredParent(parentId).None? || ReplyIndex(old(st.replies), StoredParent(parentId).value).Some?)) ==>
        r == Ok(Reply(id, discussion, caller, content, StoredParent(parentId)))
        && st.replies == old(st.replies) + [Reply(id, discussion, caller, content, StoredParent(parentId))]
    ensures ParentsEarlier(old(st.replies)) && LinksResolve(old(st.replies)) && ReplyIndex(old(st.replies), id).None? ==>
      ParentsEarlier(st.replies) && LinksResolve(st.replies)
  {
    if !CanSeeDiscussion(st.discussions, st.projects, st.members, caller, discussion) {
      return Err(404, "Discussion not found or access denied");
    }
    var parent := StoredParent(parentId);
    if parent.Some? && ReplyIndex(st.replies, parent.value).None? {
      return Err(500, "Foreign key constraint violated: parent_id");
    }
    var reply := Reply(id, discussion, caller, content, parent);
    if ParentsEarlier(st.replies) && LinksResolve(st.replies) && ReplyIndex(st.replies, id).None? {
      AppendKeepsLinks(st.replies, reply);
    }
    st.replies := st.replies + [reply];
    r := Ok(reply);
  }

  /** Appending a reply with a fresh key under an existing parent keeps
      parents before children and every link resolvable. */
  lemma AppendKeepsLinks(t: seq<Reply>, r: Reply)
    requires ParentsEarlier(t) && LinksResolve(t) && ReplyIndex(t, r.id).None?
    requires r.parentId.None? || ReplyIndex(t, r.parentId.value).Some?
    ensures ParentsEarlier(t + [r]) && LinksResolve(t + [r])
  {
    var u := t + [r];
    forall i | 0 <= i < |u| && u[i].parentId.Some?
      ensures ReplyIndex(u, u[i].parentId.value).Some?
    {
      var k := ReplyIndex(t, u[i].parentId.value).value;
      assert u[k] == t[k];
    }
    assert forall i :: 0 <= i < |t| ==> t[i].parentId != Some(r.id);
    assert r.parentId != Some(r.id);
    forall i, j | 0 <= i < |u| && 0 <= j < |u| && u[i].parentId == Some(u[j].id)
      ensures j < i
    {
      assert u[j].id == (if j < |t| then t[j].id else r.id);
    }
  }

  /** `updateReply`: only the author (404 otherwise). */
  method UpdateReply(st: Store, caller: Id, id: Id, content: string) returns (r: Result<Reply>)
    modifies st`replies
    ensures var k := ReplyIndex(old(st.replies), id);
      k.None? || old(st.replies)[k.value].authorId != caller ==>
        r == Err(404, "Reply not found or access denied") && st.replies == old(st.replies)
    ensures var k := ReplyIndex(old(st.replies), id);
      k.Some? && old(st.replies)[k.value].authorId == caller ==>
        && st.replies == old(st.replies)[k.value := old(st.replies)[k.value].(content := content)]
        && r == Ok(old(st.replies)[k.value].(content := content))
  {
    var k := ReplyIndex(st.replies, id);
    if k.None? || st.replies[k.value].authorId != caller {
      return Err(404, "Reply not found or access denied");
    }
    var updated := st.replies[k.value].(content := content);
    st.replies := st.replies[k.value := updated];
    r := Ok(updated);
  }

  /** `deleteReply`: the author, the owner of the discussion's project, or an
      owner/admin member of it (404 otherwise). */
  method DeleteReply(st: Store, caller: Id, id: Id) returns (r: Result<()>)
    modifies st`replies
    ensures var k := ReplyIndex(old(st.replies), id);
      k.None? || !CanDeleteReply(old(st.replies)[k.value].authorId,
                                 ProjectOfDiscussion(st.discussions, st.projects, old(st.replies)[k.value].discussionId), st.members, caller) ==>
        r == Err(404, "Reply not found or access denied") && st.replies == old(st.replies)
    ensures var k := ReplyIndex(old(st.replies), id);
      k.Some? && CanDeleteReply(old(st.replies)[k.value].authorId,
                                ProjectOfDiscussion(st.discussions, st.projects, old(st.replies)[k.value].discussionId), st.members, caller) ==>
        r == Ok(()) && st.replies == old(st.replies)[..k.value] + old(st.replies)[k.value + 1..]
    ensures ParentsEarlier(old(st.replies)) ==> ParentsEarlier(st.replies)
  {
    var k := ReplyIndex(st.replies, id);
    if k.None? {
      return Err(404, "Reply not found or access denied");
    }
    var reply := st.replies[k.value];
    if !CanDeleteReply(reply.authorId, ProjectOfDiscussion(st.discussions, st.projects, reply.discussionId), st.members, caller) {
      return Err(404, "Reply not found or access denied");
    }
    if ParentsEarlier(st.replies) {
      DeleteKeepsParentsEarlier(st.replies, k.value);
    }
    st.replies := st.replies[..k.value] + st.replies[k.value + 1..];
    r := Ok(());
  }

  lemma DeleteKeepsParentsEarlier(t: seq<Reply>, k: nat)
    requires k < |t| && ParentsEarlier(t)
    ensures ParentsEarlier(t[..k] + t[k + 1..])
  {
    var u := t[..k] + t[k + 1..];
    forall i, j | 0 <= i < |u| && 0 <= j < |u| && u[i].parentId == Some(u[j].id)
      ensures j < i
    {
      var i' := if i < k then i else i + 1;
      var j' := if j < k then j else j + 1;
      assert u[i] == t[i'] && u[j] == t[j'];
    }
  }

  /** The reply exists and the caller may see its discussion. */
  predicate ReplyVisible(st_replies: seq<Reply>, discussions: seq<Discussion>, projects: seq<Project>, members: seq<Membership>, user: Id, id: Id)
  {
    var k := ReplyIndex(st_replies, id);
    k.Some? && CanSeeDiscussion(discussions, projects, members, user, st_replies[k.value].discussionId)
  }

  function LikeIndex(likes: seq<ReplyLike>, user: Id, reply: Id): (r: Option<nat>)
    ensures r.Some? ==> r.value < |likes| && likes[r.value] == ReplyLike(user, reply)
    ensures r.None? <==> !Liked(likes, user, reply)
  {
    if likes == [] then None
    else if likes[0] == ReplyLike(user, reply) then Some(0)
    else match LikeIndex(likes[1..], user, reply)
         case None => None
         case Some(k) => Some(k + 1)
  }

  /** `likeReply`: 404 unless the reply is visible to the caller; 400 when
      the caller already likes it; otherwise exactly one like is added. */
  method LikeReply(st: Store, caller: Id, id: Id) returns (r: Result<ReplyLike>)
    modifies st`replyLikes
    ensures !ReplyVisible(st.replies, st.discussions, st.projects, st.members, caller, id) ==>
      r == Err(404, "Reply not found or access denied") && st.replyLikes == old(st.replyLikes)
    ensures ReplyVisible(st.replies, st.discussions, st.projects, st.members, caller, id) && Liked(old(st.replyLikes), caller, id) ==>
      r == Err(400, "Reply already liked") && st.replyLikes == old(st.replyLikes)
    ensures ReplyVisible(st.replies, st.discussions, st.projects, st.members, caller, id) && !Liked(old(st.replyLikes), caller, id) ==>
      r == Ok(ReplyLike(caller, id)) && st.replyLikes == old(st.replyLikes) + [ReplyLike(caller, id)]
  {
    if !ReplyVisible(st.replies, st.discussions, st.projects, st.members, caller, id) {
      return Err(404, "Reply not found or access denied");
    }
    if Liked(st.replyLikes, caller, id) {
      return Err(400, "Reply already liked");
    }
    st.replyLikes := st.replyLikes + [ReplyLike(caller, id)];
    r := Ok(ReplyLike(caller, id));
  }

  /** `unlikeReply`: 404 unless the reply is visible; deleting a like that
      does not exist fails in the ORM (500); otherwise exactly that like goes. */
  method UnlikeReply(st: Store, caller: Id, id: Id) returns (r: Result<()>)
    modifies st`replyLikes
    ensures !ReplyVisible(st.replies, st.discussions, st.projects, st.members, caller, id) ==>
      r == Err(404, "Reply not found or access denied") && st.replyLikes == old(st.replyLikes)
    ensures ReplyVisible(st.replies, st.discussions, st.projects, st.members, caller, id) && !Liked(old(st.replyLikes), caller, id) ==>
      r.Err? && r.status == 500 && st.replyLikes == old(st.replyLikes)
    ensures ReplyVisible(st.replies, st.discussions, st.projects, st.members, caller, id) && Liked(old(st.replyLikes), caller, id) ==>
      var k := LikeIndex(old(st.replyLikes), caller, id).value;
      r == Ok(()) && st.replyLikes == old(st.replyLikes)[..k] + old(st.replyLikes)[k + 1..]
  {
    if !ReplyVisible(st.replies, st.discussions, st.projects, st.members, caller, id) {
      return Err(404, "Reply not found or access denied");
    }
    var k := LikeIndex(st.replyLikes, caller, id);
    if k.None? {
      return Err(500, "Record to delete does not exist.");
    }
    st.replyLikes := st.replyLikes[..k.value] + st.replyLikes[k.value + 1..];
    r := Ok(());
  }

  /** Liking and then unliking a reply leaves the likes as they were. */
  lemma LikeThenUnlikeRestores(likes: seq<ReplyLike>, user: Id, reply: Id)
    requires !Liked(likes, user, reply)
    ensures var after := likes + [ReplyLike(user, reply)];
      LikeIndex(after, user, reply) == Some(|likes|)
      && after[..|likes|] + after[|likes| + 1..] == likes
  {
    var after := likes + [ReplyLike(user, reply)];
    forall j | 0 <= j < |likes| ensures after[j] != ReplyLike(user, reply) {
      assert after[j] == likes[j];
    }
    assert after[|likes|] == ReplyLike(user, reply);
    assert after[..|likes|] == likes;
  }
}

=== FILE: search.dfy ===
/** Search (searchController.js): the query filters the four handlers
    build, the pagination arithmetic, and the statistics and in-place sort
    of the public project search.

    A filter is modelled the way the handlers write it: an `OR` list of
    clauses and the exact-match fields assigned to the filter object
    afterwards. Two of the handlers build a filter that does not say what
    they evidently mean; each is given as written, with a lemma showing the
    difference, and corrected, with the intended meaning proved, and the
    handler uses the corrected filter. */
module Search {
  import opened Common
  import opened Model
  import opened Access
  import opened Lists
  import Followers

  /** A query parameter takes effect only when it is a non-empty string. */
  predicate Given(o: Option<string>) { o.Some? && o.value != "" }

  // ---------------------------------------------------------------- project filters

  datatype ProjectClause =
    | IsPublic
    | OwnedBy(user: Id)
    | HasMember(user: Id)
    | TitleHas(text: string)
    | DescriptionHas(text: string)
    | CategoryHas(text: string)

  /** A project filter: `anyOf` is its `OR` list, `alsoAnyOf` a second `OR`
      list joined to the first by `AND` (`None`: no such list), and the
      exact-match fields. */
  datatype ProjectWhere = ProjectWhere(
    anyOf: Option<seq<ProjectClause>>, alsoAnyOf: Option<seq<ProjectClause>>,
    category: Option<string>, visibility: Option<Visibility>)

  /** The case-insensitive `contains` on a nullable column; null never matches. */
  predicate TextHas(field: Option<string>, text: string)
  {
    field.Some? && ContainsInsensitive(field.value, text)
  }

  predicate ClauseHolds(p: Project, members: seq<Membership>, c: ProjectClause)
  {
    match c
    case IsPublic => p.visibility == Public
    case OwnedBy(u) => p.ownerId == u
    case HasMember(u) => IsMember(members, u, p.id)
    case TitleHas(t) => ContainsInsensitive(p.title, t)
    case DescriptionHas(t) => TextHas(p.description, t)
    case CategoryHas(t) => TextHas(p.category, t)
  }

  /** An absent `OR` list admits every row; a present one needs one clause to hold. */
  predicate AnyHolds(p: Project, members: seq<Membership>, clauses: Option<seq<ProjectClause>>)
  {
    clauses.None? || exists i :: 0 <= i < |clauses.value| && ClauseHolds(p, members, clauses.value[i])
  }

  predicate ProjectMatches(p: Project, members: seq<Membership>, w: ProjectWhere)
  {
    && AnyHolds(p, members, w.anyOf)
    && AnyHolds(p, members, w.alsoAnyOf)
    && (w.category.Some? ==> p.category == w.category)
    && (w.visibility.Some? ==> p.visibility == w.visibility.value)
  }

  /** The visibility `OR` every authenticated search repeats. */
  function VisibleClauses(user: Id): seq<ProjectClause>
  {
    [IsPublic, OwnedBy(user), HasMember(user)]
  }

  /** The visibility clauses admit exactly the projects the caller may view. */
  lemma VisibleClausesMeanCanView(p: Project, members: seq<Membership>, user: Id)
    ensures AnyHolds(p, members, Some(VisibleClauses(user))) <==> CanView(p, members, user)
  {
    var cs := VisibleClauses(user);
    if CanView(p, members, user) {
      if p.visibility == Public {
        assert ClauseHolds(p, members, cs[0]);
      } else if p.ownerId == user {
        assert ClauseHolds(p, members, cs[1]);
      } else {
        assert ClauseHolds(p, members, cs[2]);
      }
    }
  }

  /** The title, description or category contains the text, ignoring case. */
  predicate TextMatches(p: Project, text: string)
  {
    ContainsInsensitive(p.title, text) || TextHas(p.description, text) || TextHas(p.category, text)
  }

  function TextClauses(text: string): seq<ProjectClause>
  {
    [TitleHas(text), DescriptionHas(text), CategoryHas(text)]
  }

  lemma TextClausesMeanTextMatches(p: Project, members: seq<Membership>, text: string)
    ensures AnyHolds(p, members, Some(TextClauses(text))) <==> TextMatches(p, text)
  {
    var cs := TextClauses(text);
    if TextMatches(p, text) {
      if ContainsInsensitive(p.title, text) {
        assert ClauseHolds(p, members, cs[0]);
      } else if TextHas(p.description, text) {
        assert ClauseHolds(p, members, cs[1]);
      } else {
        assert ClauseHolds(p, members, cs[2]);
      }
    }
  }

  /** The projects a filter admits, in table order. */
  function MatchingProjects(projects: seq<Project>, members: seq<Membership>, w: ProjectWhere): (r: seq<Project>)
    ensures |r| <= |projects|
  {
    if projects == [] then []
    else
      var last := projects[|projects| - 1];
      MatchingProjects(projects[..|projects| - 1], members, w) + (if ProjectMatches(last, members, w) then [last] else [])
  }

  lemma {:induction false} MatchingProjectsExactly(projects: seq<Project>, members: seq<Membership>, w: ProjectWhere)
    ensures forall p :: p in MatchingProjects(projects, members, w) <==> p in projects && ProjectMatches(p, members, w)
  {
    if projects != [] {
      MatchingProjectsExactly(projects[..|projects| - 1], members, w);
      assert projects == projects[..|projects| - 1] + [projects[|projects| - 1]];
    }
  }

  // ---------------------------------------------------------------- globalSearch's project filter

  /** The project filter of `globalSearch` as written: its object literal
      names `OR` twice, and the second (visibility) list replaces the first
      (text) list. */
  function GlobalProjectWhereAsWritten(term: string, user: Id, category: Option<string>): (w: ProjectWhere)
    ensures w.anyOf == Some(VisibleClauses(user)) && w.alsoAnyOf.None?
  {
    var w := ProjectWhere(Some(TextClauses(term)), None, None, None);
    var w := w.(anyOf := Some(VisibleClauses(user)));
    if Given(category) then w.(category := category) else w
  }

  /** As written, the search term has no effect on the projects found: a
      public project matches whatever the term. */
  lemma GlobalAsWrittenIgnoresTerm(p: Project, members: seq<Membership>, t1: string, t2: string,
                                   user: Id, category: Option<string>)
    ensures ProjectMatches(p, members, GlobalProjectWhereAsWritten(t1, user, category))
        <==> ProjectMatches(p, members, GlobalProjectWhereAsWritten(t2, user, category))
    ensures p.visibility == Public && !Given(category) ==>
      ProjectMatches(p, members, GlobalProjectWhereAsWritten(t1, user, category))
  {
    assert ClauseHolds(p, members, VisibleClauses(user)[0]) <==> p.visibility == Public;
  }

  /** A concrete witness: the public project titled "ab" is found by the term "zz". */
  lemma GlobalAsWrittenFindsUnrelated()
    ensures var p := Project("p1", "ab", "ab", None, None, "", Public, 0, "u2");
      && ProjectMatches(p, [], GlobalProjectWhereAsWritten("zz", "u1", None))
      && !TextMatches(p, "zz")
  {
    var p := Project("p1", "ab", "ab", None, None, "", Public, 0, "u2");
    GlobalAsWrittenIgnoresTerm(p, [], "zz", "zz", "u1", None);
    assert ToLower("ab") == "ab" && ToLower("zz") == "zz";
    assert !OccursAt("ab", "zz", 0);
  }

  /** The filter `globalSearch` evidently means: the text `OR` and the
      visibility `OR` both hold. */
  function GlobalProjectWhere(term: string, user: Id, category: Option<string>): (w: ProjectWhere)
    ensures w.visibility.None?
  {
    ProjectWhere(Some(TextClauses(term)), Some(VisibleClauses(user)), if Given(category) then category else None, None)
  }

  lemma GlobalProjectMatchesIff(p: Project, members: seq<Membership>, term: string, user: Id, category: Option<string>)
    ensures ProjectMatches(p, members, GlobalProjectWhere(term, user, category))
        <==> TextMatches(p, term) && CanView(p, members, user) && (Given(category) ==> p.category == category)
  {
    TextClausesMeanTextMatches(p, members, term);
    VisibleClausesMeanCanView(p, members, user);
  }

  // ---------------------------------------------------------------- searchProjects' filter

  /** The filter of `searchProjects` as written: a given `q` adds its two
      text clauses to the visibility `OR` list. */
  function SearchProjectsWhereAsWritten(q: Option<string>, user: Id, category: Option<string>,
                                        visibility: Option<Visibility>): (w: ProjectWhere)
    ensures w.alsoAnyOf.None?
  {
    var w := ProjectWhere(Some(VisibleClauses(user)), None, None, None);
    var w := if Given(q) then w.(anyOf := Some(VisibleClauses(user) + [TitleHas(q.value), DescriptionHas(q.value)])) else w;
    var w := if Given(category) then w.(category := category) else w;
    if visibility.Some? then w.(visibility := visibility) else w
  }

  /** As written, a project whose title contains `q` is found by anyone,
      private or not, member or not. */
  lemma SearchProjectsAsWrittenLeaks(p: Project, members: seq<Membership>, q: string, user: Id)
    requires q != "" && ContainsInsensitive(p.title, q)
    ensures ProjectMatches(p, members, SearchProjectsWhereAsWritten(Some(q), user, None, None))
  {
    var w := SearchProjectsWhereAsWritten(Some(q), user, None, None);
    assert ClauseHolds(p, members, w.anyOf.value[3]);
  }

  /** The filter `searchProjects` evidently means: visible, and when `q` is
      given, matching it. */
  function SearchProjectsWhere(q: Option<string>, user: Id, category: Option<string>,
                               visibility: Option<Visibility>): (w: ProjectWhere)
    ensures w.anyOf == Some(VisibleClauses(user))
  {
    ProjectWhere(Some(VisibleClauses(user)),
                 if Given(q) then Some([TitleHas(q.value), DescriptionHas(q.value)]) else None,
                 if Given(category) then category else None,
                 visibility)
  }

  lemma SearchProjectsMatchesIff(p: Project, members: seq<Membership>, q: Option<string>, user: Id,
                                 category: Option<string>, visibility: Option<Visibility>)
    ensures ProjectMatches(p, members, SearchProjectsWhere(q, user, category, visibility))
        <==> && CanView(p, members, user)
             && (Given(q) ==> ContainsInsensitive(p.title, q.value) || TextHas(p.description, q.value))
             && (Given(category) ==> p.category == category)
             && (visibility.Some? ==> p.visibility == visibility.value)
  {
    VisibleClausesMeanCanView(p, members, user);
    if Given(q) {
      var cs := [TitleHas(q.value), DescriptionHas(q.value)];
      if ContainsInsensitive(p.title, q.value) {
        assert ClauseHolds(p, members, cs[0]);
      } else if TextHas(p.description, q.value) {
        assert ClauseHolds(p, members, cs[1]);
      }
    }
  }

  // ---------------------------------------------------------------- feature filters

  datatype FeatureClause = FeatureTitleHas(text: string) | FeatureDescriptionHas(text: string) | TagIs(tag: string)

  /** A feature filter: its `OR` list, the visibility filter on its project
      (for the caller `visibleTo`) and the exact-match fields. */
  datatype FeatureWhere = FeatureWhere(
    anyOf: Option<seq<FeatureClause>>, visibleTo: Id, status: Option<Status>,
    priority: Option<Priority>, tagsAny: Option<seq<string>>, project: Option<Id>)

  predicate FeatureClauseHolds(f: Feature, c: FeatureClause)
  {
    match c
    case FeatureTitleHas(t) => ContainsInsensitive(f.title, t)
    case FeatureDescriptionHas(t) => TextHas(f.description, t)
    case TagIs(t) => t in f.tags
  }

  predicate FeatureMatches(f: Feature, projects: seq<Project>, members: seq<Membership>, w: FeatureWhere)
  {
    && (w.anyOf.None? || exists i :: 0 <= i < |w.anyOf.value| && FeatureClauseHolds(f, w.anyOf.value[i]))
    && (var p := FindProject(projects, f.projectId); p.Some? && CanView(p.value, members, w.visibleTo))
    && (w.status.Some? ==> f.status == w.status.value)
    && (w.priority.Some? ==> f.priority == w.priority.value)
    && (w.tagsAny.Some? ==> exists t :: t in w.tagsAny.value && t in f.tags)
    && (w.project.Some? ==> f.projectId == w.project.value)
  }

  /** The feature filter of `globalSearch`: the lowercased term in the
      title or description, or equal to a tag. */
  function GlobalFeatureWhere(term: string, user: Id, status: Option<Status>, priority: Option<Priority>): FeatureWhere
  {
    FeatureWhere(Some([FeatureTitleHas(term), FeatureDescriptionHas(term), TagIs(term)]), user, status, priority, None, None)
  }

  lemma GlobalFeatureMatchesIff(f: Feature, projects: seq<Project>, members: seq<Membership>, term: string,
                                user: Id, status: Option<Status>, priority: Option<Priority>)
    ensures FeatureMatches(f, projects, members, GlobalFeatureWhere(term, user, status, priority))
        <==> && (ContainsInsensitive(f.title, term) || TextHas(f.description, term) || term in f.tags)
             && (var p := FindProject(projects, f.projectId); p.Some? && CanView(p.value, members, user))
             && (status.Some? ==> f.status == status.value)
             && (priority.Some? ==> f.priority == priority.value)
  {
    var cs := GlobalFeatureWhere(term, user, status, priority).anyOf.value;
    if ContainsInsensitive(f.title, term) {
      assert FeatureClauseHolds(f, cs[0]);
    } else if TextHas(f.description, term) {
      assert FeatureClauseHolds(f, cs[1]);
    } else if term in f.tags {
      assert FeatureClauseHolds(f, cs[2]);
    }
  }

  /** The filter of `searchFeatures`. */
  function SearchFeaturesWhere(q: Option<string>, user: Id, status: Option<Status>, priority: Option<Priority>,
                               tags: Option<seq<string>>, project: Option<Id>): FeatureWhere
  {
    FeatureWhere(if Given(q) then Some([FeatureTitleHas(q.value), FeatureDescriptionHas(q.value)]) else None,
                 user, status, priority, tags, if Given(project) then project else None)
  }

  function MatchingFeatures(features: seq<Feature>, projects: seq<Project>, members: seq<Membership>,
                            w: FeatureWhere): (r: seq<Feature>)
    ensures |r| <= |features|
  {
    if features == [] then []
    else
      var last := features[|features| - 1];
      MatchingFeatures(features[..|features| - 1], projects, members, w)
        + (if FeatureMatches(last, projects, members, w) then [last] else [])
  }

  lemma {:induction false} MatchingFeaturesExactly(features: seq<Feature>, projects: seq<Project>,
                                                   members: seq<Membership>, w: FeatureWhere)
    ensures forall f :: f in MatchingFeatures(features, projects, members, w)
                    <==> f in features && FeatureMatches(f, projects, members, w)
  {
    if features != [] {
      MatchingFeaturesExactly(features[..|features| - 1], projects, members, w);
      assert features == features[..|features| - 1] + [features[|features| - 1]];
    }
  }

  function VoteKey(f: Feature): int { f.voteCount }

  /** Sorting keeps the same rows. */
  lemma SortedSame<T>(s: seq<T>, key: T -> int)
    ensures forall x :: x in SortedDescending(s, key) <==> x in s
  {
    var r := SortedDescending(s, key);
    forall x ensures x in r <==> x in s {
      assert x in r <==> multiset(r)[x] > 0;
      assert x in s <==> multiset(s)[x] > 0;
    }
  }

  // ---------------------------------------------------------------- globalSearch

  /** How many rows each list takes: the page size when a type is named,
      half of it (rounded down) when both lists are searched. */
  function TakeFor(kind: Option<string>, limit: int): (r: int)
    ensures Magnitude(r) <= Magnitude(limit)
    ensures Given(kind) ==> r == limit
    ensures !Given(kind) ==> 2 * r <= limit < 2 * r + 2
  {
    if Given(kind) then limit else limit / 2
  }

  predicate SearchesProjects(kind: Option<string>) { !Given(kind) || kind.value == "projects" }
  predicate SearchesFeatures(kind: Option<string>) { !Given(kind) || kind.value == "features" }

  datatype SearchPage = SearchPage(projects: seq<Project>, features: seq<Feature>, total: nat, hasMore: bool)

  /** `globalSearch`: 400 for a query shorter than two characters; otherwise
      one page of projects (newest first) and of features (most voted
      first) matching the lowercased term and visible to the caller, with
      the total of both counts. */
  method GlobalSearch(projects: seq<Project>, members: seq<Membership>, features: seq<Feature>, caller: Id,
                      q: Option<string>, kind: Option<string>, category: Option<string>,
                      status: Option<Status>, priority: Option<Priority>, page: int, limit: int)
    returns (r: Result<SearchPage>)
    ensures q.None? || |q.value| < 2 <==> r == Err(400, "Search query must be at least 2 characters")
    ensures q.Some? && |q.value| >= 2 && Skip(page, limit) < 0 ==> r.Err? && r.status == 500
    ensures r.Ok? ==> q.Some? && Skip(page, limit) >= 0
    ensures r.Ok? ==>
      var term := ToLower(q.value);
      var pw, fw := GlobalProjectWhere(term, caller, category), GlobalFeatureWhere(term, caller, status, priority);
      && r.value.projects == (if SearchesProjects(kind)
                              then Window(Reverse(MatchingProjects(projects, members, pw)), Skip(page, limit), TakeFor(kind, limit))
                              else [])
      && r.value.features == (if SearchesFeatures(kind)
                              then Window(SortedDescending(MatchingFeatures(features, projects, members, fw), VoteKey),
                                          Skip(page, limit), TakeFor(kind, limit))
                              else [])
      && |r.value.projects| <= Magnitude(TakeFor(kind, limit)) && |r.value.features| <= Magnitude(TakeFor(kind, limit))
      && (forall p :: p in r.value.projects ==> p in projects && ProjectMatches(p, members, pw))
      && (forall f :: f in r.value.features ==> f in features && FeatureMatches(f, projects, members, fw))
      && Descending(r.value.features, VoteKey)
      && (!SearchesProjects(kind) ==> r.value.projects == [])
      && (!SearchesFeatures(kind) ==> r.value.features == [])
      && r.value.total == (if SearchesProjects(kind) then |MatchingProjects(projects, members, pw)| else 0)
                          + (if SearchesFeatures(kind) then |MatchingFeatures(features, projects, members, fw)| else 0)
      && r.value.hasMore == (r.value.total > Skip(page, limit) + limit)
  {
    if q.None? || |q.value| < 2 {
      return Err(400, "Search query must be at least 2 characters");
    }
    if Skip(page, limit) < 0 {
      return Err(500, "Invalid pagination");
    }
    var term := ToLower(q.value);
    var skip: nat := Skip(page, limit);
    var take := TakeFor(kind, limit);
    var pw := GlobalProjectWhere(term, caller, category);
    var fw := GlobalFeatureWhere(term, caller, status, priority);
    var found: seq<Project> := [];
    var hits: seq<Feature> := [];
    var total: nat := 0;
    if SearchesProjects(kind) {
      var matching := MatchingProjects(projects, members, pw);
      found := Window(Reverse(matching), skip, take);
      WindowWithin(Reverse(matching), skip, take);
      ReverseSame(matching);
      MatchingProjectsExactly(projects, members, pw);
      total := total + |matching|;
    }
    if SearchesFeatures(kind) {
      var matching := MatchingFeatures(features, projects, members, fw);
      var sorted := SortedDescending(matching, VoteKey);
      hits := Window(sorted, skip, take);
      WindowWithin(sorted, skip, take);
      WindowDescending(sorted, skip, take, VoteKey);
      SortedSame(matching, VoteKey);
      MatchingFeaturesExactly(features, projects, members, fw);
      total := total + |matching|;
    }
    r := Ok(SearchPage(found, hits, total, total > skip + limit));
  }

  /** A window of a sorted list is sorted. */
  lemma WindowDescending<T>(rows: seq<T>, skip: nat, take: int, key: T -> int)
    requires Descending(rows, key)
    ensures Descending(Window(rows, skip, take), key)
  {
    RunDescending(rows, Window(rows, skip, take), WindowStart(|rows|, skip, take), key);
  }

  /** A run of consecutive rows of a sorted list is sorted. */
  lemma RunDescending<T>(rows: seq<T>, r: seq<T>, start: nat, key: T -> int)
    requires Descending(rows, key)
    requires forall i :: 0 <= i < |r| ==> start + i < |rows| && r[i] == rows[start + i]
    ensures Descending(r, key)
  {
    forall i, j | 0 <= i < j < |r| ensures key(r[i]) >= key(r[j]) {
      var a := r[i];
      var b := r[j];
      assert a == rows[start + i];
      assert b == rows[start + j];
    }
  }

  // ---------------------------------------------------------------- searchProjects and searchFeatures

  datatype ResultPage<T> = ResultPage(rows: seq<T>, total: nat, hasMore: bool)

  /** `searchProjects` in its default order (newest first): one page of the
      projects the caller may view that match the filters, and the count. */
  function SearchProjects(projects: seq<Project>, members: seq<Membership>, caller: Id, q: Option<string>,
                          category: Option<string>, visibility: Option<Visibility>, page: int, limit: int)
    : (r: Result<ResultPage<Project>>)
    ensures Skip(page, limit) < 0 <==> r.Err?
    ensures r.Ok? ==>
      var matching := MatchingProjects(projects, members, SearchProjectsWhere(q, caller, category, visibility));
      && r.value.rows == Window(Reverse(matching), Skip(page, limit), limit)
      && |r.value.rows| <= Magnitude(limit)
      && r.value.total == |matching|
      && r.value.hasMore == (r.value.total > Skip(page, limit) + limit)
    ensures r.Ok? ==> forall p :: p in r.value.rows ==>
      && p in projects && CanView(p, members, caller)
      && (Given(q) ==> ContainsInsensitive(p.title, q.value) || TextHas(p.description, q.value))
      && (Given(category) ==> p.category == category)
      && (visibility.Some? ==> p.visibility == visibility.value)
  {
    if Skip(page, limit) < 0 then Err(500, "Invalid pagination")
    else
      var w := SearchProjectsWhere(q, caller, category, visibility);
      var matching := MatchingProjects(projects, members, w);
      var rows := Window(Reverse(matching), Skip(page, limit), limit);
      WindowWithin(Reverse(matching), Skip(page, limit), limit);
      ReverseSame(matching);
      MatchingProjectsExactly(projects, members, w);
      assert forall p :: p in rows ==> ProjectMatches(p, members, w);
      assert forall p :: p in rows ==>
        && CanView(p, members, caller)
        && (Given(q) ==> ContainsInsensitive(p.title, q.value) || TextHas(p.description, q.value))
        && (Given(category) ==> p.category == category)
        && (visibility.Some? ==> p.visibility == visibility.value)
      by {
        forall p | p in rows
          ensures && CanView(p, members, caller)
                  && (Given(q) ==> ContainsInsensitive(p.title, q.value) || TextHas(p.description, q.value))
                  && (Given(category) ==> p.category == category)
                  && (visibility.Some? ==> p.visibility == visibility.value)
        {
          SearchProjectsMatchesIff(p, members, q, caller, category, visibility);
        }
      }
      Ok(ResultPage(rows, |matching|, |matching| > Skip(page, limit) + limit))
  }

  /** `searchFeatures` in its default order (most voted first): one page of
      the matching features of projects the caller may view, and the count. */
  function SearchFeatures(features: seq<Feature>, projects: seq<Project>, members: seq<Membership>, caller: Id,
                          q: Option<string>, status: Option<Status>, priority: Option<Priority>,
                          tags: Option<seq<string>>, project: Option<Id>, page: int, limit: int)
    : (r: Result<ResultPage<Feature>>)
    ensures Skip(page, limit) < 0 <==> r.Err?
    ensures r.Ok? ==>
      var w := SearchFeaturesWhere(q, caller, status, priority, tags, project);
      var matching := MatchingFeatures(features, projects, members, w);
      && r.value.rows == Window(SortedDescending(matching, VoteKey), Skip(page, limit), limit)
      && |r.value.rows| <= Magnitude(limit)
      && Descending(r.value.rows, VoteKey)
      && (forall f :: f in r.value.rows ==> f in features && FeatureMatches(f, projects, members, w))
      && r.value.total == |matching|
      && r.value.hasMore == (r.value.total > Skip(page, limit) + limit)
  {
    if Skip(page, limit) < 0 then Err(500, "Invalid pagination")
    else
      var w := SearchFeaturesWhere(q, caller, status, priority, tags, project);
      var matching := MatchingFeatures(features, projects, members, w);
      var sorted := SortedDescending(matching, VoteKey);
      var rows := Window(sorted, Skip(page, limit), limit);
      WindowWithin(sorted, Skip(page, limit), limit);
      WindowDescending(sorted, Skip(page, limit), limit, VoteKey);
      SortedSame(matching, VoteKey);
      MatchingFeaturesExactly(features, projects, members, w);
      Ok(ResultPage(rows, |matching|, |matching| > Skip(page, limit) + limit))
  }

  // ---------------------------------------------------------------- publicProjectSearch

  /** The filter of `publicProjectSearch`: public projects only; a given
      `q` in the title, description or category; a category unless it is
      `All`. */
  function PublicWhere(q: Option<string>, category: Option<string>): (w: ProjectWhere)
    ensures w.visibility == Some(Public)
  {
    ProjectWhere(if Given(q) then Some(TextClauses(q.value)) else None, None,
                 if Given(category) && category.value != "All" then category else None,
                 Some(Public))
  }

  lemma PublicMatchesIff(p: Project, members: seq<Membership>, q: Option<string>, category: Option<string>)
    ensures ProjectMatches(p, members, PublicWhere(q, category))
        <==> && p.visibility == Public
             && (Given(q) ==> TextMatches(p, q.value))
             && (Given(category) && category.value != "All" ==> p.category == category)
  {
    if Given(q) {
      TextClausesMeanTextMatches(p, members, q.value);
    }
  }

  /** A fetched project with the statistics the handler adds to it. */
  datatype ProjectRow = ProjectRow(project: Project, createdAt: int, followerCount: nat, totalVotes: int, progress: int)

  /** The sum of the `vote_count` of the project's features. */
  function TotalVotes(features: seq<Feature>, project: Id): (r: int)
    ensures (forall f :: f in features && f.projectId == project ==> f.voteCount >= 0) ==> r >= 0
    ensures (forall f :: f in features ==> f.projectId != project) ==> r == 0
  {
    if features == [] then 0
    else
      var last := features[|features| - 1];
      TotalVotes(features[..|features| - 1], project) + (if last.projectId == project then last.voteCount else 0)
  }

  /** The feature sits in one of the project's stages. */
  predicate InProjectStage(f: Feature, stages: seq<Stage>, project: Id)
  {
    exists s :: s in stages && s.projectId == project && s.id == f.stageId
  }

  /** The features reached through the project's stages, and how many of them are completed. */
  function StageFeatureCount(features: seq<Feature>, stages: seq<Stage>, project: Id, completedOnly: bool): (r: nat)
    ensures r <= |features|
  {
    if features == [] then 0
    else
      var last := features[|features| - 1];
      StageFeatureCount(features[..|features| - 1], stages, project, completedOnly)
        + (if InProjectStage(last, stages, project) && (!completedOnly || last.status == Completed) then 1 else 0)
  }

  lemma {:induction false} CompletedWithinStageFeatures(features: seq<Feature>, stages: seq<Stage>, project: Id)
    ensures StageFeatureCount(features, stages, project, true) <= StageFeatureCount(features, stages, project, false)
  {
    if features != [] {
      CompletedWithinStageFeatures(features[..|features| - 1], stages, project);
    }
  }

  /** The row's `progress`: completed stage features as a rounded percentage, 0 without any. */
  function StageProgress(features: seq<Feature>, stages: seq<Stage>, project: Id): (r: int)
    ensures 0 <= r <= 100
    ensures var all, done := StageFeatureCount(features, stages, project, false), StageFeatureCount(features, stages, project, true);
      && (all == 0 ==> r == 0)
      && (all > 0 ==> 2 * all * r - all <= 2 * (100 * done) < 2 * all * r + all)
  {
    var all := StageFeatureCount(features, stages, project, false);
    var done := StageFeatureCount(features, stages, project, true);
    CompletedWithinStageFeatures(features, stages, project);
    if all > 0 then
      RoundDivBounds(100 * done, all, 100);
      RoundDiv(100 * done, all)
    else 0
  }

  /** The creation time of a project stands in as its position in the table. */
  function CreatedAt(projects: seq<Project>, p: Project): int
  {
    match ProjectIndex(projects, p.id)
    case Some(k) => k
    case None => 0
  }

  function StatsRow(projects: seq<Project>, stages: seq<Stage>, features: seq<Feature>,
                    followers: seq<Follower>, p: Project): ProjectRow
  {
    ProjectRow(p, CreatedAt(projects, p), Followers.FollowerCount(followers, p.id),
               TotalVotes(features, p.id), StageProgress(features, stages, p.id))
  }

  /** The page the query fetches (newest first), with its statistics. */
  function FetchedRows(projects: seq<Project>, stages: seq<Stage>, features: seq<Feature>, followers: seq<Follower>,
                       q: Option<string>, category: Option<string>, skip: nat, limit: int): (r: seq<ProjectRow>)
    ensures |r| <= Magnitude(limit)
    ensures forall row :: row in r ==>
      && row.project in projects && ProjectMatches(row.project, [], PublicWhere(q, category))
      && row == StatsRow(projects, stages, features, followers, row.project)
  {
    var w := PublicWhere(q, category);
    var matching := MatchingProjects(projects, [], w);
    var fetched := Window(Reverse(matching), skip, limit);
    WindowWithin(Reverse(matching), skip, limit);
    ReverseSame(matching);
    MatchingProjectsExactly(projects, [], w);
    seq(|fetched|, i requires 0 <= i < |fetched| => StatsRow(projects, stages, features, followers, fetched[i]))
  }

  /** The value the chosen sort compares: `votes`, `followers`, `progress`,
      and creation time for `createdAt` or anything else. */
  function SortField(sortBy: string, row: ProjectRow): int
  {
    if sortBy == "votes" then row.totalVotes
    else if sortBy == "followers" then row.followerCount
    else if sortBy == "progress" then row.progress
    else row.createdAt
  }

  /** The comparator: `desc` puts large values first, any other order small ones. */
  function SortKey(sortBy: string, sortOrder: string): ProjectRow -> int
  {
    if sortOrder == "desc" then (row: ProjectRow) => SortField(sortBy, row)
    else (row: ProjectRow) => -SortField(sortBy, row)
  }

  predicate OrderedBy(rows: seq<ProjectRow>, sortBy: string, sortOrder: string)
  {
    forall i, j :: 0 <= i < j < |rows| ==>
      if sortOrder == "desc" then SortField(sortBy, rows[i]) >= SortField(sortBy, rows[j])
      else SortField(sortBy, rows[i]) <= SortField(sortBy, rows[j])
  }

  lemma SortKeyOrders(rows: seq<ProjectRow>, sortBy: string, sortOrder: string)
    requires Descending(rows, SortKey(sortBy, sortOrder))
    ensures OrderedBy(rows, sortBy, sortOrder)
  {
    forall i, j | 0 <= i < j < |rows|
      ensures if sortOrder == "desc" then SortField(sortBy, rows[i]) >= SortField(sortBy, rows[j])
              else SortField(sortBy, rows[i]) <= SortField(sortBy, rows[j])
    {
      assert SortKey(sortBy, sortOrder)(rows[i]) >= SortKey(sortBy, sortOrder)(rows[j]);
    }
  }

  /** The in-place sort of the fetched rows by the chosen key and direction. */
  method SortRows(fetched: seq<ProjectRow>, sortBy: string, sortOrder: string) returns (rows: seq<ProjectRow>)
    ensures multiset(rows) == multiset(fetched) && |rows| == |fetched|
    ensures OrderedBy(rows, sortBy, sortOrder)
    ensures forall row :: row in rows ==> row in fetched
  {
    var sorted := new ProjectRow[|fetched|](i requires 0 <= i < |fetched| => fetched[i]);
    assert sorted[..] == fetched;
    SortDescending(sorted, SortKey(sortBy, sortOrder));
    SortKeyOrders(sorted[..], sortBy, sortOrder);
    rows := sorted[..];
    assert |rows| == |multiset(rows)| == |multiset(fetched)| == |fetched|;
    forall row | row in rows ensures row in fetched {
      assert multiset(rows)[row] > 0;
    }
  }

  datatype PublicPage = PublicPage(projects: seq<ProjectRow>, total: nat, hasMore: bool)

  /** `publicProjectSearch`: one page of public projects matching the
      filters, each with its total votes, follower count and progress,
      re-sorted in place by the chosen key and direction; `total` is the
      page's own length and `hasMore` is always false. */
  method PublicProjectSearch(projects: seq<Project>, stages: seq<Stage>, features: seq<Feature>,
                             followers: seq<Follower>, q: Option<string>, category: Option<string>,
                             sortBy: string, sortOrder: string, page: int, limit: int)
    returns (r: Result<PublicPage>)
    ensures Skip(page, limit) < 0 <==> r.Err?
    ensures r.Ok? ==>
      var fetched := FetchedRows(projects, stages, features, followers, q, category, Skip(page, limit), limit);
      && multiset(r.value.projects) == multiset(fetched)
      && OrderedBy(r.value.projects, sortBy, sortOrder)
      && r.value.total == |r.value.projects| <= Magnitude(limit)
      && !r.value.hasMore
    ensures r.Ok? ==> forall row :: row in r.value.projects ==>
      && row.project in projects && row.project.visibility == Public
      && (Given(q) ==> TextMatches(row.project, q.value))
      && (Given(category) && category.value != "All" ==> row.project.category == category)
  {
    if Skip(page, limit) < 0 {
      return Err(500, "Invalid pagination");
    }
    var fetched := FetchedRows(projects, stages, features, followers, q, category, Skip(page, limit), limit);
    var rows := SortRows(fetched, sortBy, sortOrder);
    forall row | row in rows
      ensures && (Given(q) ==> TextMatches(row.project, q.value))
              && (Given(category) && category.value != "All" ==> row.project.category == category)
    {
      PublicMatchesIff(row.project, [], q, category);
    }
    r := Ok(PublicPage(rows, |rows|, false));
  }
}

=== FILE: stages.dfy ===
/** Roadmap stages (stageController.js): creation and update admit the
    owner and owner/admin/editor members, deletion only the owner and
    owner/admin members. */
module Stages {
  import opened Common
  import opened Model
  import opened Access

  /** The colour a stage gets when none is sent. */
  const DefaultColor: string := "bg-gray-500"

  /** The project of `project` exists and admits the caller to stage edits. */
  predicate MayEditStagesOf(projects: seq<Project>, members: seq<Membership>, user: Id, project: Id)
  {
    var p := FindProject(projects, project);
    p.Some? && CanEditStages(p.value, members, user)
  }

  predicate MayDeleteStagesOf(projects: seq<Project>, members: seq<Membership>, user: Id, project: Id)
  {
    var p := FindProject(projects, project);
    p.Some? && CanDeleteStage(p.value, members, user)
  }

  /** `createStage`: 404 unless the caller may edit the project's stages;
      otherwise one stage of that project is added, grey unless a colour
      is sent. */
  method CreateStage(st: Store, caller: Id, project: Id, id: Id, title: string, position: int, color: Option<string>)
    returns (r: Result<Stage>)
    modifies st`stages
    ensures !MayEditStagesOf(st.projects, st.members, caller, project) ==>
      r == Err(404, "Project not found or insufficient permissions") && st.stages == old(st.stages)
    ensures MayEditStagesOf(st.projects, st.members, caller, project) ==>
      && r.Ok?
      && st.stages == old(st.stages) + [r.value]
      && r.value.id == id && r.value.projectId == project
      && r.value.title == title && r.value.position == position
      && r.value.color == (if color.Some? then color.value else DefaultColor)
  {
    if !MayEditStagesOf(st.projects, st.members, caller, project) {
      return Err(404, "Project not found or insufficient permissions");
    }
    var stage := Stage(id, project, title, position, if color.Some? then color.value else DefaultColor);
    st.stages := st.stages + [stage];
    r := Ok(stage);
  }

  /** The fields `updateStage` takes; `None` leaves a field as it is. */
  datatype StageChanges = StageChanges(title: Option<string>, position: Option<int>, color: Option<string>)

  function ApplyStageChanges(s: Stage, c: StageChanges): (r: Stage)
    ensures r.id == s.id && r.projectId == s.projectId
    ensures r.title == (if c.title.Some? then c.title.value else s.title)
    ensures r.position == (if c.position.Some? then c.position.value else s.position)
    ensures r.color == (if c.color.Some? then c.color.value else s.color)
  {
    Stage(s.id, s.projectId,
          if c.title.Some? then c.title.value else s.title,
          if c.position.Some? then c.position.value else s.position,
          if c.color.Some? then c.color.value else s.color)
  }

  /** `updateStage`: the stage must exist and its project admit the caller
      to stage edits (404 otherwise); only that stage's title, position and
      colour change. */
  method UpdateStage(st: Store, caller: Id, id: Id, c: StageChanges) returns (r: Result<Stage>)
    modifies st`stages
    ensures var k := StageIndex(old(st.stages), id);
      k.None? || !MayEditStagesOf(st.projects, st.members, caller, old(st.stages)[k.value].projectId) ==>
        r == Err(404, "Stage not found or insufficient permissions") && st.stages == old(st.stages)
    ensures var k := StageIndex(old(st.stages), id);
      k.Some? && MayEditStagesOf(st.projects, st.members, caller, old(st.stages)[k.value].projectId) ==>
        && r == Ok(ApplyStageChanges(old(st.stages)[k.value], c))
        && |st.stages| == |old(st.stages)|
        && st.stages[k.value] == ApplyStageChanges(old(st.stages)[k.value], c)
        && forall j :: 0 <= j < |st.stages| && j != k.value ==> st.stages[j] == old(st.stages)[j]
  {
    var k := StageIndex(st.stages, id);
    if k.None? || !MayEditStagesOf(st.projects, st.members, caller, st.stages[k.value].projectId) {
      return Err(404, "Stage not found or insufficient permissions");
    }
    var updated := ApplyStageChanges(st.stages[k.value], c);
    st.stages := st.stages[k.value := updated];
    r := Ok(updated);
  }

  /** An update that sends nothing leaves the stage as it is, and applying
      the same update twice is the same as applying it once. */
  lemma StageChangesIdempotent(s: Stage, c: StageChanges)
    ensures ApplyStageChanges(s, StageChanges(None, None, None)) == s
    ensures ApplyStageChanges(ApplyStageChanges(s, c), c) == ApplyStageChanges(s, c)
  {
  }

  /** `deleteStage`: the stage must exist and its project admit the caller
      to stage deletion (404 otherwise); exactly that stage is removed. */
  method DeleteStage(st: Store, caller: Id, id: Id) returns (r: Result<()>)
    modifies st`stages
    ensures var k := StageIndex(old(st.stages), id);
      k.None? || !MayDeleteStagesOf(st.projects, st.members, caller, old(st.stages)[k.value].projectId) ==>
        r == Err(404, "Stage not found or insufficient permissions") && st.stages == old(st.stages)
    ensures var k := StageIndex(old(st.stages), id);
      k.Some? && MayDeleteStagesOf(st.projects, st.members, caller, old(st.stages)[k.value].projectId) ==>
        r == Ok(()) && st.stages == old(st.stages)[..k.value] + old(st.stages)[k.value + 1..]
  {
    var k := StageIndex(st.stages, id);
    if k.None? || !MayDeleteStagesOf(st.projects, st.members, caller, st.stages[k.value].projectId) {
      return Err(404, "Stage not found or insufficient permissions");
    }
    st.stages := st.stages[..k.value] + st.stages[k.value + 1..];
    r := Ok(());
  }

  /** With stage keys unique, a delete leaves every other stage and no
      stage with the deleted key. */
  lemma DeleteRemovesExactlyThatStage(stages: seq<Stage>, k: nat)
    requires k < |stages|
    requires forall i, j :: 0 <= i < j < |stages| ==> stages[i].id != stages[j].id
    ensures var rest := stages[..k] + stages[k + 1..];
      && StageIndex(rest, stages[k].id).None?
      && forall s :: s in stages && s.id != stages[k].id ==> s in rest
  {
    var rest := stages[..k] + stages[k + 1..];
    forall j | 0 <= j < |rest| ensures rest[j].id != stages[k].id {
      if j < k { assert rest[j] == stages[j]; } else { assert rest[j] == stages[j + 1]; }
    }
    forall s | s in stages && s.id != stages[k].id ensures s in rest {
      var i :| 0 <= i < |stages| && stages[i] == s;
      if i < k { assert rest[i] == s; } else { assert rest[i - 1] == s; }
    }
  }

  /** An editor member of a project it does not own may create a stage
      there but not delete one. */
  lemma EditorCreatesButCannotDelete(p: Project, members: seq<Membership>, user: Id)
    requires p.ownerId != user && OnlyRole(members, user, p.id, Editor) && IsMember(members, user, p.id)
    ensures MayEditStagesOf([p], members, user, p.id)
    ensures !MayDeleteStagesOf([p], members, user, p.id)
  {
    EditorMayEditButNotDeleteStages(p, members, user);
  }
}

=== FILE: users.dfy ===
/** The caller's own account and public profiles (userController.js). */
module Users {
  import opened Common
  import opened Model
  import Members
  import Auth

  predicate IdsUnique(users: seq<User>)
  {
    forall i, j :: 0 <= i < j < |users| ==> users[i].id != users[j].id
  }

  /** The columns `getProfile` and `updateProfile` select: no hash and no
      provider ids. */
  datatype Profile = Profile(id: Id, name: string, email: string, username: Option<string>,
                             avatarUrl: Option<string>, bio: Option<string>, role: string)

  function ProfileOf(u: User): Profile
  {
    Profile(u.id, u.name, u.email, u.username, u.avatarUrl, u.bio, u.role)
  }

  /** `getProfile`: the caller's own row, as selected. */
  function GetProfile(users: seq<User>, caller: Id): (r: Profile)
    requires Members.Authenticated(users, caller)
    ensures r.id == caller
    ensures exists i :: 0 <= i < |users| && users[i].id == caller && r == ProfileOf(users[i])
  {
    var k := UserIndex(users, caller).value;
    ProfileOf(users[k])
  }

  // ------------------------------------------------------------ update

  /** The body of `updateProfile`; `None` leaves a column as it is. */
  datatype ProfileChanges = ProfileChanges(name: Option<string>, username: Option<string>,
                                           bio: Option<string>, avatarUrl: Option<string>)

  /** The row after the update: only name, username, bio and avatar change. */
  function ApplyProfileChanges(u: User, c: ProfileChanges): (r: User)
    ensures r.(name := u.name, username := u.username, bio := u.bio, avatarUrl := u.avatarUrl) == u
    ensures c.name.Some? ==> r.name == c.name.value
    ensures c.username.Some? ==> r.username == c.username
    ensures c.bio.Some? ==> r.bio == c.bio
    ensures c.avatarUrl.Some? ==> r.avatarUrl == c.avatarUrl
    ensures c == ProfileChanges(None, None, None, None) ==> r == u
  {
    u.(name := if c.name.Some? then c.name.value else u.name,
       username := if c.username.Some? then c.username else u.username,
       bio := if c.bio.Some? then c.bio else u.bio,
       avatarUrl := if c.avatarUrl.Some? then c.avatarUrl else u.avatarUrl)
  }

  /** The first row other than `caller`'s holding `username`. */
  function UsernameHolder(users: seq<User>, username: string, caller: Id): (r: Option<nat>)
    ensures r.Some? ==> r.value < |users| && users[r.value].username == Some(username) && users[r.value].id != caller
    ensures r.None? <==> forall j :: 0 <= j < |users| ==> users[j].username != Some(username) || users[j].id == caller
  {
    if users == [] then None
    else if users[0].username == Some(username) && users[0].id != caller then Some(0)
    else match UsernameHolder(users[1..], username, caller)
         case None => None
         case Some(k) => Some(k + 1)
  }

  /** With usernames unique, the caller's own username never counts as
      taken. */
  lemma OwnUsernameFree(users: seq<User>, k: nat, caller: Id)
    requires k < |users| && users[k].id == caller && users[k].username.Some?
    requires Auth.UsernamesUnique(users)
    ensures UsernameHolder(users, users[k].username.value, caller).None?
  {
    forall j | 0 <= j < |users| && users[j].username == users[k].username ensures j == k {
    }
  }

  /** Writing a username nobody else holds keeps usernames unique. */
  lemma UpdateKeepsUsernamesUnique(users: seq<User>, k: nat, u: User)
    requires k < |users| && Auth.UsernamesUnique(users)
    requires u.username.None? || forall j :: 0 <= j < |users| && j != k ==> users[j].username != u.username
    ensures Auth.UsernamesUnique(users[k := u])
  {
    var s := users[k := u];
    forall i, j | 0 <= i < j < |s| && s[i].username.Some? ensures s[i].username != s[j].username {
      if i != k && j != k {
        assert s[i] == users[i] && s[j] == users[j];
      }
    }
  }

  /** `updateProfile`: a sent, non-empty username held by another row
      answers 409 and writes nothing; the same clash with an empty username
      skips that check and trips the unique index instead; otherwise only
      the caller's row changes, and only in the four columns. */
  method UpdateProfile(st: Store, caller: Id, c: ProfileChanges) returns (r: Result<Profile>)
    requires Members.Authenticated(st.users, caller)
    modifies st`users
    ensures c.username.Some? && c.username.value != "" && UsernameHolder(old(st.users), c.username.value, caller).Some? ==>
      r == Err(409, "Username already taken") && st.users == old(st.users)
    ensures c.username == Some("") && UsernameHolder(old(st.users), "", caller).Some? ==>
      r == Err(500, "Unique constraint failed on the fields: (username)") && st.users == old(st.users)
    ensures var k := UserIndex(old(st.users), caller).value;
      (c.username.None? || UsernameHolder(old(st.users), c.username.value, caller).None?) ==>
        && st.users == old(st.users)[k := ApplyProfileChanges(old(st.users)[k], c)]
        && r == Ok(ProfileOf(ApplyProfileChanges(old(st.users)[k], c)))
    ensures Auth.UsernamesUnique(old(st.users)) && IdsUnique(old(st.users)) ==> Auth.UsernamesUnique(st.users)
  {
    var k := UserIndex(st.users, caller).value;
    if c.username.Some? && UsernameHolder(st.users, c.username.value, caller).Some? {
      if c.username.value != "" {
        return Err(409, "Username already taken");
      }
      return Err(500, "Unique constraint failed on the fields: (username)");
    }
    var u := ApplyProfileChanges(st.users[k], c);
    if Auth.UsernamesUnique(st.users) && IdsUnique(st.users) {
      forall j | 0 <= j < |st.users| && j != k && u.username.Some? ensures st.users[j].username != u.username {
        if c.username.Some? {
          assert st.users[j].id != caller;
        }
      }
      UpdateKeepsUsernamesUnique(st.users, k, u);
    }
    st.users := st.users[k := u];
    r := Ok(ProfileOf(u));
  }

  // ------------------------------------------------------------ delete

  /** `deleteAccount`: the password must match the caller's stored hash
      (401 otherwise, nothing removed); then the caller's row is removed. */
  method DeleteAccount(st: Store, caller: Id, password: string, hash: string -> string) returns (r: Result<()>)
    requires Members.Authenticated(st.users, caller)
    modifies st`users
    ensures var k := UserIndex(old(st.users), caller).value;
      old(st.users)[k].passwordHash.None? ==> r == Err(500, Auth.IllegalArguments) && st.users == old(st.users)
    ensures var k := UserIndex(old(st.users), caller).value;
      old(st.users)[k].passwordHash.Some? && old(st.users)[k].passwordHash.value != hash(password) ==>
        r == Err(401, "Password is incorrect") && st.users == old(st.users)
    ensures var k := UserIndex(old(st.users), caller).value;
      old(st.users)[k].passwordHash == Some(hash(password)) ==>
        r == Ok(()) && st.users == old(st.users)[..k] + old(st.users)[k + 1..]
  {
    var k := UserIndex(st.users, caller).value;
    var valid := Auth.Compare(hash, password, st.users[k].passwordHash);
    if valid.Err? {
      return Err(valid.status, valid.message);
    }
    if !valid.value {
      return Err(401, "Password is incorrect");
    }
    st.users := st.users[..k] + st.users[k + 1..];
    r := Ok(());
  }

  /** With keys unique, the deleted account is gone for good: its id no
      longer authenticates, and every other row stays. */
  lemma DeletedAccountGone(users: seq<User>, k: nat)
    requires k < |users| && IdsUnique(users)
    ensures var rest := users[..k] + users[k + 1..];
      && !Members.Authenticated(rest, users[k].id)
      && forall u :: u in users && u.id != users[k].id ==> u in rest
  {
    var rest := users[..k] + users[k + 1..];
    forall j | 0 <= j < |rest| ensures rest[j].id != users[k].id {
      if j < k { assert rest[j] == users[j]; } else { assert rest[j] == users[j + 1]; }
    }
    forall u | u in users && u.id != users[k].id ensures u in rest {
      var i :| 0 <= i < |users| && users[i] == u;
      if i < k { assert rest[i] == u; } else { assert rest[i - 1] == u; }
    }
  }

  // ------------------------------------------------------------ public profile

  /** The columns `getPublicProfile` selects: no e-mail, role, hash or
      provider ids. */
  datatype PublicProfile = PublicProfile(id: Id, name: string, username: Option<string>,
                                         avatarUrl: Option<string>, bio: Option<string>)

  /** `getPublicProfile`: 404 for an unknown id; otherwise the public columns
      of that row. */
  function GetPublicProfile(users: seq<User>, id: Id): (r: Result<PublicProfile>)
    ensures UserIndex(users, id).None? <==> r == Err(404, "User not found")
    ensures r.Ok? ==>
      var u := users[UserIndex(users, id).value];
      r.value == PublicProfile(id, u.name, u.username, u.avatarUrl, u.bio)
  {
    match UserIndex(users, id)
    case None => Err(404, "User not found")
    case Some(k) => Ok(PublicProfile(users[k].id, users[k].name, users[k].username, users[k].avatarUrl, users[k].bio))
  }

  /** Lookup by key depends on the keys alone. */
  lemma {:induction false} UserIndexByKeys(a: seq<User>, b: seq<User>, id: Id)
    requires |a| == |b| && forall i :: 0 <= i < |a| ==> a[i].id == b[i].id
    ensures UserIndex(a, id) == UserIndex(b, id)
  {
    if a != [] {
      UserIndexByKeys(a[1..], b[1..], id);
    }
  }

  /** Changing a row's e-mail, role, hash or provider ids changes nothing
      any public profile shows. */
  lemma PublicProfileHidesPrivateColumns(users: seq<User>, k: nat, email: string, role: string,
                                         hash: Option<string>, google: Option<string>, github: Option<string>, id: Id)
    requires k < |users|
    ensures var after := users[k := users[k].(email := email, role := role, passwordHash := hash,
                                               googleId := google, githubId := github)];
      GetPublicProfile(after, id) == GetPublicProfile(users, id)
  {
    var after := users[k := users[k].(email := email, role := role, passwordHash := hash,
                                      googleId := google, githubId := github)];
    UserIndexByKeys(users, after, id);
  }
}

=== FILE: validation.dfy ===
/** Request validation (validation.js): the checks each route's validator
    chain applies to the request body.

    A chain runs every check of a field and collects one message per
    failing check: the message given right after it, or the library's
    default when none is. The sanitiser `trim` rewrites the field before
    the length checks and before the handler reads it. Lengths count
    characters. The routes attach these chains, but no handler reads the
    collected messages, so a failing request still reaches its handler:
    the predicates here describe what the chains report, not what the
    handlers refuse. */
module Validation {
  import opened Common
  import opened Model

  /** The message of a check that carries none of its own. */
  const InvalidValue: string := "Invalid value"

  const PasswordLength: string := "Password must be at least 8 characters"
  const NewPasswordLength: string := "New password must be at least 8 characters"
  const PasswordClasses: string := "Password must contain uppercase, lowercase and number"
  const RegisterUsername: string := "Username 3-30 chars, letters, numbers, underscore only"
  const ProfileUsername: string := "Username 3-30 chars, letters/numbers/underscore only"

  /** `isLength({ min, max })`. */
  predicate LengthBetween(s: string, min: nat, max: nat) { min <= |s| <= max }

  // ------------------------------------------------------------ passwords

  /** The text before the first line terminator: the part of the input a
      `.*` at the start of a regular expression can cross. */
  function FirstLine(s: string): (r: string)
    ensures IsPrefix(r, s)
    ensures forall i :: 0 <= i < |r| ==> !IsLineTerminator(r[i])
    ensures |r| < |s| ==> IsLineTerminator(s[|r|])
  {
    if s == [] || IsLineTerminator(s[0]) then [] else [s[0]] + FirstLine(s[1..])
  }

  predicate HasLower(s: string) { exists i :: 0 <= i < |s| && IsLower(s[i]) }
  predicate HasUpper(s: string) { exists i :: 0 <= i < |s| && IsUpper(s[i]) }
  predicate HasDigit(s: string) { exists i :: 0 <= i < |s| && IsDigit(s[i]) }

  /** `/^(?=.*[a-z])(?=.*[A-Z])(?=.*\d)/`: a lower-case letter, an
      upper-case letter and a digit, each on the first line. */
  predicate MixedClasses(s: string)
  {
    HasLower(FirstLine(s)) && HasUpper(FirstLine(s)) && HasDigit(FirstLine(s))
  }

  /** A password every password chain (register, reset, change) accepts. */
  predicate StrongPassword(s: string) { |s| >= 8 && MixedClasses(s) }

  /** The messages of a password chain; `lengthMessage` is the chain's own
      wording of the length rule. */
  function PasswordErrors(s: string, lengthMessage: string): (r: seq<string>)
    ensures r == [] <==> StrongPassword(s)
    ensures |r| <= 2
    ensures MixedClasses(s) ==> |r| <= 1
    ensures !MixedClasses(s) ==> r[|r| - 1] == PasswordClasses
    ensures |s| < 8 ==> r[0] == lengthMessage
  {
    (if |s| < 8 then [lengthMessage] else []) + (if MixedClasses(s) then [] else [PasswordClasses])
  }

  /** A password whose digit comes only after a line break is refused,
      although it holds all three classes and is long enough. */
  lemma LineBreakHidesDigit()
    ensures var s := "Abcdefg" + "\n1";
      !StrongPassword(s) && |s| >= 8 && HasLower(s) && HasUpper(s) && HasDigit(s)
  {
    var s := "Abcdefg" + "\n1";
    assert s[7] == '\n' && s[8] == '1' && s[0] == 'A' && s[1] == 'b';
    FirstLineUpTo(s, 7);
    var f := FirstLine(s);
    assert forall i :: 0 <= i < |f| ==> f[i] == s[i] && !IsDigit(s[i]);
  }

  /** The first line of a text whose first `n` characters hold no line
      terminator, followed by one or by the end, is those `n` characters. */
  lemma {:induction false} FirstLineUpTo(s: string, n: nat)
    requires n <= |s| && forall i :: 0 <= i < n ==> !IsLineTerminator(s[i])
    requires n == |s| || IsLineTerminator(s[n])
    ensures FirstLine(s) == s[..n]
  {
    if n > 0 {
      FirstLineUpTo(s[1..], n - 1);
      assert s[..n] == [s[0]] + s[1..][..n - 1];
    }
  }

  /** A password of the three classes on one line and eight characters passes. */
  lemma StrongPasswordExample()
    ensures StrongPassword("Passw0rd")
  {
    var s := "Passw0rd";
    FirstLineUpTo(s, |s|);
    var f := FirstLine(s);
    assert f == s;
    assert IsUpper(f[0]) && IsLower(f[1]) && IsDigit(f[5]);
  }

  // ------------------------------------------------------------ usernames

  predicate ValidUsername(s: string) { LengthBetween(s, 3, 30) && WordOnly(s) }

  /** The messages of the optional username chain: nothing for an absent
      username; the length check has no message of its own. */
  function UsernameErrors(u: Option<string>, patternMessage: string): (r: seq<string>)
    ensures u.None? ==> r == []
    ensures u.Some? ==> (r == [] <==> ValidUsername(u.value))
    ensures u.Some? && !LengthBetween(u.value, 3, 30) ==> r[0] == InvalidValue
    ensures u.Some? && !WordOnly(u.value) ==> r[|r| - 1] == patternMessage
  {
    if u.None? then []
    else
      (if LengthBetween(u.value, 3, 30) then [] else [InvalidValue])
      + (if WordOnly(u.value) then [] else [patternMessage])
  }

  /** An empty username is refused with both messages. */
  lemma EmptyUsernameRefused(m: string)
    requires m != InvalidValue
    ensures UsernameErrors(Some(""), m) == [InvalidValue, m]
  {
  }

  // ------------------------------------------------------------ trimmed text

  /** A trimmed field whose length lies in `[min, max]`. */
  predicate TrimmedBetween(raw: string, min: nat, max: nat) { LengthBetween(Trim(raw), min, max) }

  /** Only white space: what trimming turns into the empty string. */
  predicate Blank(raw: string) { forall i :: 0 <= i < |raw| ==> IsSpace(raw[i]) }

  // A required field refuses a blank value and anything shorter than its
  // minimum; an optional one accepts anything up to its maximum as sent.

  /** Register and profile name: 2 to 100 characters after trimming. */
  predicate ValidName(raw: string)
    ensures ValidName(raw) ==> |raw| >= 2 && !Blank(raw)
  { TrimmedBetween(raw, 2, 100) }
  /** Profile bio: at most 500 characters after trimming. */
  predicate ValidBio(raw: string)
    ensures |raw| <= 500 ==> ValidBio(raw)
  { TrimmedBetween(raw, 0, 500) }
  /** Project title: 3 to 200 characters after trimming. */
  predicate ValidProjectTitle(raw: string)
    ensures ValidProjectTitle(raw) ==> |raw| >= 3 && !Blank(raw)
  { TrimmedBetween(raw, 3, 200) }
  predicate ValidProjectDescription(raw: string)
    ensures |raw| <= 1000 ==> ValidProjectDescription(raw)
  { TrimmedBetween(raw, 0, 1000) }
  predicate ValidCategory(raw: string)
    ensures |raw| <= 100 ==> ValidCategory(raw)
  { TrimmedBetween(raw, 0, 100) }
  /** Feature title: 5 to 200 characters after trimming. */
  predicate ValidFeatureTitle(raw: string)
    ensures ValidFeatureTitle(raw) ==> |raw| >= 5 && !Blank(raw)
  { TrimmedBetween(raw, 5, 200) }
  predicate ValidFeatureDescription(raw: string)
    ensures |raw| <= 2000 ==> ValidFeatureDescription(raw)
  { TrimmedBetween(raw, 0, 2000) }
  /** Comment, discussion and reply content: 1 to 1000 characters after
      trimming. */
  predicate ValidContent(raw: string)
    ensures ValidContent(raw) ==> |raw| >= 1 && !Blank(raw)
  { TrimmedBetween(raw, 1, 1000) }

  /** Content of white space alone is refused, and accepted content reaches
      the handler with something other than white space at both ends. */
  lemma ContentNotBlank(raw: string)
    ensures (forall i :: 0 <= i < |raw| ==> IsSpace(raw[i])) ==> !ValidContent(raw)
    ensures ValidContent(raw) ==> !IsSpace(Trim(raw)[0]) && !IsSpace(Trim(raw)[|Trim(raw)| - 1])
  {
  }

  /** Padding does not help a title: a feature title valid after trimming
      is a valid project title too, never the other way round for four
      characters. */
  lemma TitleThresholds(raw: string)
    ensures ValidFeatureTitle(raw) ==> ValidProjectTitle(raw)
    ensures |Trim(raw)| == 4 ==> ValidProjectTitle(raw) && !ValidFeatureTitle(raw)
  {
  }

  // ------------------------------------------------------------ enumerations

  /** `isIn(['viewer', 'editor', 'admin'])` for invites and role updates: an
      accepted role is one of three roles; "owner" and "member" never are. */
  predicate ValidAssignableRole(s: string)
    ensures ValidAssignableRole(s) <==> ParseRole(s).Some? && ParseRole(s).value in {Viewer, Editor, Admin}
    ensures s == RoleName(Owner) || s == RoleName(Member) ==> !ValidAssignableRole(s)
  {
    s == "viewer" || s == "editor" || s == "admin"
  }

  // The three lists below are exactly the wire names of the model's enumerations.

  predicate ValidStatus(s: string)
    ensures ValidStatus(s) <==> ParseStatus(s).Some?
  {
    s == "open" || s == "under_review" || s == "in_progress" || s == "completed" || s == "rejected"
  }
  predicate ValidPriority(s: string)
    ensures ValidPriority(s) <==> ParsePriority(s).Some?
  {
    s == "low" || s == "medium" || s == "high"
  }
  predicate ValidVisibility(s: string)
    ensures ValidVisibility(s) <==> ParseVisibility(s).Some?
  {
    s == "public" || s == "private"
  }

  /** `isInt({ min: -1, max: 1 })`: exactly three values, zero among them. */
  predicate ValidVoteValue(v: int)
    ensures ValidVoteValue(v) <==> v in {-1, 0, 1}
  {
    -1 <= v <= 1
  }
}

=== FILE: votes.dfy ===
/** Votes on features (voteController.js): an upsert keyed by (user, feature)
    followed by a recount that overwrites the feature's denormalised
    `voteCount` with the sum of the values of its votes. */
module Votes {
  import opened Common
  import opened Model

  /** What a vote contributes to the total of feature `f`. */
  function Contribution(v: Vote, f: Id): int
  {
    if v.featureId == f then v.value else 0
  }

  /** The sum of the values of the votes on feature `f`; 0 when there are none. */
  function VoteSum(votes: seq<Vote>, f: Id): int
  {
    if votes == [] then 0
    else VoteSum(votes[..|votes| - 1], f) + Contribution(votes[|votes| - 1], f)
  }

  predicate HasKey(v: Vote, user: Id, f: Id)
  {
    v.userId == user && v.featureId == f
  }

  /** At most one vote row per (user, feature): the table's unique key. */
  predicate UniqueVoteKeys(votes: seq<Vote>)
  {
    forall i, j :: 0 <= i < j < |votes| ==> !HasKey(votes[j], votes[i].userId, votes[i].featureId)
  }

  /** Every feature's cached count equals the sum of its votes. */
  predicate CountsAgree(votes: seq<Vote>, features: seq<Feature>)
  {
    forall i :: 0 <= i < |features| ==> features[i].voteCount == VoteSum(votes, features[i].id)
  }

  /** The position of the vote of `user` on `f`, if any. */
  function VoteIndex(votes: seq<Vote>, user: Id, f: Id): (r: Option<nat>)
    ensures r.Some? ==> r.value < |votes| && HasKey(votes[r.value], user, f)
    ensures r.Some? ==> forall j :: 0 <= j < r.value ==> !HasKey(votes[j], user, f)
    ensures r.None? <==> forall j :: 0 <= j < |votes| ==> !HasKey(votes[j], user, f)
  {
    if votes == [] then None
    else if HasKey(votes[0], user, f) then Some(0)
    else match VoteIndex(votes[1..], user, f)
         case None => None
         case Some(k) => Some(k + 1)
  }

  /** The votes table after the upsert: the existing row of (user, f) gets
      the new value, or a new row is appended. */
  function Upsert(votes: seq<Vote>, user: Id, f: Id, value: int): seq<Vote>
  {
    match VoteIndex(votes, user, f)
    case Some(i) => votes[i := Vote(user, f, value)]
    case None => votes + [Vote(user, f, value)]
  }

  /** The votes table after deleting the row at position `i`. */
  function DeleteAt(votes: seq<Vote>, i: nat): seq<Vote>
    requires i < |votes|
  {
    votes[..i] + votes[i + 1..]
  }

  /** The features table after the recount wrote `count` into feature `f`. */
  function SetVoteCount(features: seq<Feature>, f: Id, count: int): (r: seq<Feature>)
    ensures |r| == |features|
    ensures forall i :: 0 <= i < |features| ==>
      r[i] == if features[i].id == f then features[i].(voteCount := count) else features[i]
  {
    if features == [] then []
    else [if features[0].id == f then features[0].(voteCount := count) else features[0]]
         + SetVoteCount(features[1..], f, count)
  }

  // ------------------------------------------------------------ handlers

  /** `addVote`: 404 when the feature does not exist; otherwise upsert the
      caller's vote and recount the feature. */
  method AddVote(st: Store, caller: Id, featureId: Id, value: int) returns (r: Result<Vote>)
    modifies st`votes, st`features
    ensures FeatureIndex(old(st.features), featureId).None? ==>
      r == Err(404, "Feature not found") && st.votes == old(st.votes) && st.features == old(st.features)
    ensures FeatureIndex(old(st.features), featureId).Some? ==>
      && r == Ok(Vote(caller, featureId, value))
      && st.votes == Upsert(old(st.votes), caller, featureId, value)
      && st.features == SetVoteCount(old(st.features), featureId, VoteSum(st.votes, featureId))
    ensures UniqueVoteKeys(old(st.votes)) ==> UniqueVoteKeys(st.votes)
    ensures CountsAgree(old(st.votes), old(st.features)) ==> CountsAgree(st.votes, st.features)
  {
    if FeatureIndex(st.features, featureId).None? {
      return Err(404, "Feature not found");
    }
    if UniqueVoteKeys(st.votes) {
      UpsertKeepsKeysUnique(st.votes, caller, featureId, value);
    }
    if CountsAgree(st.votes, st.features) {
      AddVoteKeepsCountsAgreeing(st.votes, st.features, caller, featureId, value);
    }
    st.votes := Upsert(st.votes, caller, featureId, value);
    st.features := SetVoteCount(st.features, featureId, VoteSum(st.votes, featureId));
    r := Ok(Vote(caller, featureId, value));
  }

  /** `removeVote`: 404 when the caller has no vote on the feature; otherwise
      delete it and recount. The recount's update fails with 500 when the
      feature row itself is missing, after the vote is gone. */
  method RemoveVote(st: Store, caller: Id, featureId: Id) returns (r: Result<()>)
    modifies st`votes, st`features
    ensures VoteIndex(old(st.votes), caller, featureId).None? ==>
      r == Err(404, "Vote not found") && st.votes == old(st.votes) && st.features == old(st.features)
    ensures VoteIndex(old(st.votes), caller, featureId).Some? ==>
      && st.votes == DeleteAt(old(st.votes), VoteIndex(old(st.votes), caller, featureId).value)
      && st.features == SetVoteCount(old(st.features), featureId, VoteSum(st.votes, featureId))
      && r == if FeatureIndex(old(st.features), featureId).Some? then Ok(())
              else Err(500, "Record to update not found.")
    ensures UniqueVoteKeys(old(st.votes)) ==> UniqueVoteKeys(st.votes)
    ensures CountsAgree(old(st.votes), old(st.features)) ==> CountsAgree(st.votes, st.features)
  {
    var found := VoteIndex(st.votes, caller, featureId);
    if found.None? {
      return Err(404, "Vote not found");
    }
    if UniqueVoteKeys(st.votes) {
      DeleteKeepsKeysUnique(st.votes, found.value);
    }
    if CountsAgree(st.votes, st.features) {
      RemoveVoteKeepsCountsAgreeing(st.votes, st.features, found.value);
    }
    st.votes := DeleteAt(st.votes, found.value);
    var exists_ := FeatureIndex(st.features, featureId).Some?;
    st.features := SetVoteCount(st.features, featureId, VoteSum(st.votes, featureId));
    r := if exists_ then Ok(()) else Err(500, "Record to update not found.");
  }

  // ------------------------------------------------------------ sums

  lemma {:induction false} SumConcat(a: seq<Vote>, b: seq<Vote>, f: Id)
    ensures VoteSum(a + b, f) == VoteSum(a, f) + VoteSum(b, f)
    decreases |b|
  {
    if b == [] {
      assert a + b == a;
    } else {
      var b' := b[..|b| - 1];
      assert (a + b)[..|a + b| - 1] == a + b';
      SumConcat(a, b', f);
    }
  }

  /** Replacing one row changes the sum by the difference of the two rows' contributions. */
  lemma SumUpdate(votes: seq<Vote>, i: nat, v: Vote, f: Id)
    requires i < |votes|
    ensures VoteSum(votes[i := v], f) == VoteSum(votes, f) - Contribution(votes[i], f) + Contribution(v, f)
  {
    assert votes == votes[..i] + [votes[i]] + votes[i + 1..];
    assert votes[i := v] == votes[..i] + [v] + votes[i + 1..];
    SumConcat(votes[..i] + [votes[i]], votes[i + 1..], f);
    SumConcat(votes[..i] + [v], votes[i + 1..], f);
    SumConcat(votes[..i], [votes[i]], f);
    SumConcat(votes[..i], [v], f);
  }

  /** Deleting one row takes away exactly its contribution. */
  lemma DeleteSum(votes: seq<Vote>, i: nat, f: Id)
    requires i < |votes|
    ensures VoteSum(DeleteAt(votes, i), f) == VoteSum(votes, f) - Contribution(votes[i], f)
  {
    assert votes == votes[..i] + [votes[i]] + votes[i + 1..];
    SumConcat(votes[..i] + [votes[i]], votes[i + 1..], f);
    SumConcat(votes[..i], [votes[i]], f);
    SumConcat(votes[..i], votes[i + 1..], f);
  }

  /** The upsert changes the total of `f` from the old value of the caller's
      vote (0 when there was none) to the new value, and no other total. */
  lemma UpsertSum(votes: seq<Vote>, user: Id, f: Id, value: int, g: Id)
    ensures VoteSum(Upsert(votes, user, f, value), g) ==
      VoteSum(votes, g)
      + (if g == f then value else 0)
      - (match VoteIndex(votes, user, f) case Some(i) => Contribution(votes[i], g) case None => 0)
  {
    match VoteIndex(votes, user, f)
    case Some(i) => SumUpdate(votes, i, Vote(user, f, value), g);
    case None => SumConcat(votes, [Vote(user, f, value)], g);
  }

  // ------------------------------------------------------------ the table's key

  lemma UpsertKeepsKeysUnique(votes: seq<Vote>, user: Id, f: Id, value: int)
    requires UniqueVoteKeys(votes)
    ensures UniqueVoteKeys(Upsert(votes, user, f, value))
  {
  }

  lemma DeleteKeepsKeysUnique(votes: seq<Vote>, i: nat)
    requires i < |votes| && UniqueVoteKeys(votes)
    ensures UniqueVoteKeys(DeleteAt(votes, i))
  {
    var d := DeleteAt(votes, i);
    forall a, b | 0 <= a < b < |d|
      ensures !HasKey(d[b], d[a].userId, d[a].featureId)
    {
      var a' := if a < i then a else a + 1;
      var b' := if b < i then b else b + 1;
      assert d[a] == votes[a'] && d[b] == votes[b'];
    }
  }

  /** A second vote of the same user on the same feature overwrites the
      first: the table does not grow. A first vote adds one row. */
  lemma UpsertSize(votes: seq<Vote>, user: Id, f: Id, value: int)
    ensures |Upsert(votes, user, f, value)| ==
      if VoteIndex(votes, user, f).Some? then |votes| else |votes| + 1
  {
  }

  /** After the upsert the caller has exactly one vote on `f`, holding the
      new value, and every other row is untouched. */
  lemma UpsertResult(votes: seq<Vote>, user: Id, f: Id, value: int)
    requires UniqueVoteKeys(votes)
    ensures var r := Upsert(votes, user, f, value);
      && VoteIndex(r, user, f).Some?
      && r[VoteIndex(r, user, f).value] == Vote(user, f, value)
      && (forall v :: v in votes && !HasKey(v, user, f) ==> v in r)
      && (forall v :: v in r && !HasKey(v, user, f) ==> v in votes)
  {
    var r := Upsert(votes, user, f, value);
    match VoteIndex(votes, user, f)
    case Some(i) =>
      assert r[i] == Vote(user, f, value);
      forall v | v in votes && !HasKey(v, user, f) ensures v in r {
        var k :| 0 <= k < |votes| && votes[k] == v;
        assert r[k] == v;
      }
    case None =>
      assert r[|votes|] == Vote(user, f, value);
  }

  /** Voting twice with the same value leaves the table as the first vote left it. */
  lemma UpsertIdempotent(votes: seq<Vote>, user: Id, f: Id, value: int)
    ensures Upsert(Upsert(votes, user, f, value), user, f, value) == Upsert(votes, user, f, value)
  {
    var r := Upsert(votes, user, f, value);
    match VoteIndex(votes, user, f)
    case Some(i) =>
      assert HasKey(r[i], user, f);
      assert VoteIndex(r, user, f) == Some(i);
    case None =>
      assert HasKey(r[|votes|], user, f);
      assert VoteIndex(r, user, f) == Some(|votes|);
  }

  // ------------------------------------------------------------ the cached count

  /** Recounting `f` after a write that only touched votes on `f` brings
      every feature's cache back in line with the votes. */
  lemma RecountRestoresAgreement(before: seq<Vote>, after: seq<Vote>, features: seq<Feature>, f: Id)
    requires CountsAgree(before, features)
    requires forall g :: g != f ==> VoteSum(after, g) == VoteSum(before, g)
    ensures CountsAgree(after, SetVoteCount(features, f, VoteSum(after, f)))
  {
  }

  /** `addVote` keeps every cached count equal to its feature's vote sum,
      on its own terms (the spec functions), for all inputs. */
  lemma AddVoteKeepsCountsAgreeing(votes: seq<Vote>, features: seq<Feature>, user: Id, f: Id, value: int)
    requires CountsAgree(votes, features)
    ensures var after := Upsert(votes, user, f, value);
      CountsAgree(after, SetVoteCount(features, f, VoteSum(after, f)))
  {
    var after := Upsert(votes, user, f, value);
    forall g | g != f ensures VoteSum(after, g) == VoteSum(votes, g) {
      UpsertSum(votes, user, f, value, g);
    }
    RecountRestoresAgreement(votes, after, features, f);
  }

  /** `removeVote` keeps every cached count equal to its feature's vote sum. */
  lemma RemoveVoteKeepsCountsAgreeing(votes: seq<Vote>, features: seq<Feature>, i: nat)
    requires i < |votes| && CountsAgree(votes, features)
    ensures var after := DeleteAt(votes, i);
      CountsAgree(after, SetVoteCount(features, votes[i].featureId, VoteSum(after, votes[i].featureId)))
  {
    var f := votes[i].featureId;
    var after := DeleteAt(votes, i);
    forall g | g != f ensures VoteSum(after, g) == VoteSum(votes, g) {
      DeleteSum(votes, i, g);
    }
    RecountRestoresAgreement(votes, after, features, f);
  }

  /** Voting again with the same value changes neither the votes nor any count. */
  lemma AddVoteIdempotent(votes: seq<Vote>, features: seq<Feature>, user: Id, f: Id, value: int)
    ensures var v1 := Upsert(votes, user, f, value);
      var fs1 := SetVoteCount(features, f, VoteSum(v1, f));
      var v2 := Upsert(v1, user, f, value);
      v2 == v1 && SetVoteCount(fs1, f, VoteSum(v2, f)) == fs1
  {
    UpsertIdempotent(votes, user, f, value);
    var v1 := Upsert(votes, user, f, value);
    var fs1 := SetVoteCount(features, f, VoteSum(v1, f));
    assert SetVoteCount(fs1, f, VoteSum(v1, f)) == fs1;
  }

  /** A worked example: +1 from A, +1 from B, -1 from C gives 1;
      removing C's vote gives 2. */
  lemma ExampleTally(a: Id, b: Id, c: Id, f: Id)
    requires a != b && b != c && a != c
    ensures var vs := Upsert(Upsert(Upsert([], a, f, 1), b, f, 1), c, f, -1);
      && VoteSum(vs, f) == 1
      && VoteIndex(vs, c, f) == Some(2)
      && VoteSum(DeleteAt(vs, 2), f) == 2
  {
    var v1 := Upsert([], a, f, 1);
    assert v1 == [Vote(a, f, 1)];
    var v2 := Upsert(v1, b, f, 1);
    assert VoteIndex(v1, b, f) == None;
    assert v2 == [Vote(a, f, 1), Vote(b, f, 1)];
    var v3 := Upsert(v2, c, f, -1);
    assert VoteIndex(v2, c, f) == None;
    assert v3 == [Vote(a, f, 1), Vote(b, f, 1), Vote(c, f, -1)];
    assert v3[..2] == v2 && v2[..1] == v1 && v1[..0] == [];
    assert VoteSum(v1, f) == 1;
    assert VoteSum(v2, f) == 2;
    assert VoteSum(v3, f) == 1;
    assert DeleteAt(v3, 2) == v2;
  }
}
